=== FILE: README.md ===
# Browser audio agent: a Dafny model of its pure core

The extension streams page audio or microphone audio to the Gemini Live
socket. It shows what comes back: a transcript for a page video, and a spoken
conversation for the microphone. It also downloads YouTube caption tracks as
text files. Almost all of it is platform I/O. This project models the pure
and state-record parts around that I/O and proves their properties.

- `frame_accumulator.dfy`: `FrameAccumulator`, the audio-worklet processor
  (`PCMProcessor`). It re-chunks sample batches of any length into
  4096-sample frames. The state is a record, and `Process` is a step function
  that returns the posted frames. `ProcessLoop` is the loop as written, proved
  equal to it.
- `pcm_codec.dfy`: `PcmCodec`.
  - `floatTo16BitPCM`: clamp, asymmetric scale, and truncating Int16 store.
  - The little-endian byte view of an `Int16Array`.
  - The `int16 / 32768` decode of playback.
- `base64.dfy`: `Base64`, covering `arrayBufferToBase64`, `btoa` and `atob`.
  - `btoa` is Base64 as defined in section 4 of RFC 4648.
  - `atob` follows the forgiving-base64 decode of the WHATWG Infra standard.
  - The Latin-1 byte strings that connect them.
- `wire.dfy`: `Wire`.
  - The socket URL.
  - The outbound `setup` and `realtime_input` messages, as data.
  - The worklet's frame handler, which both sessions share.
  - The decode half of `playPcmAudio`.
  - The end-to-end chunk round trip.
- `server_events.dfy`: `ServerEvents`. This is how inbound socket messages
  are split into `modelTurn.parts`. It has the microphone variant
  (`talkWs.onmessage`) and the page variant (`handleServerMessage`).
- `page_session.dfy`: `PageSession`, the content script's
  `startTranscription`, `stopTranscription` and socket callbacks. They are
  modelled over a state record with opaque platform handles.
- `talk_session.dfy`: `TalkSession`, the popup's conversation.
  - The talk log, covering `appendTalkLog`.
  - `startTalk`, `stopTalk` and `toggleTalk`.
  - The talk socket callbacks.
- `transcript.dfy`: `Transcript`.
  - `formatTime`.
  - Caption clean-up and line assembly of `parseTranscriptXml`.
  - Caption-track preference.
  - The download file name.
- `auth.dfy`: `Auth`, the `AuthManager` class.
  - Credential state and `isAuthenticated`.
  - The free-tier model filter and `findBestModel`.
  - `setApiKey` validation and error classification.
  - `logout`, and the URL, header, model and quota accessors.
- Helpers:
  - `platform.dfy`: opaque handles and release calls.
  - `js_strings.dfy`: `indexOf`, `includes`, `replace`, JavaScript white
    space, and nullable fields.
  - `js_math.dfy`: truncation, `Math.floor`, and `%` on numbers.
  - `decimal.dfy`: `toString` and `padStart`.
  - `wrappers.dfy`: `Option` and `Result`.

Every `fetch`, `chrome.storage`, WebSocket and Web Audio result is an
argument. For example, `PageEnv` and `TalkEnv` list the outcome of each
platform call a start makes, in call order. A handle is an opaque integer.
Release calls (`disconnect`, `close`, `stop`) are returned as a list of
`Teardown` values instead of being performed. Samples are `real` numbers.
Conversion to a 16-bit integer truncates toward zero and then applies the
ECMAScript `ToInt16` wrap. The proofs show that the wrap never fires.

## Model

| member | source | states |
|---|---|---|
| FrameAccumulator.Init | pcm-processor.js:6-11 | A new processor has a full-size zero buffer and nothing pending. |
| FrameAccumulator.Push | pcm-processor.js:24-31 | One sample keeps the processor valid. The posted frames followed by the pending samples are the old pending samples plus the new one. The cursor moves to `(i+1) mod 4096`. A frame is posted exactly when the buffer fills. |
| FrameAccumulator.PushAll | pcm-processor.js:24-31 | Feeding a whole channel is lossless: posted frames plus pending samples equal the old pending samples plus the input. Every frame is full. |
| FrameAccumulator.PushAllCount | pcm-processor.js:24-31 | `n` samples at cursor `i` post `(i+n) div 4096` frames and leave the cursor at `(i+n) mod 4096`. |
| FrameAccumulator.Process | pcm-processor.js:13-34 | `process` always returns true and keeps `0 <= bufferIndex < 4096`. With a missing `inputs[0]` or `inputs[0][0]`, it changes nothing and posts nothing. |
| FrameAccumulator.ProcessLossless | pcm-processor.js:24-31 | One call posts only full frames and loses or duplicates no channel-0 sample. |
| FrameAccumulator.ProcessCount | pcm-processor.js:24-31 | One call gives the frame count `(i+n) div 4096` and leaves the index at `(i+n) mod 4096`. |
| FrameAccumulator.OtherChannelsIgnored | pcm-processor.js:14-17 | Two calls whose channel 0 of input 0 agree behave identically. Other channels and inputs are ignored. |
| FrameAccumulator.Run | pcm-processor.js:13-34 | Any sequence of calls keeps the processor valid. |
| FrameAccumulator.RunLossless | pcm-processor.js:24-31 | Over any sequence of calls, the frames posted followed by `buffer[0..bufferIndex)` equal the old pending samples followed by all channel-0 input. Every frame has 4096 samples. |
| FrameAccumulator.FreshRunLossless | pcm-processor.js:6-31 | From a fresh processor, frames plus pending samples reassemble the whole input stream. |
| FrameAccumulator.FrameIsInputWindow | pcm-processor.js:27-29 | Frame `k` of a fresh run is input samples `k*4096 .. (k+1)*4096`. A posted frame is a copy that later writes do not change. |
| FrameAccumulator.RunAppend | pcm-processor.js:28 | Later calls never alter frames already posted: the frames of a longer run extend those of its prefix. |
| FrameAccumulator.TenThousandSamples | pcm-processor.js:24-31 | 10000 samples into a fresh processor post 2 frames and leave the index at 1808. |
| FrameAccumulator.ProcessLoop | pcm-processor.js:13-34 | The loop as written, with its in-place buffer writes, computes exactly `Process`, so it is lossless with full frames. |
| PcmCodec.Clamp | popup.js:647 | The clamped sample lies in [-1, 1]. It is the input inside that range, and the nearer bound outside it. |
| PcmCodec.WrapInt16 | popup.js:645-648 | The Int16 store is congruent to its argument modulo 2^16. It is the identity on the Int16 range. |
| PcmCodec.EncodeSample | popup.js:647-648 | Inputs >= 1 encode to 32767 and inputs <= -1 to -32768. Non-negative inputs give non-negative codes and non-positive inputs give non-positive codes. |
| PcmCodec.FloatTo16BitPCM | popup.js:644-651 | Output length equals input length, and element `i` is the encoding of sample `i`. |
| PcmCodec.EncodeNeverWraps | popup.js:647-648 | The stored value is the truncation toward zero of `s*32768` (negative `s`) or `s*32767` (otherwise). The Int16 wrap never fires. |
| PcmCodec.EncodeMonotone | popup.js:647-648 | `x1 < x2` implies `enc(x1) <= enc(x2)`. |
| PcmCodec.DecodeSample | popup.js:411-413 | `v / 32768` lies in [-1, 1) and times 32768 gives `v` back. |
| PcmCodec.DecodeEncode | popup.js:647-648 | Decoding the code of a sample gives the clamped sample's sign or zero, never a larger magnitude, and an error below 2/32768. |
| PcmCodec.PositiveErrorExceedsOneStep | popup.js:647-648 | The sample 0.99999 decodes more than one quantisation step (1/32768) low. The two-step bound of `DecodeEncode` cannot be tightened to one step. |
| PcmCodec.SampleBytes | popup.js:385 | The two buffer bytes of a sample are its unsigned 16-bit value in little-endian order. |
| PcmCodec.ReadInt16 | popup.js:407 | Reading two little-endian bytes gives the signed value whose unsigned form is `lo + 256*hi`. |
| PcmCodec.ToBytes | popup.js:385 | The byte view of `n` samples has `2n` bytes. |
| PcmCodec.FromBytes | popup.js:407 | An even-length buffer reads as half as many samples. |
| PcmCodec.FromBytesAt | popup.js:407 | Sample `i` of the `Int16Array` view is the signed little-endian pair at bytes `2i` and `2i + 1`. |
| PcmCodec.FromToBytes | popup.js:407 | Reading the byte view of a sample array gives the array back. |
| PcmCodec.ToFromBytes | popup.js:407 | Every even-length buffer is the byte view of the samples read from it. |
| Base64.AlphabetIndex | popup.js:660 | Every alphabet character has a position below 64 that maps back to it. |
| Base64.AlphabetRoundTrip | popup.js:660 | Every sextet maps to an alphabet character whose position is that sextet. |
| Base64.EncodeShape | popup.js:653-661 | The encoding of `n` bytes has `4*ceil(n/3)` characters: alphabet characters, then only `=` padding. |
| Base64.Encode | popup.js:660 | The padded encoding of `n` bytes has `4*ceil(n/3)` characters. |
| Base64.DecodeUnpaddedInverts | popup.js:402 | The decoder accepts the unpadded encoding of any bytes and returns those bytes. |
| Base64.RemoveAsciiWhitespace | popup.js:402 | The result of `atob`'s white-space removal has no ASCII white space. Text without white space is unchanged. |
| Base64.StripPaddingOfEncode | popup.js:402 | Removing the `=` padding of an encoding leaves exactly the unpadded characters. |
| Base64.BinaryString | popup.js:654-659 | The byte string has one character per byte, and each character's code is that byte. |
| Base64.CharCodes | popup.js:403-406 | `charCodeAt` into a `Uint8Array` keeps one byte per character: the code modulo 256. |
| Base64.CharCodesOfBinaryString | popup.js:403-406 | Reading the codes of a byte string gives the bytes back. |
| Base64.Btoa | popup.js:660 | `btoa` throws exactly when some character code is 256 or more. |
| Base64.Atob | popup.js:402 | `atob` rejects text whose length without white space leaves remainder 1 mod 4. What it accepts decodes to a byte string, every code below 256. |
| Base64.ArrayBufferToBase64 | popup.js:653-661 | The output has length `4*ceil(n/3)` and holds only alphabet characters and `=`. `btoa` cannot fail on a byte string. |
| Base64.AtobOfArrayBufferToBase64 | popup.js:653-661 | `atob` accepts `arrayBufferToBase64(b)`, and its character codes are `b` byte for byte, including for the empty buffer. |
| Wire.SocketUrl | popup.js:323-324 | The endpoint URL is the fixed socket base followed by the key exactly as rendered. |
| Wire.SocketUrlInjective | content.js:189-190 | Two keys that give the same socket URL are the same key. |
| Wire.FrameBytes | popup.js:384-385 | A frame of `n` samples becomes `2n` bytes. |
| Wire.AudioChunkMessage | popup.js:382-396 | A frame is sent as one `realtime_input` message with one `audio/pcm` chunk of `4*ceil(2n/3)` Base64 characters. |
| Wire.SendFrame | content.js:149-154 | The worklet's frame handler, which popup.js:268-272 repeats, sends a frame iff a socket is held and open. The message sent is the frame's audio chunk. |
| Wire.DecodePcmAudio | popup.js:400-413 | The playback decode fails exactly when `atob` rejects the text or the byte count is odd. Otherwise it yields half as many samples as bytes, each in [-1, 1). Sample `i`, times 32768, is the signed little-endian 16-bit value at bytes `2i` and `2i + 1` of the decoded text's character codes. |
| Wire.ChunkRoundTrip | popup.js:382-413 | The playback decoder accepts the chunk of any frame. It yields one sample per frame sample, each being the decoded 16-bit code of that sample. |
| Wire.ChunkSampleError | popup.js:400-413 | Each sample decoded from a chunk keeps the clamped input's sign or is zero, with magnitude error below 2/32768. |
| ServerEvents.FirstText | popup.js:360 | `parts.find(p => p.text)` is the first part with non-empty text. It is missing exactly when no part has text. |
| ServerEvents.FirstAudio | popup.js:366 | `parts.find(p => p.inlineData)` is the first part with inline data. It is missing exactly when no part has any. |
| ServerEvents.TalkDispatch | popup.js:349-373 | At most two events, text before audio. A text is logged iff some part has text, and audio is played iff some part has inline data. A `Blob`, a message that does not parse, or a message without parts yields nothing. |
| ServerEvents.TalkDispatchPicksFirst | popup.js:356-370 | The logged text and the played payload come from the earliest part that has each. |
| ServerEvents.JoinedTextAppend | content.js:255-257 | The page text of a concatenation of parts is the concatenation of their texts, in order. |
| ServerEvents.JoinedText | content.js:254-256 | The joined text begins with the first part's text and is at least as long as any part's text. A part without text contributes nothing. |
| ServerEvents.JoinedTextEmpty | content.js:255-259 | The joined text is empty exactly when no part has non-empty text. |
| ServerEvents.PageDispatch | content.js:247-272 | An update is sent iff some part has text. Its text is all part texts joined in order, with missing text as "". `isFinal` is `turnComplete`. A `Blob`, a parse failure or a message without parts yields nothing. |
| ServerEvents.TalkTextPrefixesPageText | content.js:254-257 | Whenever the microphone variant logs a text, the page variant's text for the same parts begins with it. |
| Auth.IsAuthenticated | auth.js:79-84 | Only a manager holding the credential of its own type, an OAuth token or an API key, is authenticated. A fresh manager is not. |
| Auth.FilterModels | auth.js:143-155 | The result holds exactly the summaries of the input models that support `generateContent` and whose bare name is free-tier. It is never longer than the input. |
| Auth.FilterModelsAppend | auth.js:143-150 | The filter keeps input order: filtering a concatenation concatenates the filtered parts. |
| Auth.ListAvailableModels | auth.js:109-163 | A failed listing gives `[]`; otherwise the result is the filtered list. |
| Auth.FindByName | auth.js:220 | The match is a model with that name. None is found exactly when no model has that name. |
| Auth.FirstPreferred | auth.js:219-225 | The loop stops at the first preferred name that is listed. Every earlier preferred name is absent, and none is found only when all are absent. |
| Auth.FindBestModel | auth.js:198-236 | The result is the first listed preferred name without "models/". Failing that, it is the first listed model's bare name. Failing that, it is "gemma-3-27b-it". |
| Auth.FindBestModelIsFirstPreferred | auth.js:218-225 | If preferred name `k` is listed and no earlier one is, the result is name `k` with its "models/" prefix removed. |
| Auth.BestModelIsFreeTier | auth.js:198-236 | Whatever the listing response, the chosen model is in the free-tier list. |
| Auth.MentionsApiKey | auth.js:265-276 | Every error thrown for a rejected test key mentions "API key", so the outer catch passes it through. |
| Auth.ClassifyRejection | auth.js:261-276 | A rejection never reads as a connectivity failure. It is an invalid key iff the message mentions "API_KEY_INVALID" or "invalid", even if it also mentions quota. It is exhausted quota iff it mentions neither but mentions "quota". Otherwise it is the generic auth error, which carries the message itself. |
| Auth.CatchMessage | auth.js:288-298 | The outer catch rethrows the message or replaces it with the connectivity message. A message mentioning "API key" or "quota" is kept. A message mentioning neither becomes the connectivity message. |
| Auth.SetApiKey | auth.js:238-300 | A key shorter than 20 characters (the empty key included) is rejected before any request, leaving the manager unchanged. The key and authType "apikey" are set iff the key is long enough and the test request succeeds, whether or not the storage write then succeeds. The call succeeds, storing the best model, iff in addition the storage write succeeds. Rejections are classified as invalid, then quota, then a generic auth error. A thrown error, the storage write's included, passes only if it mentions "API key" or "quota"; otherwise it becomes the connectivity message. |
| Auth.SavedKeyAuthenticates | auth.js:279-287 | A key the test request accepts authenticates the manager, even when the storage write fails and the call rejects. |
| Auth.FailedKeyKeepsManager | auth.js:240-277 | A key that fails the format check or the test request rejects and leaves the manager as it was. |
| Auth.Logout | auth.js:302-319 | Revocation of the access token is attempted exactly when OAuth is in use with a token. If it fails, logout rejects with its error and nothing changes. Otherwise `authType`, `accessToken`, `apiKey` and `apiKeyModel` become null, and logout rejects exactly when the storage removal fails. |
| Auth.LogoutDeauthenticates | auth.js:302-311 | After a logout whose revocation succeeds, `isAuthenticated` is false, even when the storage removal fails. A second logout revokes nothing and changes nothing. |
| Auth.FailedRevocationKeepsSession | auth.js:303-306 | When revocation fails, logout rejects with that error and the OAuth session stays authenticated. |
| Auth.GetAuthHeaders | auth.js:321-331 | The headers always end with the JSON content type. A Bearer header appears, first, exactly under OAuth. |
| Auth.GetModelPath | auth.js:343-351 | The model path is never empty. For the effective type "apikey" (the override if truthy, else the manager's type) it is the stored `apiKeyModel` when truthy, else "gemma-3-27b-it". For any other type it is "gemini-2.0-flash-exp". |
| Auth.GetApiUrl | auth.js:333-341 | The URL extends the generateContent URL of the custom or default model. It equals that URL exactly under OAuth; otherwise it continues with `?key=` and the rendered key. |
| Auth.GetQuotaLimit | auth.js:353-355 | The quota is 1000 iff OAuth is in use, and 100 otherwise. |
| Auth.ApiKeyDefaultUrl | auth.js:333-348 | With an API key and no stored model, the URL names "gemma-3-27b-it" and carries the key. |
| JsStrings.IndexOf | auth.js:145 | `indexOf` finds an occurrence iff there is one, and it finds the first one. |
| JsStrings.ReplaceFirst | auth.js:145 | `replace` with a string pattern replaces only the first occurrence, and changes nothing when there is none. |
| JsStrings.ReplaceAllUnchanged | content.js:412 | `replace` with a global literal pattern leaves a string without the pattern unchanged. |
| JsStrings.ReplaceAllAtFirst | popup.js:228 | With an occurrence, the global `replace` keeps the text before the first occurrence, puts the replacement in its place, and carries on with the rest. Together with `ReplaceAllUnchanged` this fixes the result for every input. |
| JsStrings.ReplaceAllAt | popup.js:228 | The same step for any occurrence that no earlier position starts. |
| JsStrings.ReplaceAllAvoids | content.js:412 | When the replacement shares no character with a pattern `q`, the result contains no `q`, if `q` is the replaced pattern or was absent before. |
| JsStrings.ReplaceAllKeepsPrefix | content.js:412 | The result agrees with the input up to the first character of a non-empty replacement. |
| JsMath.Trunc | popup.js:648 | Truncation toward zero lands within one unit of its argument, on the side toward zero. |
| JsMath.FloorDiv | content.js:427-428 | For a non-negative time, flooring its quotient by a whole divisor is integer division of its floor. |
| Decimal.NatToString | content.js:431 | `toString` of a natural number is a non-empty run of digits, one digit long iff below 10. |
| Decimal.PadStart2 | content.js:431 | `padStart(2, '0')` keeps the string as its suffix and gives length at least 2. |
| Decimal.DigitsOfNatToString | content.js:431 | The decimal digits of a number read back as the number. |
| Decimal.DigitsOfPadded | content.js:431 | Padding a number below 100 gives two digits that read back as the number. |
| Transcript.ClockParts | content.js:427-429 | For `s >= 0`, `h`, `m` and the seconds field are the hour, minute and second of `floor(s)`, minutes and seconds are below 60, and they add up to `floor(s)`. |
| Transcript.FormatTime | content.js:426-437 | For every time, positive or not, the clock text has at least five characters, and at least seven when the hour field is present. |
| Transcript.ClockTotal | content.js:427-433 | The three numbers are bounded and add up to `floor(s)`. The hour is positive exactly from 3600 seconds on. |
| Transcript.ClockRoundTrip | content.js:431-436 | A clock text splits at `:` into its fields and reads back as `h*3600 + m*60 + s`. |
| Transcript.ClockShape | content.js:431-436 | The clock text has three fields iff the hour is positive, and its last two fields are two characters each. |
| Transcript.FormatTimeRoundTrip | content.js:426-437 | `formatTime(s)` of a non-negative time reads back as `floor(s)`. |
| Transcript.FormatTimeShape | content.js:426-437 | `formatTime(s)` is `h:mm:ss` (three fields) exactly when `s >= 3600`, else `mm:ss`. Minutes and seconds are two digits. |
| Transcript.LeadingSpaces | content.js:416 | The count covers exactly the white-space characters the string starts with. |
| Transcript.TrailingSpaces | content.js:416 | The count covers exactly the white-space characters the string ends with. |
| Transcript.TrimEmpty | content.js:416 | `trim()` gives "" exactly when the string is all white space. |
| Transcript.TrimEnds | content.js:416 | A trimmed string neither starts nor ends with white space. |
| Transcript.CollapseVisible | content.js:416 | `replace(/\s+/g, ' ')` keeps every non-white-space character, in order. |
| Transcript.CollapseEnds | content.js:416 | Collapsing keeps the kind of the first and last character. Only "" collapses to "". |
| Transcript.CollapseShape | content.js:416 | After collapsing there are no two white-space characters in a row, and no white space but the plain space. |
| Transcript.CleanCaptionVisible | content.js:416 | The cleaned caption has the same visible characters as the content. |
| Transcript.CleanCaption | content.js:416 | Cleaning never lengthens the content: trimming drops characters and each white-space run becomes a single space. |
| Transcript.DecodeQuotes | content.js:412 | Content with neither `&#39;` nor `&quot;` is unchanged. The decoded text contains neither entity. |
| Transcript.CleanCaptionShape | content.js:416 | The cleaned caption has no white space at either end, no run of white space, and only plain spaces. |
| Transcript.CleanCaptionEmpty | content.js:416-418 | A caption is dropped exactly when its content is all white space. |
| Transcript.CaptionLine | content.js:412-420 | A node yields a line iff its cleaned, quote-decoded text is non-empty. |
| Transcript.LineReadsBack | content.js:420 | A line built from `[`, a clock text that reads back, `] `, a collapsed caption and a line break has the layout stated below. |
| Transcript.CaptionLineParts | content.js:416-420 | A transcript line is `[`, then the clock text of the start, then `] `, then the cleaned caption, then a final line break. For a non-negative start, the clock text reads back as the whole seconds. The caption holds no line break, so lines can be split apart again. |
| Transcript.TranscriptTextAppend | content.js:409-421 | Nodes contribute their lines independently and in document order. |
| Transcript.TranscriptTextEmpty | content.js:409-423 | The transcript is empty exactly when every node is blank. |
| Transcript.FindLanguage | content.js:327 | `tracks.find` by language gives the first track in that language, and nothing only when there is none. |
| Transcript.SelectTrack | content.js:316-333 | No tracks (missing or empty) is the error. Otherwise the chosen track is one of the tracks. It is Vietnamese whenever one is. A track in another language is chosen only as the first track. |
| Transcript.SelectTrackIsFirst | content.js:327-332 | The chosen track is the first `vi` track. Failing that, it is the first `en` track. |
| Transcript.TranscriptText | content.js:399-423 | A non-empty transcript ends with a line break, so its last line is complete. |
| Transcript.PageTitle | content.js:339 | A title without " - YouTube" is kept. Otherwise its first occurrence, ten characters, is cut out and the text on both sides is joined. |
| Transcript.TitleChar | popup.js:501 | Every title character becomes a lower-case ASCII letter, a digit or `_`. |
| Transcript.DownloadTitle | popup.js:501 | A falsy title becomes "video". Otherwise the length is kept, ASCII letters and digits are lower-cased, and every other character becomes `_`. |
| Transcript.DownloadTitleIdempotent | popup.js:501 | The title uses only `[a-z0-9_]`, so sanitising it again changes nothing. |
| PageSession.Loaded | content.js:11-18 | When the script loads, nothing is held, nothing records, and there is no key. |
| PageSession.PageTeardown | content.js:171-174 | Exactly the held source, worklet, context and socket are released. The stream's tracks are never stopped. |
| PageSession.Stop | content.js:170-183 | Afterwards nothing is held and `isRecording` is false. The key and model are kept. A session that holds nothing releases nothing. |
| PageSession.StopIdempotent | content.js:170-183 | A second `stopTranscription` calls nothing and changes nothing. |
| PageSession.ChosenModel | content.js:79-81 | The stored model replaces the current one exactly when it is a string containing "audio". |
| PageSession.CaughtAfterOpen | content.js:125-146 | The steps whose exception reaches the outer catch: creating the audio context, and creating the worklet node. |
| PageSession.AfterOpen | content.js:107-161 | After the socket opens, success comes exactly when every later step succeeds. A success holds the objects the environment gave. Teardown happens iff the context or the node throws. A failed capture answers "Capture failed" and changes nothing. No audio tracks answers "No audio tracks found" and keeps the stream. A failed module answers "AudioWorklet failed" and a failed source "Failed to create audio source", both keeping stream and context. An outer-catch failure reports the exception's message and releases what was held. |
| PageSession.Start | content.js:69-167 | Already recording: `{success: true}` with nothing changed. Success means recording. Recording keeps every object held. A teardown happens only on the outer catch, which leaves nothing held. A failed storage read releases what the state held. After a good read, teardown happens iff key, video and socket are present and the context or node then throws. |
| PageSession.StartFailsAfterOpen | content.js:107-167 | Once the socket is open, each inner catch gives its own message, tears nothing down, and keeps the open socket. The outer catch reports the exception's message and releases the socket and what was created before it. |
| PageSession.StartReadsStorage | content.js:77-81 | The stored key is always taken. The stored model is taken only if it mentions "audio". A failed storage read fails before any socket is created. |
| PageSession.StartChecksBeforeSocket | content.js:83-96 | A missing key gives "Missing API Key". Then a missing video gives "No video element found". Neither creates a socket, sends anything, or touches a handle. |
| PageSession.StartOpensSocket | content.js:98-105 | Past the checks, the socket is created with the stored key. A socket that never opens gives "WebSocket connection failed" and sends nothing. An open socket receives only the text setup naming the model. |
| PageSession.StartSucceedsExactly | content.js:69-161 | A start from a non-recording state succeeds iff storage, key, video, socket, capture with audio, context, worklet module, source and node all succeed. |
| PageSession.StartWiresEnvironment | content.js:107-159 | A successful start holds exactly the socket, stream, context, source and node the platform returned. |
| PageSession.OnSocketClose | content.js:219-222 | Any socket's close stops the session and closes whatever socket the session holds now. |
| PageSession.SilentCaptureKeepsSocket | content.js:113-118 | A capture without audio tracks fails with "No audio tracks found". It keeps the open socket and tears nothing down. |
| PageSession.StaleSocketStopsNewSession | content.js:219-222 | A start fails with its socket left open, and a later start then records on another socket. When the first socket closes, the second session is stopped and its socket closed. |
| PageSession.OnOwnSocketClose | content.js:219-222 | Corrected handler: only the close of the held socket stops the session. Any other close changes nothing. |
| PageSession.StaleCloseIgnored | content.js:219-222 | With the corrected handler, a stale socket's close leaves a running session recording. |
| PageSession.RestartAfterStop | content.js:170-183 | A start after a stop begins from no session. If it succeeds, it holds only its own new socket. |
| TalkSession.ClassName | popup.js:203-206 | model maps to "message assistant", user to "message user" and error to "message error". Anything else maps to "message system". Each holds in both directions. |
| TalkSession.StripTags | popup.js:216-217 | The text content of markup is no longer than the markup and contains no `<`. |
| TalkSession.TextContent | popup.js:212-231 | Markup, that is a text with a link or a model text, shows without any `<`. A text with a link never shows longer than it is written. Any other text without a link shows exactly as written. |
| TalkSession.TextContentOfPlain | popup.js:216-231 | A text without `<` or line breaks displays as itself, whatever its type. |
| TalkSession.AppendTalkLog | popup.js:199-236 | The log only grows, by at most one entry. It stays unchanged exactly when a system or error message repeats the last entry's text. A new entry carries the mapped class. |
| TalkSession.AppendTalkLogIdempotent | popup.js:208-210 | Logging the same plain system or error message twice logs it once. |
| TalkSession.AppendTalkLogKeepsRepeats | popup.js:210 | Model and user messages are always appended, even when repeated. |
| TalkSession.TalkTeardown | popup.js:309-312 | Exactly the held tracks, worklet, context and socket are released. No source node is disconnected. |
| TalkSession.StopTalk | popup.js:300-319 | Afterwards nothing is active, held or queued. "Session ended." is logged iff a session was active. |
| TalkSession.StopTalkIdempotent | popup.js:300-319 | A second `stopTalk` calls nothing, logs nothing and changes nothing. |
| TalkSession.FailureMessage | popup.js:289-294 | A refused microphone gets the permission link. Any other failure gets "Error: " and its message. |
| TalkSession.TalkSetup | popup.js:330-344 | The talk setup names the model "models/gemini-2.5-flash-native-audio-dialog" and asks for audio replies in the Aoede voice. |
| TalkSession.Fail | popup.js:285-297 | The catch leaves nothing held and releases what the state held. It logs the end notice if active, then the error. |
| TalkSession.Attach | popup.js:265-283 | The session becomes active iff source and node creation succeed. It then logs the listening notice. Otherwise the session is idle, the release calls are exactly those of `stopTalk` on the state before, and the log gets the end notice and the error. |
| TalkSession.AfterContext | popup.js:257-283 | After the context exists, the session is active iff the module loads, the socket opens, and source and node are created. A failure releases what the session held, plus the socket once it was created. |
| TalkSession.StartTalk | popup.js:246-298 | Every start logs the request first. A start that does not end active leaves nothing held. |
| TalkSession.StartTalkSucceedsExactly | popup.js:246-283 | A start succeeds iff every platform call does. It then holds the returned objects, logged the request and listening lines, sent the setup, and released nothing. |
| TalkSession.StartTalkFailureLines | popup.js:285-294 | A failed start logs the request, the end notice if a session was active, and then the first failing call's error. |
| TalkSession.StartTalkFailureReleases | popup.js:285-287 | A failed start leaves nothing held. |
| TalkSession.SocketFailureMessage | popup.js:375 | A socket that errors before opening is logged as "Error: undefined". |
| TalkSession.StartTalkSends | popup.js:321-347 | The socket is created, with the rendered key, exactly when microphone, context and module succeed. The setup is the only message, sent exactly when the socket opens. |
| TalkSession.PermissionLinkOnlyForRefusal | popup.js:290-294 | Only a refusal shows the permission link. Every other failure reads "Error: ...". |
| TalkSession.FailedStartLogsError | popup.js:246-294 | A failed start of an inactive session always ends the history with its error entry. De-duplication cannot drop it. |
| TalkSession.OnTalkMessage | popup.js:349-373 | The first non-empty text is logged as a model message. The first inline audio is played iff there is an audio context and the payload decodes to at least one sample (`createBuffer` refuses a zero-length buffer), and it is played as exactly the decoded samples. Messages without parts do nothing. |
| TalkSession.ModelTextAlwaysLogged | popup.js:360-363 | Every model text a message carries adds a history entry, repeated or not. |
| TalkSession.OnTalkClose | popup.js:376-378 | The socket close stops an active session and does nothing otherwise. |
| TalkSession.Toggle | popup.js:238-244 | Toggle stops an active session, releasing what it holds; otherwise it starts one. |
| TalkSession.ToggleTwiceReleases | popup.js:238-244 | Toggling a started session releases its socket, tracks, context and worklet. It logs only the end notice. |
| Platform.Release | popup.js:309-312 | A release call is made exactly for a held handle. |

## Behaviour worth noting

- Sample round trip. A decoded sample can land almost two quantisation steps below the original, because positive samples are scaled by 32767 but decoded by 32768. `PcmCodec.DecodeEncode` proves the two-step bound, and `PcmCodec.PositiveErrorExceedsOneStep` exhibits an input more than one step off.
- Page-session teardown. `stopTranscription` disconnects the nodes and closes the context and the socket, but never stops the captured stream's tracks (`PageSession.PageTeardown`).
- No audio tracks. A capture without an audio track fails the start, but the already-open socket stays open (`PageSession.SilentCaptureKeepsSocket`). That is the origin of the finding below.
- Denied microphone. `startTalk` never rejects. A refused microphone is logged as an error entry holding the permission link (`TalkSession.PermissionLinkOnlyForRefusal`).
- Base64 decoding. `atob` rejects malformed text, and `playPcmAudio` then throws (`Wire.DecodePcmAudio`). It accepts every output of the encoder (`Base64.AtobOfArrayBufferToBase64`).
- Storage and revocation failures. When the storage write of `setApiKey` fails, the key is already in memory: the call rejects, yet the manager is authenticated (`Auth.SavedKeyAuthenticates`). When token revocation fails, `logout` rejects before clearing anything, so the OAuth session stays signed in (`Auth.FailedRevocationKeepsSession`).

## Left out

- I/O: sockets, Web Audio, `getUserMedia`, `captureStream`, `fetch`, `chrome.storage`, `chrome.identity`, `chrome.tabs` and runtime messaging. The outcomes the modelled operations depend on are parameters, including the failure of the `chrome.storage` write in `setApiKey` and of the token revocation and storage removal in `logout`. background.js routing and the permissions.js page are not part of this model.
- PageSession.Start: a socket that neither opens nor errors leaves `connectWebSocket` (content.js:187-223) pending forever. The model has no pending outcome: `socketOpens = false` stands for an error.
- PageSession.Start: `new WebSocket(url)` can throw synchronously, for example when the key holds `#` and the URL gets a fragment. The promise then rejects before `ws` is assigned (content.js:193). The model always hands the new socket to the session.
- TalkSession.StartTalk: the same two socket outcomes, a start that never settles and a synchronous `WebSocket` exception (popup.js:321-379), are not modelled, for the same reasons.
- Playback scheduling and the 24 kHz buffer of `playPcmAudio` (popup.js:417-425) are platform calls. Only the decode is modelled.
- IEEE-754 arithmetic: samples are exact reals. `Float32Array` rounding, NaN and infinities are not modelled.
- JavaScript strings are modelled as sequences of code points, not UTF-16 code units.
- JSON serialisation of the `setup` and `realtime_input` messages: they are datatypes, not text.
- The DOM:
  - chat and transcript rendering and the markdown regexes of the chat;
  - YouTube script injection, its `postMessage` listener and its timeout;
  - the download helpers.
- `parseTranscriptXml` parses the XML into DOM nodes. The model starts from the parsed `(start, textContent)` nodes; `parseFloat` of `start` is an input.
- Only the two entities the source replaces are decoded (`&#39;`, `&quot;`).
- TalkSession.StripTags: approximates the browser's HTML parser. It drops every `<...>` span, and entities are left as written. A browser opens a tag only when `<` is followed by an ASCII letter, `/`, `!` or `?`. The model treats every `<` as a tag start. So a model reply "if x < 5" shows as "if x < 5" in the browser but as "if x " in the model. The "no `<`" clauses of `StripTags` and `TextContent` hold for the model only.
- `AuthManager.initialize`, `loadApiKeyFromManifest`, `loginWithGoogle`, `getModelUsageInfo`, `validateAuth` and `getAuthTypeName` are left out. They are storage, manifest, identity and network calls around the modelled accessors.
- `talkAudioQueue` is only ever reset. It is modelled as a field that `stopTalk` empties.
- The popup keeps no reference to its microphone source node, so there is nothing for it to disconnect. `TalkReleases` states this.
- `appendTalkLog` returns early when the history element is missing. The model assumes the element is present.
- The status text, button classes and `alert` calls are left out.
- `floatTo16BitPCM` and `arrayBufferToBase64` appear verbatim in both popup.js (644-661) and content.js (276-294). The model has one definition, cited at the popup.js lines.
- Preferred model names after the fifth cannot be chosen. The filtered list only holds free-tier names, and those names are not free-tier. The model keeps the full preference list anyway.
- Transcript.FormatTimeRoundTrip: stated for non-negative times only. For a negative `start` the source prints negative fields, which `FormatTime` models but no lemma reads back.
- Transcript.FormatTimeShape: non-negative times only, for the same reason.
- PcmCodec.DecodeEncode: bounds the error on exact reals. The additional `Float32` rounding of the source is not modelled.

## Findings

| source | as written | input that shows it | evidently intended | confidence | as-written member | corrected member |
|---|---|---|---|---|---|---|
| content.js:219-222 | Every socket's `onclose` calls `stopTranscription()`. That tears down whatever session is current, including one started later on a newer socket. | A start whose capture has no audio tracks fails after its socket opened, and that socket stays open. A second start then records on socket 8. When socket 7 closes, the recording session is stopped and socket 8 is closed. | Only the close of the socket the session holds should stop it. | medium, not executed | PageSession.StaleSocketStopsNewSession | PageSession.StaleCloseIgnored |

=== FILE: auth.dfy ===
/** The credential manager (`AuthManager`): which credential is in use, the
    free-tier model filter and preference search, API-key validation and
    error classification, and the URL, header, model and quota accessors.
    Every `fetch` and `chrome.*` result is an argument. */
module Auth {
  import opened Wrappers
  import opened JsStrings

  datatype AuthManager = AuthManager(
    authType: JsValue,
    accessToken: JsValue,
    apiKey: JsValue,
    apiKeyModel: JsValue,
    isLoadedFromManifest: bool)

  /** The constructor. */
  function Fresh(): AuthManager {
    AuthManager(Null, Null, Null, Null, false)
  }

  const OAuth := Str("oauth")
  const ApiKey := Str("apikey")

  /** `isAuthenticated()`, as the truth value callers test: the credential
      of the manager's own type must be present. */
  function IsAuthenticated(m: AuthManager): (b: bool)
    ensures b ==> m.authType == OAuth || m.authType == ApiKey
    ensures m.authType == OAuth ==> (b <==> Truthy(m.accessToken))
    ensures m.authType == ApiKey ==> (b <==> Truthy(m.apiKey))
    ensures m == Fresh() ==> !b
  {
    (m.authType == OAuth && Truthy(m.accessToken)) || (m.authType == ApiKey && Truthy(m.apiKey))
  }

  // ---------------------------------------------------------------------
  // Model listing and selection

  const DefaultModel := "gemma-3-27b-it"

  const FreeTierModels: seq<string> := [
    "gemini-3-flash", "gemini-2.5-pro", "gemini-2.5-flash", "gemini-2.5-flash-lite",
    "gemini-2.5-flash-tts", "gemini-2.5-flash-native-audio-dialog",
    "gemini-robotics-er-1.5-preview", "gemma-3-12b-it", "gemma-3-1b-it",
    "gemma-3-27b-it", "gemma-3-2b-it", "gemma-3-4b-it"]

  const PreferredModels: seq<string> := [
    "models/gemma-3-27b-it", "models/gemini-3-flash", "models/gemini-2.5-flash",
    "models/gemini-2.5-flash-lite", "models/gemini-2.5-pro", "models/gemini-1.5-flash",
    "models/gemini-1.5-flash-002", "models/gemini-1.5-flash-001",
    "models/gemini-2.0-flash-exp", "models/gemini-1.5-flash-8b", "models/gemini-pro",
    "models/gemini-1.0-pro"]

  /** One entry of the ListModels response. */
  datatype ModelInfo = ModelInfo(
    name: string,
    supportedGenerationMethods: Option<seq<string>>,
    displayName: JsValue,
    description: JsValue)

  /** The projection `listAvailableModels` returns. */
  datatype ModelSummary = ModelSummary(name: string, displayName: JsValue, description: JsValue)

  function Summary(m: ModelInfo): ModelSummary {
    ModelSummary(m.name, m.displayName, m.description)
  }

  /** `name.replace("models/", "")`: the first occurrence, wherever it is. */
  function BareName(name: string): string {
    ReplaceFirst(name, "models/", "")
  }

  /** The filter of `listAvailableModels`. */
  predicate IsFreeTierGenerator(m: ModelInfo) {
    && m.supportedGenerationMethods.Some?
    && "generateContent" in m.supportedGenerationMethods.value
    && BareName(m.name) in FreeTierModels
  }

  function FilterModels(models: seq<ModelInfo>): (r: seq<ModelSummary>)
    ensures |r| <= |models|
    ensures forall s :: s in r ==> exists m :: m in models && IsFreeTierGenerator(m) && s == Summary(m)
    ensures forall m :: m in models && IsFreeTierGenerator(m) ==> Summary(m) in r
  {
    if |models| == 0 then []
    else
      var rest := FilterModels(models[1..]);
      assert forall m :: m in models <==> m == models[0] || m in models[1..];
      if IsFreeTierGenerator(models[0]) then [Summary(models[0])] + rest else rest
  }

  /** The filter keeps the input order: filtering a concatenation is the
      concatenation of the filtered parts. */
  lemma {:induction false} FilterModelsAppend(a: seq<ModelInfo>, b: seq<ModelInfo>)
    decreases |a|
    ensures FilterModels(a + b) == FilterModels(a) + FilterModels(b)
  {
    if |a| == 0 {
      assert a + b == b;
    } else {
      assert (a + b)[0] == a[0];
      assert (a + b)[1..] == a[1..] + b;
      FilterModelsAppend(a[1..], b);
    }
  }

  /** `listAvailableModels(apiKey)`, given the parsed response of the
      ListModels request (`None` when the request fails, is not ok or its
      body does not parse: the method then returns `[]`). */
  function ListAvailableModels(response: Option<seq<ModelInfo>>): (r: seq<ModelSummary>)
    ensures response.None? ==> r == []
    ensures response.Some? ==> r == FilterModels(response.value)
  {
    match response
    case None => []
    case Some(models) => FilterModels(models)
  }

  /** Index of the first model named `name`. */
  function FindByName(models: seq<ModelSummary>, name: string): (r: Option<nat>)
    ensures r.Some? ==> r.value < |models| && models[r.value].name == name
    ensures r.None? <==> forall j :: 0 <= j < |models| ==> models[j].name != name
  {
    if |models| == 0 then None
    else if models[0].name == name then Some(0)
    else match FindByName(models[1..], name)
      case None => None
      case Some(k) => Some(k + 1)
  }

  /** The loop over a preference list from position `k`: the first
      preferred name that is listed. */
  function FirstPreferred(models: seq<ModelSummary>, prefs: seq<string>, k: nat): (r: Option<nat>)
    decreases |prefs| - k
    ensures r.Some? ==> k <= r.value < |prefs| && FindByName(models, prefs[r.value]).Some?
    ensures r.Some? ==> forall j :: k <= j < r.value ==> FindByName(models, prefs[j]).None?
    ensures r.None? ==> forall j :: k <= j < |prefs| ==> FindByName(models, prefs[j]).None?
  {
    if k >= |prefs| then None
    else if FindByName(models, prefs[k]).Some? then Some(k)
    else FirstPreferred(models, prefs, k + 1)
  }

  /** `findBestModel`, given the listed models: the first preferred name
      that is listed, else the first listed model, else the default; the
      chosen name has its first "models/" removed. */
  function FindBestModel(models: seq<ModelSummary>): (r: string)
    ensures var p := FirstPreferred(models, PreferredModels, 0);
      p.Some? ==> r == BareName(PreferredModels[p.value])
    ensures var p := FirstPreferred(models, PreferredModels, 0);
      p.None? && |models| > 0 ==> r == BareName(models[0].name)
    ensures FirstPreferred(models, PreferredModels, 0).None? && |models| == 0 ==> r == DefaultModel
  {
    match FirstPreferred(models, PreferredModels, 0)
    case Some(k) => BareName(models[FindByName(models, PreferredModels[k]).value].name)
    case None => if |models| > 0 then BareName(models[0].name) else DefaultModel
  }

  /** Every preferred name is qualified with "models/". */
  lemma PreferredQualified(k: nat)
    requires k < |PreferredModels|
    ensures |PreferredModels[k]| >= 7 && PreferredModels[k][..7] == "models/"
  {
  }

  /** The preference search stops at the first preferred name present:
      earlier preferred names are all absent from the list. */
  lemma FindBestModelIsFirstPreferred(models: seq<ModelSummary>, k: nat)
    requires k < |PreferredModels|
    requires exists i :: 0 <= i < |models| && models[i].name == PreferredModels[k]
    requires forall j :: 0 <= j < k ==> forall i :: 0 <= i < |models| ==> models[i].name != PreferredModels[j]
    ensures FindBestModel(models) == PreferredModels[k][7..]
  {
    var prefs := PreferredModels;
    assert FindByName(models, prefs[k]).Some?;
    assert forall j :: 0 <= j < k ==> FindByName(models, prefs[j]).None?;
    assert FirstPreferred(models, prefs, 0) == Some(k);
    PreferredQualified(k);
    ReplaceFirstOfPrefix(prefs[k], "models/");
  }

  /** Whatever the ListModels response, the chosen model is a free-tier
      model: the filter only keeps free-tier names and the default is one. */
  lemma BestModelIsFreeTier(response: Option<seq<ModelInfo>>)
    ensures FindBestModel(ListAvailableModels(response)) in FreeTierModels
  {
    var models := ListAvailableModels(response);
    assert DefaultModel == FreeTierModels[9];
    match FirstPreferred(models, PreferredModels, 0)
    case Some(k) =>
      var i := FindByName(models, PreferredModels[k]).value;
      assert models[i] in models;
    case None =>
      if |models| > 0 {
        assert models[0] in models;
      }
  }

  // ---------------------------------------------------------------------
  // API keys

  /** The words every key error mentions. */
  const KeyWords := "API key"

  const InvalidKeyMessage := KeyWords + " không hợp lệ. Vui lòng kiểm tra lại."
  const QuotaMessage := KeyWords + " đã hết quota. Vui lòng tạo key mới."
  const ConnectivityMessage := "Không thể kết nối đến Gemini API. Vui lòng kiểm tra kết nối internet."

  function AuthFailedMessage(detail: string): string {
    "Lỗi xác thực " + KeyWords + ": " + (if detail == "" then "Không xác định" else detail)
  }

  /** The outcome of the test `generateContent` request. */
  datatype KeyTest =
    | Accepted                  // response ok
    | Rejected(message: string) // not ok; `error.message` of the body, or ""
    | Threw(message: string)    // `fetch` itself threw

  /** The four messages the classifier can produce, by category. */
  datatype KeyFailure = InvalidKey | QuotaExhausted | AuthFailed(detail: string) | Unreachable

  function FailureMessage(f: KeyFailure): string {
    match f
    case InvalidKey => InvalidKeyMessage
    case QuotaExhausted => QuotaMessage
    case AuthFailed(d) => AuthFailedMessage(d)
    case Unreachable => ConnectivityMessage
  }

  /** The error thrown for a rejected test, before the outer `catch`. */
  function ClassifyRejection(message: string): (f: KeyFailure)
    ensures !f.Unreachable?
    ensures Contains(message, "invalid") ==> f == InvalidKey
    ensures f == QuotaExhausted ==> Contains(message, "quota")
    ensures f.AuthFailed? ==> f.detail == message && !Contains(message, "quota")
    ensures f == InvalidKey <==> Contains(message, "API_KEY_INVALID") || Contains(message, "invalid")
    ensures f == QuotaExhausted <==>
      !Contains(message, "API_KEY_INVALID") && !Contains(message, "invalid") && Contains(message, "quota")
    ensures f.AuthFailed? <==>
      !Contains(message, "API_KEY_INVALID") && !Contains(message, "invalid") && !Contains(message, "quota")
  {
    if Contains(message, "API_KEY_INVALID") || Contains(message, "invalid") then InvalidKey
    else if Contains(message, "quota") then QuotaExhausted
    else AuthFailed(message)
  }

  lemma MentionsApiKey(f: KeyFailure)
    requires !f.Unreachable?
    ensures Contains(FailureMessage(f), KeyWords)
  {
    match f
    case AuthFailed(d) =>
      var rest := if d == "" then "Không xác định" else d;
      assert FailureMessage(f) == "Lỗi xác thực " + KeyWords + (": " + rest);
      OccursInSplice("Lỗi xác thực ", KeyWords, ": " + rest);
    case InvalidKey =>
      OccursInSplice("", KeyWords, " không hợp lệ. Vui lòng kiểm tra lại.");
    case QuotaExhausted =>
      OccursInSplice("", KeyWords, " đã hết quota. Vui lòng tạo key mới.");
  }

  /** The outer `catch`: errors mentioning "API key" or "quota" pass
      through, every other error becomes the connectivity message. */
  function CatchMessage(message: string): (r: string)
    ensures r == message || r == ConnectivityMessage
    ensures Contains(message, KeyWords) || Contains(message, "quota") ==> r == message
    ensures r != message ==> r == ConnectivityMessage && !Contains(message, KeyWords)
    ensures !Contains(message, KeyWords) && !Contains(message, "quota") ==> r == ConnectivityMessage
  {
    if Contains(message, KeyWords) || Contains(message, "quota") then message
    else ConnectivityMessage
  }

  /** What `setApiKey` leaves behind: the manager, and either the model
      written to storage or the message of the error it throws. The
      in-memory `apiKeyModel` is never updated. */
  datatype KeyOutcome = KeyOutcome(manager: AuthManager, result: Result<string, string>)

  /** `setApiKey(apiKey)`: format check first, then the model search and
      test request, then the storage write. `storeError` is the message the
      `chrome.storage.local.set` promise rejects with, or None when the
      write succeeds. The fields are updated before that write, so a failed
      write still leaves them set. */
  function SetApiKey(m: AuthManager, apiKey: string, listing: Option<seq<ModelInfo>>, test: KeyTest,
                     storeError: Option<string>): (r: KeyOutcome)
    ensures |apiKey| < 20 ==> r == KeyOutcome(m, Err(InvalidKeyMessage))
    ensures r.manager == (if |apiKey| >= 20 && test.Accepted? then m.(apiKey := Str(apiKey), authType := ApiKey) else m)
    ensures r.result.Ok? <==> |apiKey| >= 20 && test.Accepted? && storeError.None?
    ensures r.result.Ok? ==> r.result.value == FindBestModel(ListAvailableModels(listing))
    ensures |apiKey| >= 20 && test.Rejected? ==> r.result == Err(FailureMessage(ClassifyRejection(test.message)))
    ensures |apiKey| >= 20 && test.Threw? ==> r.result == Err(CatchMessage(test.message))
    ensures |apiKey| >= 20 && test.Accepted? && storeError.Some? ==> r.result == Err(CatchMessage(storeError.value))
  {
    if apiKey == "" || |apiKey| < 20 then KeyOutcome(m, Err(InvalidKeyMessage))
    else
      var best := FindBestModel(ListAvailableModels(listing));
      match test
      case Accepted =>
        var saved := m.(apiKey := Str(apiKey), authType := ApiKey);
        if storeError.None? then KeyOutcome(saved, Ok(best))
        else KeyOutcome(saved, Err(CatchMessage(storeError.value)))
      case Rejected(msg) =>
        var thrown := FailureMessage(ClassifyRejection(msg));
        MentionsApiKey(ClassifyRejection(msg));
        assert CatchMessage(thrown) == thrown;
        KeyOutcome(m, Err(CatchMessage(thrown)))
      case Threw(msg) => KeyOutcome(m, Err(CatchMessage(msg)))
  }

  /** A key accepted by the test request authenticates the manager, whether
      or not the storage write then succeeds: a failed write rejects the
      call but leaves the key in memory. */
  lemma SavedKeyAuthenticates(m: AuthManager, apiKey: string, listing: Option<seq<ModelInfo>>,
                              storeError: Option<string>)
    requires |apiKey| >= 20
    ensures SetApiKey(m, apiKey, listing, Accepted, storeError).result.Ok? <==> storeError.None?
    ensures IsAuthenticated(SetApiKey(m, apiKey, listing, Accepted, storeError).manager)
  {
  }

  /** A key that fails the format check or the test request leaves the
      manager as it was, and the call rejects. */
  lemma FailedKeyKeepsManager(m: AuthManager, apiKey: string, listing: Option<seq<ModelInfo>>, test: KeyTest,
                              storeError: Option<string>)
    requires |apiKey| < 20 || !test.Accepted?
    ensures SetApiKey(m, apiKey, listing, test, storeError).manager == m
    ensures SetApiKey(m, apiKey, listing, test, storeError).result.Err?
  {
  }

  // ---------------------------------------------------------------------
  // Logout and accessors

  /** `logout()`: the token it tries to revoke, the manager afterwards, and
      the message it rejects with, if any. */
  datatype LoggedOut = LoggedOut(manager: AuthManager, revokedToken: Option<string>, thrown: Option<string>)

  /** `logout()`. `revokeError` is the message `removeCachedAuthToken`
      rejects with and `removeError` the one `chrome.storage.local.remove`
      rejects with (None when the call succeeds). A failed revocation throws
      before any field is cleared; a failed removal throws after. */
  function Logout(m: AuthManager, revokeError: Option<string>, removeError: Option<string>): (r: LoggedOut)
    ensures r.revokedToken.Some? <==> m.authType == OAuth && Truthy(m.accessToken)
    ensures r.revokedToken.Some? ==> r.revokedToken.value == m.accessToken.s
    ensures r.revokedToken.Some? && revokeError.Some? ==> r.manager == m && r.thrown == revokeError
    ensures r.revokedToken.None? || revokeError.None? ==>
      && r.manager.authType == Null && r.manager.accessToken == Null
      && r.manager.apiKey == Null && r.manager.apiKeyModel == Null
      && r.manager.isLoadedFromManifest == m.isLoadedFromManifest
      && r.thrown == removeError
  {
    var cleared := m.(authType := Null, accessToken := Null, apiKey := Null, apiKeyModel := Null);
    if m.authType == OAuth && Truthy(m.accessToken) then
      if revokeError.Some? then LoggedOut(m, Some(m.accessToken.s), revokeError)
      else LoggedOut(cleared, Some(m.accessToken.s), removeError)
    else LoggedOut(cleared, None, removeError)
  }

  /** Once revocation succeeds (or is not needed) nothing is authenticated,
      even if the storage removal fails; a second logout revokes nothing and
      changes nothing. */
  lemma LogoutDeauthenticates(m: AuthManager, removeError: Option<string>,
                              revoke2: Option<string>, remove2: Option<string>)
    ensures !IsAuthenticated(Logout(m, None, removeError).manager)
    ensures var out := Logout(m, None, removeError).manager;
      Logout(out, revoke2, remove2) == LoggedOut(out, None, remove2)
  {
  }

  /** A failed revocation leaves an OAuth session signed in. */
  lemma FailedRevocationKeepsSession(m: AuthManager, revokeError: string, removeError: Option<string>)
    requires m.authType == OAuth && Truthy(m.accessToken)
    ensures Logout(m, Some(revokeError), removeError).thrown == Some(revokeError)
    ensures IsAuthenticated(Logout(m, Some(revokeError), removeError).manager)
  {
  }

  /** `getAuthHeaders()`, as name/value pairs in insertion order. */
  function GetAuthHeaders(m: AuthManager): (h: seq<(string, string)>)
    ensures |h| >= 1 && h[|h| - 1] == ("Content-Type", "application/json")
    ensures m.authType == OAuth ==> h[0] == ("Authorization", "Bearer " + Render(m.accessToken))
    ensures forall i :: 0 <= i < |h| && h[i].0 == "Authorization" ==> m.authType == OAuth
  {
    if m.authType == OAuth then
      [("Authorization", "Bearer " + Render(m.accessToken)), ("Content-Type", "application/json")]
    else
      [("Content-Type", "application/json")]
  }

  /** `getModelPath(typeOverride)`. */
  function GetModelPath(m: AuthManager, typeOverride: JsValue): (r: string)
    ensures r != ""
    ensures (if Truthy(typeOverride) then typeOverride else m.authType) != ApiKey ==> r == "gemini-2.0-flash-exp"
    ensures (if Truthy(typeOverride) then typeOverride else m.authType) == ApiKey ==>
      r == (if Truthy(m.apiKeyModel) then m.apiKeyModel.s else DefaultModel)
  {
    var t := if Truthy(typeOverride) then typeOverride else m.authType;
    if t == ApiKey then OrElse(m.apiKeyModel, DefaultModel) else "gemini-2.0-flash-exp"
  }

  function GenerateUrl(model: string): string {
    "https://generativelanguage.googleapis.com/v1beta/models/" + model + ":generateContent"
  }

  /** `getApiUrl(customModel)`: the generateContent URL of the model, with
      the key as query parameter unless OAuth is in use. */
  function GetApiUrl(m: AuthManager, customModel: JsValue): (r: string)
    ensures var base := GenerateUrl(OrElse(customModel, GetModelPath(m, Null)));
      && base <= r
      && (m.authType == OAuth <==> r == base)
      && (m.authType != OAuth ==> r[|base|..] == "?key=" + Render(m.apiKey))
  {
    var base := GenerateUrl(OrElse(customModel, GetModelPath(m, Null)));
    if m.authType == OAuth then base else base + "?key=" + Render(m.apiKey)
  }

  /** `getQuotaLimit()`. */
  function GetQuotaLimit(m: AuthManager): (r: nat)
    ensures r == 1000 || r == 100
    ensures r == 1000 <==> m.authType == OAuth
  {
    if m.authType == OAuth then 1000 else 100
  }

  /** With an API key and no stored model the URL names the default model
      and carries the key. */
  lemma ApiKeyDefaultUrl(m: AuthManager)
    requires m.authType == ApiKey && !Truthy(m.apiKeyModel) && Truthy(m.apiKey)
    ensures GetApiUrl(m, Null) == GenerateUrl(DefaultModel) + "?key=" + m.apiKey.s
  {
  }
}

=== FILE: base64.dfy ===
/** The transport encoding of audio chunks: the Latin-1 "binary string" of a
    byte buffer (`String.fromCharCode` per byte, `charCodeAt` back), and
    `btoa`/`atob`: `btoa` is Base64 of section 4 of RFC 4648 (with `=`
    padding), `atob` the forgiving-base64 decoder of the WHATWG Infra
    standard. */
module Base64 {
  import opened Wrappers
  import opened PcmCodec

  /** The `DOMException` both `btoa` and `atob` throw on bad input. */
  datatype DomError = InvalidCharacterError

  /** Character `i` of the Base64 alphabet (Table 1 of RFC 4648). */
  function AlphabetChar(i: nat): (c: char)
    requires i < 64
  {
    if i < 26 then (65 + i) as char
    else if i < 52 then (97 + i - 26) as char
    else if i < 62 then (48 + i - 52) as char
    else if i == 62 then '+'
    else '/'
  }

  predicate InAlphabet(c: char) {
    ('A' <= c <= 'Z') || ('a' <= c <= 'z') || ('0' <= c <= '9') || c == '+' || c == '/'
  }

  /** Position of an alphabet character in the alphabet. */
  function AlphabetIndex(c: char): (i: nat)
    requires InAlphabet(c)
    ensures i < 64 && AlphabetChar(i) == c
  {
    if 'A' <= c <= 'Z' then c as int - 65
    else if 'a' <= c <= 'z' then c as int - 97 + 26
    else if '0' <= c <= '9' then c as int - 48 + 52
    else if c == '+' then 62
    else 63
  }

  lemma AlphabetRoundTrip(i: nat)
    requires i < 64
    ensures InAlphabet(AlphabetChar(i)) && AlphabetIndex(AlphabetChar(i)) == i
  {
  }

  /** Base64 characters of the bytes, without the trailing `=` padding:
      four characters per full group of three bytes, then three for a final
      pair and two for a final single byte. */
  function Unpadded(b: seq<Byte>): (s: string)
    decreases |b|
  {
    if |b| == 0 then ""
    else if |b| == 1 then
      [AlphabetChar(b[0] / 4), AlphabetChar((b[0] % 4) * 16)]
    else if |b| == 2 then
      [AlphabetChar(b[0] / 4), AlphabetChar((b[0] % 4) * 16 + b[1] / 16),
       AlphabetChar((b[1] % 16) * 4)]
    else
      [AlphabetChar(b[0] / 4), AlphabetChar((b[0] % 4) * 16 + b[1] / 16),
       AlphabetChar((b[1] % 16) * 4 + b[2] / 64), AlphabetChar(b[2] % 64)]
      + Unpadded(b[3..])
  }

  /** The `=` characters that complete the last quantum. */
  function Padding(n: nat): string {
    if n % 3 == 1 then "==" else if n % 3 == 2 then "=" else ""
  }

  /** Base64 encoding with padding, section 4 of RFC 4648. */
  function Encode(b: seq<Byte>): (s: string)
    ensures |s| == 4 * ((|b| + 2) / 3)
  {
    UnpaddedLength(b);
    PaddedLength(|b|);
    Unpadded(b) + Padding(|b|)
  }

  /** The unpadded length plus the padding is four characters per started
      group of three bytes. */
  lemma PaddedLength(n: nat)
    ensures 4 * (n / 3) + (if n % 3 == 0 then 0 else n % 3 + 1) + |Padding(n)| == 4 * ((n + 2) / 3)
  {
    var q := n / 3;
    assert n == 3 * q + n % 3;
    assert (n + 2) / 3 == (if n % 3 == 0 then q else q + 1);
  }

  lemma {:induction false} UnpaddedLength(b: seq<Byte>)
    decreases |b|
    ensures |Unpadded(b)| == 4 * (|b| / 3) + (if |b| % 3 == 0 then 0 else |b| % 3 + 1)
  {
    if |b| >= 3 {
      UnpaddedLength(b[3..]);
    }
  }

  lemma {:induction false} UnpaddedDecodable(b: seq<Byte>)
    decreases |b|
    ensures Decodable(Unpadded(b))
  {
    if |b| >= 3 {
      UnpaddedDecodable(b[3..]);
      var t := Unpadded(b[3..]);
      var u := Unpadded(b);
      assert u == u[..4] + t;
      forall i | 0 <= i < |u|
        ensures InAlphabet(u[i])
      {
        if i >= 4 {
          assert u[i] == t[i - 4];
        }
      }
    }
  }

  lemma FourTimesIsMultiple(k: int)
    ensures (4 * k) % 4 == 0
  {
  }

  /** The encoded length is `4 * ceil(n / 3)`, every character is in the
      alphabet or is trailing padding. */
  lemma EncodeShape(b: seq<Byte>)
    ensures |Encode(b)| == 4 * ((|b| + 2) / 3)
    ensures |Encode(b)| % 4 == 0
    ensures forall i :: 0 <= i < |Unpadded(b)| ==> InAlphabet(Encode(b)[i])
    ensures forall i :: |Unpadded(b)| <= i < |Encode(b)| ==> Encode(b)[i] == '='
  {
    FourTimesIsMultiple((|b| + 2) / 3);
    UnpaddedDecodable(b);
    var u, p := Unpadded(b), Padding(|b|);
    assert Encode(b) == u + p;
    assert forall i :: 0 <= i < |u| ==> (u + p)[i] == u[i];
    assert forall i :: |u| <= i < |u| + |p| ==> (u + p)[i] == p[i - |u|] == '=';
  }

  /** Unpadded Base64 text the decoder accepts. */
  predicate Decodable(s: string) {
    |s| % 4 != 1 && forall i :: 0 <= i < |s| ==> InAlphabet(s[i])
  }

  /** Bytes of unpadded Base64 text whose characters are all in the
      alphabet: three bytes per four characters, then two bytes from three
      characters or one byte from two, the leftover bits discarded. */
  function DecodeUnpadded(s: string): (b: seq<Byte>)
    requires Decodable(s)
    decreases |s|
  {
    if |s| == 0 then []
    else
      var c0 := AlphabetIndex(s[0]);
      var c1 := AlphabetIndex(s[1]);
      if |s| == 2 then [c0 * 4 + c1 / 16]
      else
        var c2 := AlphabetIndex(s[2]);
        if |s| == 3 then [c0 * 4 + c1 / 16, (c1 % 16) * 16 + c2 / 4]
        else
          var c3 := AlphabetIndex(s[3]);
          [c0 * 4 + c1 / 16, (c1 % 16) * 16 + c2 / 4, (c2 % 4) * 64 + c3]
          + DecodeUnpadded(s[4..])
  }

  /** The sextets of three bytes give the three bytes back. */
  lemma FullGroupArithmetic(b0: Byte, b1: Byte, b2: Byte)
    ensures var c1 := (b0 % 4) * 16 + b1 / 16; var c2 := (b1 % 16) * 4 + b2 / 64;
      && (b0 / 4) * 4 + c1 / 16 == b0
      && (c1 % 16) * 16 + c2 / 4 == b1
      && (c2 % 4) * 64 + b2 % 64 == b2
  {
  }

  /** Decoding the four characters of a full group. */
  lemma DecodeCons(c0: nat, c1: nat, c2: nat, c3: nat, t: string)
    requires c0 < 64 && c1 < 64 && c2 < 64 && c3 < 64
    requires Decodable(t)
    ensures var s := [AlphabetChar(c0), AlphabetChar(c1), AlphabetChar(c2), AlphabetChar(c3)] + t;
      && Decodable(s)
      && DecodeUnpadded(s) == [c0 * 4 + c1 / 16, (c1 % 16) * 16 + c2 / 4, (c2 % 4) * 64 + c3]
                              + DecodeUnpadded(t)
  {
    var s := [AlphabetChar(c0), AlphabetChar(c1), AlphabetChar(c2), AlphabetChar(c3)] + t;
    AlphabetRoundTrip(c0);
    AlphabetRoundTrip(c1);
    AlphabetRoundTrip(c2);
    AlphabetRoundTrip(c3);
    assert s[4..] == t;
    forall i | 0 <= i < |s|
      ensures InAlphabet(s[i])
    {
      if i >= 4 {
        assert s[i] == t[i - 4];
      }
    }
  }

  lemma {:induction false} DecodeFullGroup(b: seq<Byte>)
    requires |b| >= 3
    ensures Decodable(Unpadded(b[3..])) && Decodable(Unpadded(b))
    ensures DecodeUnpadded(Unpadded(b)) == b[..3] + DecodeUnpadded(Unpadded(b[3..]))
  {
    UnpaddedDecodable(b[3..]);
    var c1 := (b[0] % 4) * 16 + b[1] / 16;
    var c2 := (b[1] % 16) * 4 + b[2] / 64;
    var t := Unpadded(b[3..]);
    DecodeCons(b[0] / 4, c1, c2, b[2] % 64, t);
    assert Unpadded(b) == [AlphabetChar(b[0] / 4), AlphabetChar(c1), AlphabetChar(c2),
                           AlphabetChar(b[2] % 64)] + t;
    FullGroupArithmetic(b[0], b[1], b[2]);
    assert b[..3] == [b[0], b[1], b[2]];
  }

  lemma {:induction false} DecodeUnpaddedInverts(b: seq<Byte>)
    decreases |b|
    ensures Decodable(Unpadded(b))
    ensures DecodeUnpadded(Unpadded(b)) == b
  {
    UnpaddedDecodable(b);
    if |b| == 1 {
      AlphabetRoundTrip(b[0] / 4);
      AlphabetRoundTrip((b[0] % 4) * 16);
    } else if |b| == 2 {
      AlphabetRoundTrip(b[0] / 4);
      AlphabetRoundTrip((b[0] % 4) * 16 + b[1] / 16);
      AlphabetRoundTrip((b[1] % 16) * 4);
      FullGroupArithmetic(b[0], b[1], 0);
    } else if |b| >= 3 {
      DecodeFullGroup(b);
      DecodeUnpaddedInverts(b[3..]);
      assert b == b[..3] + b[3..];
    }
  }

  /** ASCII whitespace of the Infra standard, skipped by `atob`. */
  predicate IsAsciiWhitespace(c: char) {
    c == '\t' || c == '\n' || c == '\U{C}' || c == '\r' || c == ' '
  }

  function RemoveAsciiWhitespace(s: string): (r: string)
    ensures forall i :: 0 <= i < |r| ==> !IsAsciiWhitespace(r[i])
    ensures (forall i :: 0 <= i < |s| ==> !IsAsciiWhitespace(s[i])) ==> r == s
  {
    if |s| == 0 then ""
    else if IsAsciiWhitespace(s[0]) then RemoveAsciiWhitespace(s[1..])
    else [s[0]] + RemoveAsciiWhitespace(s[1..])
  }

  /** Drops one or two trailing `=` from text whose length is a multiple of
      four. */
  function StripPadding(d: string): string {
    if |d| % 4 == 0 && |d| >= 2 && d[|d| - 2..] == "==" then d[..|d| - 2]
    else if |d| % 4 == 0 && |d| >= 1 && d[|d| - 1] == '=' then d[..|d| - 1]
    else d
  }

  /** The byte string of a buffer: one character per byte with that code. */
  function BinaryString(b: seq<Byte>): (s: string)
    ensures |s| == |b|
    ensures forall i :: 0 <= i < |b| ==> s[i] as int == b[i]
  {
    seq(|b|, i requires 0 <= i < |b| => b[i] as char)
  }

  /** `bytes[i] = s.charCodeAt(i)` into a `Uint8Array`, which keeps the low
      eight bits of each code. */
  function CharCodes(s: string): (b: seq<Byte>)
    ensures |b| == |s|
    ensures forall i :: 0 <= i < |s| ==> b[i] == (s[i] as int) % 256
  {
    seq(|s|, i requires 0 <= i < |s| => (s[i] as int) % 256)
  }

  /** Reading the character codes of a byte string gives the bytes back. */
  lemma CharCodesOfBinaryString(b: seq<Byte>)
    ensures CharCodes(BinaryString(b)) == b
  {
  }

  /** `btoa`: a string whose every code is below 256 is encoded as the
      bytes those codes stand for; any other character is an error. */
  function Btoa(s: string): (r: Result<string, DomError>)
    ensures r.Err? <==> exists i :: 0 <= i < |s| && s[i] as int >= 256
  {
    if exists i :: 0 <= i < |s| && s[i] as int >= 256 then Err(InvalidCharacterError)
    else Ok(Encode(CharCodes(s)))
  }

  /** `atob`: forgiving-base64 decode, returning the byte string. */
  function Atob(s: string): (r: Result<string, DomError>)
    ensures |RemoveAsciiWhitespace(s)| % 4 == 1 ==> r.Err?
    ensures r.Ok? ==> forall i :: 0 <= i < |r.value| ==> r.value[i] as int < 256
  {
    var d := StripPadding(RemoveAsciiWhitespace(s));
    if !Decodable(d) then Err(InvalidCharacterError)
    else Ok(BinaryString(DecodeUnpadded(d)))
  }

  /** `arrayBufferToBase64`: the byte string of the buffer, through `btoa`,
      which cannot fail on it. */
  function ArrayBufferToBase64(b: seq<Byte>): (s: string)
    ensures |s| == 4 * ((|b| + 2) / 3)
    ensures forall i :: 0 <= i < |s| ==> InAlphabet(s[i]) || s[i] == '='
  {
    var r := Btoa(BinaryString(b));
    CharCodesOfBinaryString(b);
    EncodeShape(b);
    assert r.Ok?;
    r.value
  }

  /** Stripping the padding of an encoding leaves the unpadded characters. */
  lemma StripPaddingOfEncode(b: seq<Byte>)
    ensures StripPadding(Encode(b)) == Unpadded(b)
  {
    EncodeShape(b);
    var e := Encode(b);
    var u := Unpadded(b);
    if |b| % 3 == 1 {
      assert e[|e| - 2..] == "==";
      assert e[..|e| - 2] == u;
    } else if |b| % 3 == 2 {
      assert e[|e| - 1] == '=';
      assert |e| < 2 || e[|e| - 2] == u[|u| - 1];
      assert e[..|e| - 1] == u;
    } else {
      assert e == u;
      if |u| >= 1 {
        assert InAlphabet(e[|e| - 1]);
      }
    }
  }

  /** `atob` undoes `arrayBufferToBase64` byte for byte, the empty buffer
      included. */
  lemma {:induction false} AtobOfArrayBufferToBase64(b: seq<Byte>)
    ensures Atob(ArrayBufferToBase64(b)).Ok?
    ensures CharCodes(Atob(ArrayBufferToBase64(b)).value) == b
  {
    CharCodesOfBinaryString(b);
    EncodeShape(b);
    var e := Encode(b);
    assert ArrayBufferToBase64(b) == e;
    forall i | 0 <= i < |e|
      ensures !IsAsciiWhitespace(e[i])
    {
    }
    assert RemoveAsciiWhitespace(e) == e;
    StripPaddingOfEncode(b);
    DecodeUnpaddedInverts(b);
    assert StripPadding(RemoveAsciiWhitespace(e)) == Unpadded(b);
    CharCodesOfBinaryString(DecodeUnpadded(Unpadded(b)));
  }
}

=== FILE: decimal.dfy ===
/** Decimal rendering of integers (`Number.prototype.toString` on integral
    values), `padStart(2, '0')`, and the digit reading used to state that
    rendering loses nothing. */
module Decimal {
  import opened Wrappers

  predicate IsDigit(c: char) {
    '0' <= c <= '9'
  }

  function DigitChar(d: nat): (c: char)
    requires d < 10
    ensures IsDigit(c)
  {
    (48 + d) as char
  }

  /** Decimal digits of a natural number, most significant first, without
      leading zeros. */
  function NatToString(n: nat): (s: string)
    ensures |s| >= 1
    ensures forall i :: 0 <= i < |s| ==> IsDigit(s[i])
    ensures n < 10 <==> |s| == 1
  {
    if n < 10 then [DigitChar(n)] else NatToString(n / 10) + [DigitChar(n % 10)]
  }

  /** `n.toString()` for an integral number. */
  function IntToString(n: int): string {
    if n < 0 then "-" + NatToString(-n) else NatToString(n)
  }

  /** `s.padStart(2, '0')`. */
  function PadStart2(s: string): (r: string)
    ensures |r| == if |s| >= 2 then |s| else 2
    ensures r[|r| - |s|..] == s
  {
    if |s| >= 2 then s else if |s| == 1 then ['0'] + s else "00"
  }

  /** Value of a non-empty run of decimal digits. */
  function DigitsValue(s: string): (r: Option<nat>)
    ensures r.Some? ==> |s| >= 1 && forall i :: 0 <= i < |s| ==> IsDigit(s[i])
  {
    if |s| == 0 then None
    else if !IsDigit(s[|s| - 1]) then None
    else if |s| == 1 then Some(s[0] as int - 48)
    else match DigitsValue(s[..|s| - 1])
      case None => None
      case Some(v) => Some(10 * v + (s[|s| - 1] as int - 48))
  }

  /** Reading the digits of a number gives the number back. */
  lemma {:induction false} DigitsOfNatToString(n: nat)
    decreases n
    ensures DigitsValue(NatToString(n)) == Some(n)
  {
    if n >= 10 {
      var s := NatToString(n);
      DigitsOfNatToString(n / 10);
      assert s[..|s| - 1] == NatToString(n / 10);
    }
  }

  /** Two-digit padding of a number below 100 reads back as the number. */
  lemma DigitsOfPadded(n: nat)
    requires n < 100
    ensures |PadStart2(NatToString(n))| == 2
    ensures DigitsValue(PadStart2(NatToString(n))) == Some(n)
  {
    DigitsOfNatToString(n);
    if n < 10 {
      var p := PadStart2(NatToString(n));
      assert p == ['0', DigitChar(n)];
      assert p[..1] == ['0'];
    } else {
      assert NatToString(n) == NatToString(n / 10) + [DigitChar(n % 10)];
    }
  }
}

=== FILE: frame_accumulator.dfy ===
/** The audio-worklet frame accumulator (`PCMProcessor`): sample batches of
    any length are re-chunked into frames of exactly `FrameSize` samples, a
    partial frame being carried over to the next call. The processor is a
    state record advanced by `Process`, which also returns the frames that
    the worklet posts to the main thread during that call. */
module FrameAccumulator {

  /** `this.bufferSize`. */
  const FrameSize: nat := 4096

  /** One `Float32Array` sample; IEEE single precision is not modelled. */
  type Sample = real

  type Frame = seq<Sample>

  /** The worklet's `buffer` and `bufferIndex` fields. Positions at or after
      `index` hold stale samples of the previous frame. */
  datatype Processor = Processor(buffer: seq<Sample>, index: nat)

  /** What holds between calls: a full-size buffer and a cursor inside it. */
  predicate Valid(p: Processor) {
    |p.buffer| == FrameSize && p.index < FrameSize
  }

  /** The samples accepted but not yet posted. */
  function Pending(p: Processor): seq<Sample>
    requires Valid(p)
  {
    p.buffer[..p.index]
  }

  /** The `inputs` argument of `process`: inputs, each a list of channels. */
  type Inputs = seq<seq<seq<Sample>>>

  /** What one `process` call does: the state after it, the frames posted
      through `port.postMessage` in order, and the value returned to the
      audio engine (`true` keeps the processor alive). */
  datatype Step = Step(next: Processor, frames: seq<Frame>, keepAlive: bool)

  /** All frames one after the other. */
  function Flatten(frames: seq<Frame>): seq<Sample> {
    if |frames| == 0 then [] else frames[0] + Flatten(frames[1..])
  }

  /** Every frame has exactly `FrameSize` samples. */
  predicate FullFrames(frames: seq<Frame>) {
    forall k :: 0 <= k < |frames| ==> |frames[k]| == FrameSize
  }

  /** The freshly constructed processor: a zero-filled buffer, cursor 0. */
  function Init(): (p: Processor)
    ensures Valid(p) && Pending(p) == []
  {
    Processor(seq(FrameSize, _ => 0.0), 0)
  }

  /** Channel 0 of input 0, or nothing when either is missing. */
  function Channel0(inputs: Inputs): seq<Sample> {
    if |inputs| == 0 || |inputs[0]| == 0 then [] else inputs[0][0]
  }

  /** The loop body for one sample: store it, and post a copy of the buffer
      and rewind the cursor once the buffer is full. */
  function Push(p: Processor, x: Sample): (r: (Processor, seq<Frame>))
    requires Valid(p)
    ensures Valid(r.0) && FullFrames(r.1)
    ensures Flatten(r.1) + Pending(r.0) == Pending(p) + [x]
    ensures r.0.index == (p.index + 1) % FrameSize
    ensures |r.1| == (p.index + 1) / FrameSize
  {
    var buffer := p.buffer[p.index := x];
    if p.index + 1 >= FrameSize then
      assert buffer == Pending(p) + [x];
      assert Flatten([buffer]) == buffer;
      (Processor(buffer, 0), [buffer])
    else
      assert buffer[..p.index + 1] == Pending(p) + [x];
      (Processor(buffer, p.index + 1), [])
  }

  /** Two lossless steps compose into one. */
  lemma Chain(out1: seq<Sample>, out2: seq<Sample>, p0: seq<Sample>, p1: seq<Sample>,
              p2: seq<Sample>, in1: seq<Sample>, in2: seq<Sample>)
    requires out1 + p1 == p0 + in1
    requires out2 + p2 == p1 + in2
    ensures (out1 + out2) + p2 == p0 + (in1 + in2)
  {
    calc {
      (out1 + out2) + p2;
      out1 + (out2 + p2);
      (out1 + p1) + in2;
      p0 + (in1 + in2);
    }
  }

  lemma FullFramesAppend(a: seq<Frame>, b: seq<Frame>)
    requires FullFrames(a) && FullFrames(b)
    ensures FullFrames(a + b)
  {
    forall k | 0 <= k < |a + b|
      ensures |(a + b)[k]| == FrameSize
    {
      if k >= |a| {
        assert (a + b)[k] == b[k - |a|];
      } else {
        assert (a + b)[k] == a[k];
      }
    }
  }

  lemma {:induction false} FlattenAppend(a: seq<Frame>, b: seq<Frame>)
    ensures Flatten(a + b) == Flatten(a) + Flatten(b)
    decreases |a|
  {
    if |a| == 0 {
      assert a + b == b;
    } else {
      assert (a + b)[1..] == a[1..] + b;
      FlattenAppend(a[1..], b);
    }
  }

  /** Feeding the samples of one channel in order. */
  function PushAll(p: Processor, xs: seq<Sample>): (r: (Processor, seq<Frame>))
    requires Valid(p)
    decreases |xs|
    ensures Valid(r.0) && FullFrames(r.1)
    ensures Flatten(r.1) + Pending(r.0) == Pending(p) + xs
  {
    if |xs| == 0 then (p, [])
    else
      var (p1, f1) := Push(p, xs[0]);
      var (p2, f2) := PushAll(p1, xs[1..]);
      FlattenAppend(f1, f2);
      FullFramesAppend(f1, f2);
      assert xs == [xs[0]] + xs[1..];
      Chain(Flatten(f1), Flatten(f2), Pending(p), Pending(p1), Pending(p2), [xs[0]], xs[1..]);
      (p2, f1 + f2)
  }

  /** Cursor arithmetic of one more sample after the first. */
  lemma CursorStep(i: nat, n: nat)
    requires i < FrameSize && n > 0
    ensures (i + n) / FrameSize == (i + 1) / FrameSize + ((i + 1) % FrameSize + (n - 1)) / FrameSize
    ensures (i + n) % FrameSize == ((i + 1) % FrameSize + (n - 1)) % FrameSize
  {
    if i + 1 == FrameSize {
      assert (i + n) == FrameSize + (n - 1);
    }
  }

  /** Feeding `n` samples at cursor `i` posts `(i + n) / FrameSize` frames
      and leaves the cursor at `(i + n) % FrameSize`. */
  lemma {:induction false} PushAllCount(p: Processor, xs: seq<Sample>)
    requires Valid(p)
    decreases |xs|
    ensures |PushAll(p, xs).1| == (p.index + |xs|) / FrameSize
    ensures PushAll(p, xs).0.index == (p.index + |xs|) % FrameSize
  {
    if |xs| > 0 {
      var p1 := Push(p, xs[0]).0;
      PushAllCount(p1, xs[1..]);
      CursorStep(p.index, |xs|);
    }
  }

  /** `process(inputs, outputs, parameters)`. */
  function Process(p: Processor, inputs: Inputs): (r: Step)
    requires Valid(p)
    ensures r.keepAlive
    ensures (|inputs| == 0 || |inputs[0]| == 0) ==> r.next == p && r.frames == []
    ensures Valid(r.next)
  {
    if |inputs| == 0 || |inputs[0]| == 0 then Step(p, [], true)
    else
      var (next, frames) := PushAll(p, inputs[0][0]);
      Step(next, frames, true)
  }

  /** One call is lossless: the frames it posts followed by what is left
      pending are what was pending before followed by the channel-0
      samples, and every frame is full. */
  lemma ProcessLossless(p: Processor, inputs: Inputs)
    requires Valid(p)
    ensures FullFrames(Process(p, inputs).frames)
    ensures Flatten(Process(p, inputs).frames) + Pending(Process(p, inputs).next)
         == Pending(p) + Channel0(inputs)
  {
  }

  /** A call with `n` channel-0 samples at cursor `i` posts
      `(i + n) / FrameSize` frames and leaves the cursor at
      `(i + n) % FrameSize`. */
  lemma ProcessCount(p: Processor, inputs: Inputs)
    requires Valid(p)
    ensures |Process(p, inputs).frames| == (p.index + |Channel0(inputs)|) / FrameSize
    ensures Process(p, inputs).next.index == (p.index + |Channel0(inputs)|) % FrameSize
  {
    if |inputs| > 0 && |inputs[0]| > 0 {
      PushAllCount(p, inputs[0][0]);
    }
  }

  /** Channels other than channel 0, and inputs other than input 0, have no
      effect on a call. */
  lemma OtherChannelsIgnored(p: Processor, a: Inputs, b: Inputs)
    requires Valid(p)
    requires |a| > 0 && |b| > 0 && |a[0]| > 0 && |b[0]| > 0 && a[0][0] == b[0][0]
    ensures Process(p, a) == Process(p, b)
  {
  }

  /** A sequence of `process` calls, left to right: the final state and
      every frame posted, in posting order. */
  function Run(p: Processor, calls: seq<Inputs>): (r: (Processor, seq<Frame>))
    requires Valid(p)
    decreases |calls|
    ensures Valid(r.0)
  {
    if |calls| == 0 then (p, [])
    else
      var s := Process(p, calls[0]);
      var (q, fs) := Run(s.next, calls[1..]);
      (q, s.frames + fs)
  }

  /** Every sample delivered on channel 0 across the calls, in order. */
  function AllInput(calls: seq<Inputs>): seq<Sample> {
    if |calls| == 0 then [] else Channel0(calls[0]) + AllInput(calls[1..])
  }

  /** Lossless re-chunking over any sequence of calls: the frames posted,
      followed by the samples still pending, are exactly the pending samples
      at the start followed by all channel-0 input. Nothing is dropped or
      duplicated, and every frame is full. */
  lemma {:induction false} RunLossless(p: Processor, calls: seq<Inputs>)
    requires Valid(p)
    decreases |calls|
    ensures FullFrames(Run(p, calls).1)
    ensures Flatten(Run(p, calls).1) + Pending(Run(p, calls).0) == Pending(p) + AllInput(calls)
  {
    if |calls| > 0 {
      var s := Process(p, calls[0]);
      var rest := Run(s.next, calls[1..]);
      RunLossless(s.next, calls[1..]);
      ProcessLossless(p, calls[0]);
      assert Run(p, calls).0 == rest.0;
      assert Run(p, calls).1 == s.frames + rest.1;
      assert AllInput(calls) == Channel0(calls[0]) + AllInput(calls[1..]);
      FlattenAppend(s.frames, rest.1);
      FullFramesAppend(s.frames, rest.1);
      Chain(Flatten(s.frames), Flatten(rest.1), Pending(p), Pending(s.next), Pending(rest.0),
            Channel0(calls[0]), AllInput(calls[1..]));
    }
  }

  /** From a fresh processor the stream reassembles exactly. */
  lemma FreshRunLossless(calls: seq<Inputs>)
    ensures Flatten(Run(Init(), calls).1) + Pending(Run(Init(), calls).0) == AllInput(calls)
  {
    RunLossless(Init(), calls);
  }

  /** Frames of equal size can be read back by position. */
  lemma {:induction false} FlattenSlice(frames: seq<Frame>, k: nat)
    requires FullFrames(frames) && k < |frames|
    ensures |Flatten(frames)| == |frames| * FrameSize
    ensures Flatten(frames)[k * FrameSize..(k + 1) * FrameSize] == frames[k]
    decreases |frames|
  {
    if k == 0 {
      FlattenLength(frames);
    } else {
      FlattenSlice(frames[1..], k - 1);
      var rest := Flatten(frames[1..]);
      assert Flatten(frames) == frames[0] + rest;
      assert Flatten(frames)[k * FrameSize..(k + 1) * FrameSize]
          == rest[(k - 1) * FrameSize..k * FrameSize];
    }
  }

  lemma {:induction false} FlattenLength(frames: seq<Frame>)
    requires FullFrames(frames)
    ensures |Flatten(frames)| == |frames| * FrameSize
    decreases |frames|
  {
    if |frames| > 0 {
      FlattenLength(frames[1..]);
    }
  }

  /** Each posted frame is a copy of a window of the input stream: frame `k`
      of a run from a fresh processor holds input samples
      `k * FrameSize .. (k + 1) * FrameSize`, whatever the buffer holds
      later. */
  lemma FrameIsInputWindow(calls: seq<Inputs>, k: nat)
    requires k < |Run(Init(), calls).1|
    ensures (k + 1) * FrameSize <= |AllInput(calls)|
    ensures Run(Init(), calls).1[k] == AllInput(calls)[k * FrameSize..(k + 1) * FrameSize]
  {
    var (q, fs) := Run(Init(), calls);
    RunLossless(Init(), calls);
    FlattenSlice(fs, k);
    assert Flatten(fs) + Pending(q) == AllInput(calls);
    assert (k + 1) * FrameSize <= |fs| * FrameSize;
    assert AllInput(calls)[k * FrameSize..(k + 1) * FrameSize]
        == Flatten(fs)[k * FrameSize..(k + 1) * FrameSize];
  }

  /** Later calls never alter frames already posted: the frames of a longer
      run extend those of a shorter one. */
  lemma {:induction false} RunAppend(p: Processor, first: seq<Inputs>, later: seq<Inputs>)
    requires Valid(p)
    decreases |first|
    ensures Run(p, first + later).0 == Run(Run(p, first).0, later).0
    ensures Run(p, first + later).1 == Run(p, first).1 + Run(Run(p, first).0, later).1
  {
    if |first| == 0 {
      assert first + later == later;
    } else {
      var s := Process(p, first[0]);
      var whole := first + later;
      assert whole[0] == first[0];
      assert whole[1..] == first[1..] + later;
      RunAppend(s.next, first[1..], later);
      var mid := Run(s.next, first[1..]);
      var tail := Run(mid.0, later);
      RunCons(p, first);
      RunCons(p, whole);
      assert s.frames + (mid.1 + tail.1) == (s.frames + mid.1) + tail.1;
    }
  }

  /** One step of `Run`. */
  lemma RunCons(p: Processor, calls: seq<Inputs>)
    requires Valid(p) && |calls| > 0
    ensures Run(p, calls).0 == Run(Process(p, calls[0]).next, calls[1..]).0
    ensures Run(p, calls).1 == Process(p, calls[0]).frames + Run(Process(p, calls[0]).next, calls[1..]).1
  {
  }

  /** One call of 10000 samples into a fresh processor posts two frames and
      leaves 1808 samples pending. */
  lemma TenThousandSamples(inputs: Inputs)
    requires |inputs| > 0 && |inputs[0]| > 0 && |inputs[0][0]| == 10000
    ensures |Process(Init(), inputs).frames| == 2
    ensures Process(Init(), inputs).next.index == 1808
  {
    ProcessCount(Init(), inputs);
  }

  /** The loop of `process` as written, over the channel-0 samples. */
  method ProcessLoop(p: Processor, inputs: Inputs) returns (r: Step)
    requires Valid(p)
    ensures r.keepAlive && Valid(r.next) && FullFrames(r.frames)
    ensures Flatten(r.frames) + Pending(r.next) == Pending(p) + Channel0(inputs)
    ensures r == Process(p, inputs)
  {
    if |inputs| == 0 || |inputs[0]| == 0 {
      return Step(p, [], true);
    }
    var channel := inputs[0][0];
    var buffer := p.buffer;
    var index: nat := p.index;
    var frames: seq<Frame> := [];
    var i := 0;
    while i < |channel|
      invariant 0 <= i <= |channel|
      invariant Valid(Processor(buffer, index))
      invariant (Processor(buffer, index), frames) == PushAll(p, channel[..i])
    {
      PushAllSnoc(p, channel[..i], channel[i]);
      assert channel[..i + 1] == channel[..i] + [channel[i]];
      ghost var pushed := Push(Processor(buffer, index), channel[i]);
      ghost var before := frames;
      buffer := buffer[index := channel[i]];
      index := index + 1;
      if index >= FrameSize {
        frames := frames + [buffer];
        index := 0;
      } else {
        assert before + pushed.1 == before;
      }
      assert (Processor(buffer, index), frames) == (pushed.0, before + pushed.1);
      i := i + 1;
    }
    assert channel[..i] == channel;
    r := Step(Processor(buffer, index), frames, true);
  }

  /** Feeding one more sample extends a feed by one `Push`. */
  lemma {:induction false} PushAllSnoc(p: Processor, xs: seq<Sample>, x: Sample)
    requires Valid(p)
    decreases |xs|
    ensures PushAll(p, xs + [x]).0 == Push(PushAll(p, xs).0, x).0
    ensures PushAll(p, xs + [x]).1 == PushAll(p, xs).1 + Push(PushAll(p, xs).0, x).1
  {
    if |xs| == 0 {
      assert xs + [x] == [x];
    } else {
      var p1 := Push(p, xs[0]).0;
      assert (xs + [x])[0] == xs[0];
      assert (xs + [x])[1..] == xs[1..] + [x];
      PushAllSnoc(p1, xs[1..], x);
    }
  }
}

=== FILE: js_math.dfy ===
/** ECMAScript number operations on `real`: truncation toward zero (the
    integer conversions), `Math.floor`, and the `%` operator, whose result
    takes the sign of the dividend. */
module JsMath {

  /** Truncation toward zero. */
  function Trunc(r: real): (n: int)
    ensures r >= 0.0 ==> n as real <= r < n as real + 1.0
    ensures r < 0.0 ==> n as real - 1.0 < r <= n as real
  {
    if r >= 0.0 then r.Floor else -((-r).Floor)
  }

  lemma TruncMonotone(a: real, b: real)
    requires a <= b
    ensures Trunc(a) <= Trunc(b)
  {
  }

  /** `Math.floor`. */
  function Floor(r: real): (n: int)
    ensures n as real <= r < n as real + 1.0
  {
    r.Floor
  }

  /** `a % b` for a positive divisor: `a - b * trunc(a / b)`. */
  function Rem(a: real, b: real): real
    requires b > 0.0
  {
    a - b * Trunc(a / b) as real
  }

  /** Flooring a non-negative quotient by a whole divisor is integer
      division of the floor. */
  lemma FloorDiv(s: real, c: nat)
    requires s >= 0.0 && c > 0
    ensures Floor(s / c as real) == Floor(s) / c
  {
    var f := Floor(s);
    var q := f / c;
    var r := f % c;
    assert f == q * c + r && 0 <= r < c;
    assert (q * c) as real <= s;
    assert q as real <= s / c as real;
    assert s < (q * c + c) as real;
    assert s / c as real < (q + 1) as real;
  }
}

=== FILE: js_strings.dfy ===
/** The few JavaScript string primitives the extension relies on, stated over
    `seq<char>`: substring search (`indexOf`/`includes`), `replace` with a
    string pattern, the whitespace class used by `trim` and `\s`, and the
    nullable string fields the scripts keep. */
module JsStrings {
  import opened Wrappers

  /** `pat` occurs in `s` starting at position `i`. */
  predicate OccursAt(s: string, pat: string, i: nat) {
    i + |pat| <= |s| && s[i..i + |pat|] == pat
  }

  /** First position at or after `from` where `pat` occurs. */
  function IndexFrom(s: string, pat: string, from: nat): (r: Option<nat>)
    decreases |s| - from
    ensures r.Some? ==> from <= r.value && OccursAt(s, pat, r.value)
    ensures r.Some? ==> forall j :: from <= j < r.value ==> !OccursAt(s, pat, j)
    ensures r.None? ==> forall j :: from <= j ==> !OccursAt(s, pat, j)
  {
    if from + |pat| > |s| then None
    else if s[from..from + |pat|] == pat then Some(from)
    else IndexFrom(s, pat, from + 1)
  }

  /** `String.prototype.indexOf`, with `None` for -1. */
  function IndexOf(s: string, pat: string): (r: Option<nat>)
    ensures r.Some? <==> exists j: nat :: OccursAt(s, pat, j)
    ensures r.Some? ==> OccursAt(s, pat, r.value)
    ensures r.Some? ==> forall j: nat :: j < r.value ==> !OccursAt(s, pat, j)
  {
    IndexFrom(s, pat, 0)
  }

  /** `String.prototype.includes`. */
  predicate Contains(s: string, pat: string) {
    IndexOf(s, pat).Some?
  }

  /** `String.prototype.replace` with a string pattern: only the first
      occurrence is replaced (the replacement text holds no `$` patterns
      anywhere it is used). */
  function ReplaceFirst(s: string, pat: string, rep: string): (r: string)
    ensures !Contains(s, pat) ==> r == s
    ensures Contains(s, pat) ==>
      var i := IndexOf(s, pat).value;
      r == s[..i] + rep + s[i + |pat|..]
  {
    match IndexOf(s, pat)
    case None => s
    case Some(i) => s[..i] + rep + s[i + |pat|..]
  }

  /** `replace` with a global pattern matching a literal: occurrences are
      replaced left to right without overlapping. What it computes is
      stated by `ReplaceAllUnchanged` and `ReplaceAllAtFirst` below. */
  function ReplaceAll(s: string, pat: string, rep: string): string
    requires |pat| > 0
    decreases |s|
  {
    if |s| == 0 then ""
    else if OccursAt(s, pat, 0) then rep + ReplaceAll(s[|pat|..], pat, rep)
    else [s[0]] + ReplaceAll(s[1..], pat, rep)
  }

  /** Without an occurrence of the pattern the input comes back unchanged. */
  lemma {:induction false} ReplaceAllUnchanged(s: string, pat: string, rep: string)
    requires |pat| > 0
    decreases |s|
    ensures !Contains(s, pat) ==> ReplaceAll(s, pat, rep) == s
  {
    if |s| > 0 && !Contains(s, pat) {
      assert !OccursAt(s, pat, 0);
      NoOccurrenceInTail(s, pat);
      ReplaceAllUnchanged(s[1..], pat, rep);
    }
  }

  /** Absence of a pattern carries over to every suffix. */
  lemma NoOccurrenceInTail(s: string, pat: string)
    requires |s| > 0
    ensures !Contains(s, pat) ==> !Contains(s[1..], pat)
  {
    if Contains(s[1..], pat) {
      var j := IndexOf(s[1..], pat).value;
      assert s[1..][j..j + |pat|] == s[j + 1..j + 1 + |pat|];
      assert OccursAt(s, pat, j + 1);
    }
  }

  /** Absence of a pattern carries over to every suffix. */
  lemma NoOccurrenceInSuffix(s: string, pat: string, n: nat)
    requires n <= |s|
    ensures !Contains(s, pat) ==> !Contains(s[n..], pat)
  {
    if Contains(s[n..], pat) {
      var j := IndexOf(s[n..], pat).value;
      assert s[n..][j..j + |pat|] == s[j + n..j + n + |pat|];
      assert OccursAt(s, pat, j + n);
    }
  }

  /** A first occurrence past the start is one place earlier in the tail. */
  lemma IndexOfTail(s: string, pat: string)
    requires Contains(s, pat) && IndexOf(s, pat).value > 0
    ensures !OccursAt(s, pat, 0)
    ensures Contains(s[1..], pat) && IndexOf(s[1..], pat).value == IndexOf(s, pat).value - 1
  {
    var i := IndexOf(s, pat).value;
    var t := s[1..];
    assert t[i - 1..i - 1 + |pat|] == s[i..i + |pat|];
    assert OccursAt(t, pat, i - 1);
    var v := IndexOf(t, pat).value;
    assert s[v + 1..v + 1 + |pat|] == t[v..v + |pat|];
    assert OccursAt(s, pat, v + 1);
  }

  /** `ReplaceAll` on an input that starts with the pattern. */
  lemma ReplaceAllMatch(s: string, pat: string, rep: string)
    requires |pat| > 0 && OccursAt(s, pat, 0)
    ensures ReplaceAll(s, pat, rep) == rep + ReplaceAll(s[|pat|..], pat, rep)
  {
  }

  /** `ReplaceAll` on a non-empty input that does not start with the pattern. */
  lemma ReplaceAllSkip(s: string, pat: string, rep: string)
    requires |pat| > 0 && |s| > 0 && !OccursAt(s, pat, 0)
    ensures ReplaceAll(s, pat, rep) == [s[0]] + ReplaceAll(s[1..], pat, rep)
  {
  }

  /** Putting one character in front of both a result and its prefix. */
  lemma ConsPrefix(c: char, r: string, rt: string, p: string, pt: string, rep: string, tail: string)
    requires r == [c] + rt && rt == pt + rep + tail && p == [c] + pt
    ensures r == p + rep + tail
  {
  }

  /** `ReplaceAll` copies everything before an occurrence that no earlier
      position starts, replaces it, and carries on after it. */
  lemma {:induction false} ReplaceAllAt(s: string, pat: string, rep: string, i: nat)
    requires |pat| > 0 && OccursAt(s, pat, i)
    requires forall j: nat :: j < i ==> !OccursAt(s, pat, j)
    decreases i
    ensures ReplaceAll(s, pat, rep) == s[..i] + rep + ReplaceAll(s[i + |pat|..], pat, rep)
  {
    if i > 0 {
      var t := s[1..];
      assert !OccursAt(s, pat, 0);
      ReplaceAllSkip(s, pat, rep);
      assert OccursAt(t, pat, i - 1);
      forall j: nat | j < i - 1
        ensures !OccursAt(t, pat, j)
      {
        assert !OccursAt(s, pat, j + 1);
      }
      ReplaceAllAt(t, pat, rep, i - 1);
      assert t[i - 1 + |pat|..] == s[i + |pat|..];
      assert s[..i] == [s[0]] + t[..i - 1];
      ConsPrefix(s[0], ReplaceAll(s, pat, rep), ReplaceAll(t, pat, rep), s[..i], t[..i - 1],
        rep, ReplaceAll(s[i + |pat|..], pat, rep));
    } else {
      ReplaceAllMatch(s, pat, rep);
      assert s[..i] + rep == rep;
    }
  }

  /** `ReplaceAll` replaces the first occurrence and carries on after it.
      With `ReplaceAllUnchanged` for the no-occurrence case this pins the result
      down completely, as the repeated `ReplaceFirst` the global flag
      stands for. */
  lemma ReplaceAllAtFirst(s: string, pat: string, rep: string)
    requires |pat| > 0 && Contains(s, pat)
    ensures var i := IndexOf(s, pat).value;
      && i + |pat| <= |s|
      && ReplaceAll(s, pat, rep) == s[..i] + rep + ReplaceAll(s[i + |pat|..], pat, rep)
  {
    ReplaceAllAt(s, pat, rep, IndexOf(s, pat).value);
  }

  /** `ReplaceAll` agrees with its input up to the first character it
      wrote from the replacement. */
  lemma {:induction false} ReplaceAllKeepsPrefix(t: string, pat: string, rep: string, m: nat)
    requires |pat| > 0 && |rep| > 0
    decreases |t|
    ensures var r := ReplaceAll(t, pat, rep);
      m <= |r| && (forall j :: 0 <= j < m ==> r[j] !in rep) ==> m <= |t| && r[..m] == t[..m]
  {
    var r := ReplaceAll(t, pat, rep);
    if 0 < m <= |r| && |t| > 0 {
      if OccursAt(t, pat, 0) {
        assert r[0] == rep[0];
      } else {
        var r' := ReplaceAll(t[1..], pat, rep);
        assert r == [t[0]] + r';
        ReplaceAllKeepsPrefix(t[1..], pat, rep, m - 1);
        if forall j :: 0 <= j < m ==> r[j] !in rep {
          assert forall j :: 0 <= j < m - 1 ==> r'[j] == r[j + 1];
          assert r[..m] == [t[0]] + r'[..m - 1];
          assert t[..m] == [t[0]] + t[1..][..m - 1];
        }
      }
    }
  }

  /** Text that starts with characters foreign to `q` and continues
      without `q` does not contain `q`. */
  lemma AvoidsAfterForeign(w: string, r: string, q: string)
    requires |q| > 0 && forall k :: 0 <= k < |q| ==> q[k] !in w
    requires !Contains(r, q)
    ensures !Contains(w + r, q)
  {
    forall k: nat
      ensures !OccursAt(w + r, q, k)
    {
      if k < |w| {
        if k + |q| <= |w + r| {
          assert (w + r)[k..k + |q|][0] == w[k];
        }
      } else if k + |q| <= |w + r| {
        assert (w + r)[k..k + |q|] == r[k - |w|..k - |w| + |q|];
        assert !OccursAt(r, q, k - |w|);
      }
    }
  }

  /** Text that does not start with `q` and continues without `q` after
      its first character does not contain `q`. */
  lemma AvoidsAfterChar(c: char, r: string, q: string)
    requires !OccursAt([c] + r, q, 0) && !Contains(r, q)
    ensures !Contains([c] + r, q)
  {
    forall k: nat
      ensures !OccursAt([c] + r, q, k)
    {
      if k > 0 && k + |q| <= |[c] + r| {
        assert ([c] + r)[k..k + |q|] == r[k - 1..k - 1 + |q|];
        assert !OccursAt(r, q, k - 1);
      }
    }
  }

  /** With a replacement foreign to `q`, an occurrence of `q` at the start
      of the result was already at the start of the input. */
  lemma LeadingOccurrence(s: string, pat: string, rep: string, q: string)
    requires |pat| > 0 && |rep| > 0
    requires forall k :: 0 <= k < |q| ==> q[k] !in rep
    ensures OccursAt(ReplaceAll(s, pat, rep), q, 0) ==> OccursAt(s, q, 0)
  {
    var r := ReplaceAll(s, pat, rep);
    ReplaceAllKeepsPrefix(s, pat, rep, |q|);
    if OccursAt(r, q, 0) {
      assert forall j :: 0 <= j < |q| ==> r[j] == q[j];
    }
  }

  /** A non-empty replacement that shares no character with `q` leaves no
      occurrence of `q` behind when `q` is the pattern itself, or when the
      input had none to begin with. */
  lemma {:induction false} ReplaceAllAvoids(s: string, pat: string, rep: string, q: string)
    requires |pat| > 0 && |rep| > 0 && |q| > 0
    requires forall k :: 0 <= k < |q| ==> q[k] !in rep
    requires q == pat || !Contains(s, q)
    decreases |s|
    ensures !Contains(ReplaceAll(s, pat, rep), q)
  {
    if |s| > 0 {
      if OccursAt(s, pat, 0) {
        var t := s[|pat|..];
        NoOccurrenceInSuffix(s, q, |pat|);
        ReplaceAllAvoids(t, pat, rep, q);
        AvoidsAfterForeign(rep, ReplaceAll(t, pat, rep), q);
      } else {
        var t := s[1..];
        NoOccurrenceInTail(s, q);
        ReplaceAllAvoids(t, pat, rep, q);
        LeadingOccurrence(s, pat, rep, q);
        assert !OccursAt(s, q, 0);
        assert ReplaceAll(s, pat, rep) == [s[0]] + ReplaceAll(t, pat, rep);
        AvoidsAfterChar(s[0], ReplaceAll(t, pat, rep), q);
      }
    }
  }

  /** A string that contains a pattern contains the pattern's first
      character. */
  lemma ContainsFirstChar(s: string, pat: string)
    requires |pat| > 0
    ensures Contains(s, pat) ==> exists i :: 0 <= i < |s| && s[i] == pat[0]
  {
    if Contains(s, pat) {
      var j := IndexOf(s, pat).value;
      assert s[j..j + |pat|][0] == s[j];
    }
  }

  /** A pattern occurs where it is spliced in. */
  lemma OccursInSplice(a: string, pat: string, b: string)
    ensures OccursAt(a + pat + b, pat, |a|)
    ensures Contains(a + pat + b, pat)
  {
    var s := a + pat + b;
    assert s[|a|..|a| + |pat|] == pat;
    assert OccursAt(s, pat, |a|);
    assert exists j: nat :: OccursAt(s, pat, j);
  }

  lemma {:induction false} ReplaceFirstOfPrefix(s: string, pat: string)
    requires |pat| <= |s| && s[..|pat|] == pat
    ensures ReplaceFirst(s, pat, "") == s[|pat|..]
  {
    assert OccursAt(s, pat, 0);
  }

  /** The characters JavaScript's `\s` and `String.prototype.trim` treat as
      white space: WhiteSpace and LineTerminator of ECMA-262. */
  predicate IsJsSpace(c: char) {
    || c == '\t' || c == '\n' || c == '\U{B}' || c == '\U{C}' || c == '\r'
    || c == ' ' || c == '\U{A0}' || c == '\U{1680}'
    || ('\U{2000}' <= c <= '\U{200A}')
    || c == '\U{2028}' || c == '\U{2029}' || c == '\U{202F}' || c == '\U{205F}'
    || c == '\U{3000}' || c == '\U{FEFF}'
  }

  /** A field as JavaScript holds it: `null` (initial value, after logout),
      `undefined` (absent from storage) or a string. */
  datatype JsValue = Null | Undefined | Str(s: string)

  /** JavaScript truthiness of a field. */
  predicate Truthy(v: JsValue) {
    v.Str? && v.s != ""
  }

  /** A field interpolated into a template literal. */
  function Render(v: JsValue): string {
    match v
    case Null => "null"
    case Undefined => "undefined"
    case Str(s) => s
  }

  /** `v || fallback`. */
  function OrElse(v: JsValue, fallback: string): string {
    if Truthy(v) then v.s else fallback
  }
}

=== FILE: page_session.dfy ===
/** The page-audio transcription session of the content script: the
    recording flags and platform handles as one state record, the ordered
    checks of `startTranscription`, the reset of `stopTranscription`, and
    the socket callbacks that touch the session. The platform objects are
    opaque handles; every platform call is an input. */
module PageSession {
  import opened Wrappers
  import opened JsStrings
  import opened Wire
  import opened Platform

  const DefaultPageModel := "gemini-2.5-flash-native-audio-dialog"

  /** The module-level variables of the content script. */
  datatype PageState = PageState(
    audioContext: Option<Handle>,
    mediaStream: Option<Handle>,
    source: Option<Handle>,
    workletNode: Option<Handle>,
    ws: Option<Handle>,
    isRecording: bool,
    currentApiKey: JsValue,
    currentModel: string)

  /** The state when the script is loaded. */
  function Loaded(): (st: PageState)
    ensures Idle(st) && st.currentApiKey == Null
  {
    PageState(None, None, None, None, None, false, Null, DefaultPageModel)
  }

  /** No platform object is held and nothing is recording. */
  predicate Idle(st: PageState) {
    && st.audioContext.None? && st.mediaStream.None? && st.source.None?
    && st.workletNode.None? && st.ws.None? && !st.isRecording
  }

  /** While recording, every object of the audio path and the socket is held. */
  predicate Wired(st: PageState) {
    st.isRecording ==>
      st.audioContext.Some? && st.mediaStream.Some? && st.source.Some?
      && st.workletNode.Some? && st.ws.Some?
  }

  datatype Stopped = Stopped(state: PageState, calls: seq<Teardown>)

  /** `t` disconnects the source or worklet, or closes the context or
      socket, that the state holds; the stream's tracks are never stopped. */
  predicate PageReleases(st: PageState, t: Teardown) {
    match t.action
    case DisconnectSource => st.source == Some(t.h)
    case DisconnectWorklet => st.workletNode == Some(t.h)
    case CloseContext => st.audioContext == Some(t.h)
    case CloseSocket => st.ws == Some(t.h)
    case StopTracks => false
  }

  /** The release calls of `stopTranscription`, in the order source,
      worklet, context, socket. The media stream's tracks are not stopped. */
  function PageTeardown(st: PageState): (calls: seq<Teardown>)
    ensures forall t :: t in calls <==> PageReleases(st, t)
  {
    Release(DisconnectSource, st.source)
    + Release(DisconnectWorklet, st.workletNode)
    + Release(CloseContext, st.audioContext)
    + Release(CloseSocket, st.ws)
  }

  /** `stopTranscription`: release what is held, then drop every handle;
      the key and the model are kept. */
  function Stop(st: PageState): (r: Stopped)
    ensures Idle(r.state) && r.calls == PageTeardown(st)
    ensures r.state.currentApiKey == st.currentApiKey && r.state.currentModel == st.currentModel
    ensures Idle(st) ==> r.calls == []
  {
    Stopped(
      st.(audioContext := None, mediaStream := None, source := None, workletNode := None,
          ws := None, isRecording := false),
      PageTeardown(st))
  }

  /** Stopping twice is stopping once, and the second stop calls nothing. */
  lemma StopIdempotent(st: PageState)
    ensures Stop(Stop(st).state) == Stopped(Stop(st).state, [])
  {
  }

  /** What `chrome.storage.local.get(["apiKey", "apiKeyModel"])` yields. */
  datatype Stored = Stored(apiKey: JsValue, apiKeyModel: JsValue)

  /** What `video.captureStream()` does. */
  datatype Capture =
    | CaptureThrew
    | Captured(stream: Handle, audioTracks: nat)

  /** The outcome of every platform call `startTranscription` makes, in
      call order. An `Err` carries the message of an exception that only
      the outer `catch` sees. */
  datatype PageEnv = PageEnv(
    storage: Result<Stored, string>,
    hasVideo: bool,
    socket: Handle,
    socketOpens: bool,
    capture: Capture,
    newContext: Result<Handle, string>,
    moduleLoads: bool,
    newSource: Option<Handle>,
    newNode: Result<Handle, string>)

  /** The object `startTranscription` resolves with. */
  datatype Response = Succeeded | FailedWith(error: string)

  const MissingKeyError := "Missing API Key"
  const NoVideoError := "No video element found"
  const SocketError := "WebSocket connection failed"
  const NoAudioError := "No audio tracks found"
  const CaptureError := "Capture failed"
  const WorkletError := "AudioWorklet failed"
  const SourceError := "Failed to create audio source"

  /** One run of `startTranscription`: the state after it, its response,
      the key rendered into the socket URL (`Wire.SocketUrl`) if it got as
      far as creating the socket, the messages
      it sent, and the teardown calls of the outer `catch`. */
  datatype Started = Started(
    state: PageState, response: Response, socketKey: Option<string>,
    sent: seq<Outbound>, calls: seq<Teardown>)

  /** The stored model replaces the current one only if it mentions audio. */
  function ChosenModel(current: string, stored: JsValue): (m: string)
    ensures stored.Str? && Contains(stored.s, "audio") ==> m == stored.s
    ensures !(stored.Str? && Contains(stored.s, "audio")) ==> m == current
  {
    if Truthy(stored) && Contains(stored.s, "audio") then stored.s else current
  }

  /** The message sent when the page socket opens. */
  function PageSetup(model: string): Outbound {
    Setup("models/" + model, [Text], None)
  }

  /** The outer `catch`: tear down and report the exception's message. */
  function Abort(st: PageState, message: string, key: Option<string>, sent: seq<Outbound>): Started {
    var s := Stop(st);
    Started(s.state, FailedWith(message), key, sent, s.calls)
  }

  /** The steps after the socket whose exception reaches the outer `catch`:
      creating the audio context, or the worklet node once the module and
      the source are in place. */
  predicate CaughtAfterOpen(env: PageEnv) {
    && env.capture.Captured? && env.capture.audioTracks > 0
    && (env.newContext.Err? || (env.moduleLoads && env.newSource.Some? && env.newNode.Err?))
  }

  /** Everything after the socket has opened: capture, audio context,
      worklet module, source and node. */
  function AfterOpen(st: PageState, env: PageEnv, key: string): (r: Started)
    requires st.ws.Some?
    // only the outer catch tears anything down, and it always has the socket to close
    ensures r.calls != [] <==> CaughtAfterOpen(env)
    // the inner catches answer with their own message and keep what was created
    ensures env.capture.CaptureThrew? ==> r == Started(st, FailedWith(CaptureError), Some(key), [PageSetup(st.currentModel)], [])
    ensures env.capture.Captured? && env.capture.audioTracks == 0 ==>
      r.response == FailedWith(NoAudioError) && r.state == st.(mediaStream := Some(env.capture.stream))
    ensures env.capture.Captured? && env.capture.audioTracks > 0 && env.newContext.Ok? && !env.moduleLoads ==>
      r.response == FailedWith(WorkletError)
      && r.state == st.(mediaStream := Some(env.capture.stream), audioContext := Some(env.newContext.value))
    ensures env.capture.Captured? && env.capture.audioTracks > 0 && env.newContext.Ok? && env.moduleLoads
            && env.newSource.None? ==>
      r.response == FailedWith(SourceError)
      && r.state == st.(mediaStream := Some(env.capture.stream), audioContext := Some(env.newContext.value))
    // the outer catch reports the exception and releases what the state held
    ensures env.capture.Captured? && env.capture.audioTracks > 0 && env.newContext.Err? ==>
      r.response == FailedWith(env.newContext.error) && r.calls == PageTeardown(st) && Idle(r.state)
    ensures CaughtAfterOpen(env) && env.newContext.Ok? ==>
      r.response == FailedWith(env.newNode.error) && Idle(r.state)
      && r.calls == PageTeardown(st.(audioContext := Some(env.newContext.value), source := env.newSource))
    ensures r.socketKey == Some(key) && r.sent == [PageSetup(st.currentModel)]
    ensures r.state.currentApiKey == st.currentApiKey && r.state.currentModel == st.currentModel
    ensures r.calls == [] ==> r.state.ws == st.ws
    ensures r.response.Succeeded? <==>
      && env.capture.Captured? && env.capture.audioTracks > 0 && env.newContext.Ok?
      && env.moduleLoads && env.newSource.Some? && env.newNode.Ok?
    ensures r.response.Succeeded? ==>
      && r.state.isRecording && r.state.ws == st.ws && r.state.mediaStream == Some(env.capture.stream)
      && r.state.audioContext == Some(env.newContext.value) && r.state.source == Some(env.newSource.value)
      && r.state.workletNode == Some(env.newNode.value)
    ensures !r.response.Succeeded? ==> r.state.isRecording == st.isRecording || Idle(r.state)
    ensures r.calls != [] ==> Idle(r.state) && r.response.FailedWith?
  {
    var sent := [PageSetup(st.currentModel)];
    match env.capture
    case CaptureThrew => Started(st, FailedWith(CaptureError), Some(key), sent, [])
    case Captured(stream, tracks) =>
      var st := st.(mediaStream := Some(stream));
      if tracks == 0 then Started(st, FailedWith(NoAudioError), Some(key), sent, [])
      else match env.newContext
        case Err(msg) => Abort(st, msg, Some(key), sent)
        case Ok(ctx) =>
          var st := st.(audioContext := Some(ctx));
          if !env.moduleLoads then Started(st, FailedWith(WorkletError), Some(key), sent, [])
          else match env.newSource
            case None => Started(st, FailedWith(SourceError), Some(key), sent, [])
            case Some(src) =>
              var st := st.(source := Some(src));
              match env.newNode
              case Err(msg) => Abort(st, msg, Some(key), sent)
              case Ok(node) =>
                Started(st.(workletNode := Some(node), isRecording := true), Succeeded, Some(key), sent, [])
  }

  /** `startTranscription`. */
  function Start(st: PageState, env: PageEnv): (r: Started)
    // already recording: success, and nothing changes
    ensures st.isRecording ==> r == Started(st, Succeeded, None, [], [])
    // success means recording; recording means every object is held
    ensures r.response.Succeeded? ==> r.state.isRecording
    ensures Wired(st) ==> Wired(r.state)
    // teardown happens only on the outer catch, which leaves nothing held
    ensures r.calls != [] ==> Idle(r.state) && r.response.FailedWith?
    // a failed storage read releases what an earlier start left behind
    ensures !st.isRecording && env.storage.Err? ==> r.calls == PageTeardown(st)
    // past the storage read, only the exceptions of the outer catch tear down
    ensures !st.isRecording && env.storage.Ok? ==>
      (r.calls != [] <==>
        Truthy(env.storage.value.apiKey) && env.hasVideo && env.socketOpens && CaughtAfterOpen(env))
  {
    if st.isRecording then Started(st, Succeeded, None, [], [])
    else match env.storage
      case Err(msg) => Abort(st, msg, None, [])
      case Ok(data) =>
        var st := st.(currentApiKey := data.apiKey,
                      currentModel := ChosenModel(st.currentModel, data.apiKeyModel));
        if !Truthy(st.currentApiKey) then Started(st, FailedWith(MissingKeyError), None, [], [])
        else if !env.hasVideo then Started(st, FailedWith(NoVideoError), None, [], [])
        else
          var key := st.currentApiKey.s;
          var st := st.(ws := Some(env.socket));
          if !env.socketOpens then Started(st, FailedWith(SocketError), Some(key), [], [])
          else AfterOpen(st, env, key)
  }

  /** The storage read always reaches the state; the stored model is
      taken only if it mentions audio; a failed read is the outer catch. */
  lemma StartReadsStorage(st: PageState, env: PageEnv)
    requires !st.isRecording
    ensures env.storage.Ok? ==>
      Start(st, env).state.currentApiKey == env.storage.value.apiKey
      && Start(st, env).state.currentModel == ChosenModel(st.currentModel, env.storage.value.apiKeyModel)
    ensures env.storage.Err? ==>
      var r := Start(st, env);
      r.response == FailedWith(env.storage.error) && Idle(r.state) && r.socketKey.None?
  {
  }

  /** The checks before the socket, in order: a missing key, then a missing
      video. Either returns with no socket created, nothing sent, and no
      handle touched. */
  lemma StartChecksBeforeSocket(st: PageState, env: PageEnv)
    requires !st.isRecording && env.storage.Ok?
    ensures var r := Start(st, env);
      !Truthy(env.storage.value.apiKey) ==>
        r.response == FailedWith(MissingKeyError) && r.socketKey.None? && r.sent == []
        && r.state == st.(currentApiKey := r.state.currentApiKey, currentModel := r.state.currentModel)
    ensures var r := Start(st, env);
      Truthy(env.storage.value.apiKey) && !env.hasVideo ==>
        r.response == FailedWith(NoVideoError) && r.socketKey.None? && r.sent == []
        && r.state == st.(currentApiKey := r.state.currentApiKey, currentModel := r.state.currentModel)
  {
  }

  /** Past the checks the socket is created with the stored key; if it does
      not open nothing is sent; once open the only message sent is the text
      setup naming the current model. */
  lemma StartOpensSocket(st: PageState, env: PageEnv)
    requires !st.isRecording && env.storage.Ok? && Truthy(env.storage.value.apiKey) && env.hasVideo
    ensures Start(st, env).socketKey == Some(env.storage.value.apiKey.s)
    ensures !env.socketOpens ==>
      Start(st, env).response == FailedWith(SocketError) && Start(st, env).sent == []
      && Start(st, env).state.ws == Some(env.socket)
    ensures env.socketOpens ==> Start(st, env).sent == [PageSetup(Start(st, env).state.currentModel)]
  {
    var data := env.storage.value;
    var st1 := st.(currentApiKey := data.apiKey,
                   currentModel := ChosenModel(st.currentModel, data.apiKeyModel));
    var key := data.apiKey.s;
    var st2 := st1.(ws := Some(env.socket));
    if env.socketOpens {
      assert Start(st, env) == AfterOpen(st2, env, key);
    } else {
      assert Start(st, env) == Started(st2, FailedWith(SocketError), Some(key), [], []);
    }
  }

  /** Once the socket is open, each inner catch answers with its own
      message, tears nothing down, and keeps the open socket and whatever
      it had created; an exception of the outer catch reports its message
      and releases the socket and what was created before it. */
  lemma StartFailsAfterOpen(st: PageState, env: PageEnv)
    requires !st.isRecording && env.storage.Ok? && Truthy(env.storage.value.apiKey)
    requires env.hasVideo && env.socketOpens
    ensures var r := Start(st, env);
      env.capture.CaptureThrew? ==>
        r.response == FailedWith(CaptureError) && r.calls == [] && r.state.ws == Some(env.socket)
        && r.state.mediaStream == st.mediaStream
    ensures var r := Start(st, env);
      env.capture.Captured? && env.capture.audioTracks == 0 ==>
        r.response == FailedWith(NoAudioError) && r.calls == [] && r.state.ws == Some(env.socket)
        && r.state.mediaStream == Some(env.capture.stream)
    ensures var r := Start(st, env);
      env.capture.Captured? && env.capture.audioTracks > 0 && env.newContext.Ok? && !env.moduleLoads ==>
        r.response == FailedWith(WorkletError) && r.calls == [] && r.state.ws == Some(env.socket)
        && r.state.audioContext == Some(env.newContext.value)
    ensures var r := Start(st, env);
      env.capture.Captured? && env.capture.audioTracks > 0 && env.newContext.Ok? && env.moduleLoads
      && env.newSource.None? ==>
        r.response == FailedWith(SourceError) && r.calls == [] && r.state.ws == Some(env.socket)
        && r.state.audioContext == Some(env.newContext.value)
    ensures var r := Start(st, env);
      env.capture.Captured? && env.capture.audioTracks > 0 && env.newContext.Err? ==>
        r.response == FailedWith(env.newContext.error) && Idle(r.state)
        && r.calls == PageTeardown(st.(ws := Some(env.socket)))
    ensures var r := Start(st, env);
      CaughtAfterOpen(env) && env.newContext.Ok? ==>
        r.response == FailedWith(env.newNode.error) && Idle(r.state)
        && r.calls == PageTeardown(st.(ws := Some(env.socket), audioContext := Some(env.newContext.value),
                                       source := env.newSource))
  {
    var data := env.storage.value;
    var st1 := st.(currentApiKey := data.apiKey,
                   currentModel := ChosenModel(st.currentModel, data.apiKeyModel));
    var st2 := st1.(ws := Some(env.socket));
    assert Start(st, env) == AfterOpen(st2, env, data.apiKey.s);
    assert PageTeardown(st2) == PageTeardown(st.(ws := Some(env.socket)));
    if env.newContext.Ok? {
      var st3 := st2.(audioContext := Some(env.newContext.value), source := env.newSource);
      assert PageTeardown(st3)
        == PageTeardown(st.(ws := Some(env.socket), audioContext := Some(env.newContext.value),
                            source := env.newSource));
    }
  }

  /** Every successful start from a non-recording state ran every step: the
      socket opened, the capture had audio, and all objects were created;
      and conversely. */
  lemma StartSucceedsExactly(st: PageState, env: PageEnv)
    requires !st.isRecording
    ensures Start(st, env).response.Succeeded? <==>
      && env.storage.Ok? && Truthy(env.storage.value.apiKey) && env.hasVideo && env.socketOpens
      && env.capture.Captured? && env.capture.audioTracks > 0 && env.newContext.Ok?
      && env.moduleLoads && env.newSource.Some? && env.newNode.Ok?
  {
  }

  /** A successful start holds exactly the objects the environment gave. */
  lemma StartWiresEnvironment(st: PageState, env: PageEnv)
    requires !st.isRecording && Start(st, env).response.Succeeded?
    ensures var s := Start(st, env).state;
      && s.ws == Some(env.socket) && s.mediaStream == Some(env.capture.stream)
      && s.audioContext == Some(env.newContext.value) && s.source == Some(env.newSource.value)
      && s.workletNode == Some(env.newNode.value)
  {
  }

  /** `ws.onclose` of the socket `closed`: the session stops, whichever
      socket the session holds now. */
  function OnSocketClose(st: PageState, closed: Handle): (r: Stopped)
    ensures Idle(r.state)
    ensures forall h :: Teardown(CloseSocket, h) in r.calls <==> st.ws == Some(h)
  {
    Stop(st)
  }

  /** A capture without audio tracks fails the start but keeps the open
      socket, and does not tear anything down. */
  lemma SilentCaptureKeepsSocket(st: PageState, env: PageEnv)
    requires !st.isRecording && env.storage.Ok? && Truthy(env.storage.value.apiKey)
    requires env.hasVideo && env.socketOpens && env.capture.Captured? && env.capture.audioTracks == 0
    ensures var r := Start(st, env);
      r.response == FailedWith(NoAudioError) && r.state.ws == Some(env.socket)
      && !r.state.isRecording && r.calls == []
  {
    var data := env.storage.value;
    var st1 := st.(currentApiKey := data.apiKey,
                   currentModel := ChosenModel(st.currentModel, data.apiKeyModel));
    var st2 := st1.(ws := Some(env.socket));
    assert Start(st, env) == AfterOpen(st2, env, data.apiKey.s);
  }

  /** A stored key, a video whose capture has no audio track, and socket 7. */
  const SilentPage := PageEnv(Ok(Stored(Str("AIzaSyExampleExampleKey"), Undefined)), true, 7, true,
                              Captured(1, 0), Ok(2), true, Some(3), Ok(4))

  /** The same page once its audio plays, and socket 8. */
  const PlayingPage := SilentPage.(socket := 8, capture := Captured(1, 1))

  /** A start that fails after its socket opened keeps that socket; a
      second start then opens another one and records; when the first
      socket closes, its handler stops the second session. */
  lemma StaleSocketStopsNewSession()
    ensures Start(Loaded(), SilentPage).response == FailedWith(NoAudioError)
    ensures Start(Loaded(), SilentPage).state.ws == Some(7)
    ensures Start(Start(Loaded(), SilentPage).state, PlayingPage).state.isRecording
    ensures Start(Start(Loaded(), SilentPage).state, PlayingPage).state.ws == Some(8)
    ensures !OnSocketClose(Start(Start(Loaded(), SilentPage).state, PlayingPage).state, 7).state.isRecording
    ensures Teardown(CloseSocket, 8) in OnSocketClose(Start(Start(Loaded(), SilentPage).state, PlayingPage).state, 7).calls
  {
    SilentCaptureKeepsSocket(Loaded(), SilentPage);
    var first := Start(Loaded(), SilentPage);
    StartSucceedsExactly(first.state, PlayingPage);
    StartWiresEnvironment(first.state, PlayingPage);
  }

  /** The close handler as it is evidently meant: only the close of the
      socket the session holds stops it. */
  function OnOwnSocketClose(st: PageState, closed: Handle): (r: Stopped)
    ensures st.ws == Some(closed) ==> Idle(r.state) && Teardown(CloseSocket, closed) in r.calls
    ensures st.ws != Some(closed) ==> r == Stopped(st, [])
  {
    if st.ws == Some(closed) then Stop(st) else Stopped(st, [])
  }

  /** With that handler a stale close leaves a running session alone,
      whatever state the previous attempts left behind. */
  lemma StaleCloseIgnored(st: PageState, env: PageEnv, stale: Handle)
    requires stale != env.socket && !st.isRecording
    requires Start(st, env).response.Succeeded?
    ensures OnOwnSocketClose(Start(st, env).state, stale).state.isRecording
  {
    StartWiresEnvironment(st, env);
  }

  /** A start after a stop begins from scratch: the close of the old socket
      cannot reach the new session's objects. */
  lemma RestartAfterStop(st: PageState, env: PageEnv)
    ensures !Stop(st).state.isRecording
    ensures Start(Stop(st).state, env).response.Succeeded? ==> Start(Stop(st).state, env).state.ws == Some(env.socket)
  {
  }
}

=== FILE: pcm_codec.dfy ===
/** The PCM sample codec: `floatTo16BitPCM` (outbound, clamp and asymmetric
    scale into an `Int16Array`), the little-endian byte view of that array,
    and the inbound `int16 / 32768` conversion of `playPcmAudio`. Samples
    are `real`; the `Int16Array` store is modelled as truncation toward zero
    followed by the ECMAScript ToInt16 wrap. */
module PcmCodec {
  import opened JsMath

  type Int16 = x: int | -32768 <= x <= 32767
  type Byte = x: int | 0 <= x < 256

  /** `Math.max(-1, Math.min(1, x))`. */
  function Clamp(x: real): (s: real)
    ensures -1.0 <= s <= 1.0
    ensures -1.0 <= x <= 1.0 ==> s == x
    ensures x >= 1.0 ==> s == 1.0
    ensures x <= -1.0 ==> s == -1.0
  {
    if x > 1.0 then 1.0 else if x < -1.0 then -1.0 else x
  }

  /** ToInt16 of an integer: reduction modulo 2^16 into the signed range. */
  function WrapInt16(n: int): (v: Int16)
    ensures (n - v) % 65536 == 0
    ensures -32768 <= n <= 32767 ==> v == n
  {
    var m := n % 65536;
    if m >= 32768 then m - 65536 else m
  }

  /** One element of `floatTo16BitPCM`: negatives scale by 0x8000,
      non-negatives by 0x7FFF, and the store truncates. */
  function EncodeSample(x: real): (v: Int16)
    ensures x >= 1.0 ==> v == 32767
    ensures x <= -1.0 ==> v == -32768
    ensures x >= 0.0 ==> v >= 0
    ensures x <= 0.0 ==> v <= 0
  {
    var s := Clamp(x);
    WrapInt16(Trunc(if s < 0.0 then s * 32768.0 else s * 32767.0))
  }

  /** `floatTo16BitPCM`: one saturating 16-bit sample per input sample. */
  function FloatTo16BitPCM(xs: seq<real>): (out: seq<Int16>)
    ensures |out| == |xs|
    ensures forall i :: 0 <= i < |xs| ==> out[i] == EncodeSample(xs[i])
  {
    seq(|xs|, i requires 0 <= i < |xs| => EncodeSample(xs[i]))
  }

  /** The scaled value is already in range, so the Int16 store never wraps:
      the stored value is the truncation of the scaled clamped sample. */
  lemma EncodeNeverWraps(x: real)
    ensures var s := Clamp(x);
      EncodeSample(x) == Trunc(if s < 0.0 then s * 32768.0 else s * 32767.0)
  {
  }

  /** Encoding preserves order: a larger sample never encodes smaller. */
  lemma EncodeMonotone(x1: real, x2: real)
    requires x1 < x2
    ensures EncodeSample(x1) <= EncodeSample(x2)
  {
    var s1, s2 := Clamp(x1), Clamp(x2);
    assert s1 <= s2;
    if s1 < 0.0 && s2 < 0.0 {
      TruncMonotone(s1 * 32768.0, s2 * 32768.0);
    } else if s1 >= 0.0 && s2 >= 0.0 {
      TruncMonotone(s1 * 32767.0, s2 * 32767.0);
    }
  }

  /** `int16Data[i] / 32768.0`. */
  function DecodeSample(v: Int16): (r: real)
    ensures -1.0 <= r < 1.0
    ensures r * 32768.0 == v as real
  {
    v as real / 32768.0
  }

  /** Decoding an encoded sample keeps the sign of the clamped input (or
      gives zero), never grows its magnitude, and lands within two
      quantisation steps (2/32768) below it in magnitude. */
  lemma {:induction false} DecodeEncode(x: real)
    ensures var s := Clamp(x); var d := DecodeSample(EncodeSample(x));
      && (s >= 0.0 ==> 0.0 <= d <= s && s - d < 2.0 / 32768.0)
      && (s < 0.0 ==> s <= d <= 0.0 && d - s < 1.0 / 32768.0)
  {
    var s := Clamp(x);
    var v := EncodeSample(x);
    EncodeNeverWraps(x);
    var d := DecodeSample(v);
    assert d * 32768.0 == v as real;
    if s >= 0.0 {
      assert v as real <= s * 32767.0 < v as real + 1.0;
      assert d * 32768.0 <= s * 32767.0;
    } else {
      assert v as real - 1.0 < s * 32768.0 <= v as real;
    }
  }

  /** The two-step bound is needed: positive samples are scaled by 32767
      but read back through 32768, so a sample just below 1 comes back more
      than one quantisation step low. */
  lemma PositiveErrorExceedsOneStep()
    ensures 0.99999 - DecodeSample(EncodeSample(0.99999)) > 1.0 / 32768.0
  {
    EncodeNeverWraps(0.99999);
    assert 32766.0 < 0.99999 * 32767.0 < 32767.0;
    assert EncodeSample(0.99999) == 32766;
  }

  /** The two bytes of one sample in the little-endian `Int16Array` buffer. */
  function SampleBytes(v: Int16): (b: seq<Byte>)
    ensures |b| == 2
    ensures b[0] as int + 256 * b[1] as int == (if v < 0 then v + 65536 else v)
  {
    var u := if v < 0 then v + 65536 else v;
    [u % 256, u / 256]
  }

  /** Reading one little-endian 16-bit signed integer. */
  function ReadInt16(lo: Byte, hi: Byte): (v: Int16)
    ensures (if v < 0 then v + 65536 else v) == lo as int + 256 * hi as int
  {
    var u := lo as int + 256 * hi as int;
    if u >= 32768 then u - 65536 else u
  }

  /** `int16Data.buffer`, viewed as bytes. */
  function ToBytes(vs: seq<Int16>): (b: seq<Byte>)
    ensures |b| == 2 * |vs|
  {
    if |vs| == 0 then [] else SampleBytes(vs[0]) + ToBytes(vs[1..])
  }

  /** `new Int16Array(bytes.buffer)` over a buffer of even length. */
  function FromBytes(b: seq<Byte>): (vs: seq<Int16>)
    requires |b| % 2 == 0
    ensures |vs| == |b| / 2
  {
    if |b| == 0 then [] else [ReadInt16(b[0], b[1])] + FromBytes(b[2..])
  }

  /** Sample `i` of the view is the little-endian pair at bytes `2i` and
      `2i + 1`. */
  lemma {:induction false} FromBytesAt(b: seq<Byte>, i: nat)
    requires |b| % 2 == 0 && i < |b| / 2
    decreases i
    ensures FromBytes(b)[i] == ReadInt16(b[2 * i], b[2 * i + 1])
  {
    if i > 0 {
      FromBytesAt(b[2..], i - 1);
      assert b[2..][2 * (i - 1)] == b[2 * i] && b[2..][2 * (i - 1) + 1] == b[2 * i + 1];
    }
  }

  /** Reading the bytes of a sample array gives the samples back. */
  lemma {:induction false} FromToBytes(vs: seq<Int16>)
    ensures FromBytes(ToBytes(vs)) == vs
    decreases |vs|
  {
    if |vs| > 0 {
      var b := ToBytes(vs);
      assert b[2..] == ToBytes(vs[1..]);
      FromToBytes(vs[1..]);
      assert ReadInt16(b[0], b[1]) == vs[0];
    }
  }

  /** Every even-length buffer is the byte view of the samples read from
      it. */
  lemma {:induction false} ToFromBytes(b: seq<Byte>)
    requires |b| % 2 == 0
    ensures ToBytes(FromBytes(b)) == b
    decreases |b|
  {
    if |b| > 0 {
      var vs := FromBytes(b);
      ToFromBytes(b[2..]);
      assert vs[1..] == FromBytes(b[2..]);
      assert SampleBytes(vs[0]) == b[..2];
      assert b == b[..2] + b[2..];
    }
  }
}

=== FILE: platform.dfy ===
/** The platform objects both audio sessions hold, as opaque handles, and
    the calls that release them. */
module Platform {
  import opened Wrappers

  /** An `AudioContext`, a `MediaStream`, an audio node or a `WebSocket`. */
  type Handle = int

  /** What a teardown call does to its object. */
  datatype Action =
    | DisconnectSource
    | DisconnectWorklet
    | CloseContext
    | CloseSocket
    | StopTracks

  /** A platform call made while tearing a session down. */
  datatype Teardown = Teardown(action: Action, h: Handle)

  /** The guarded call `if (x) x.action()`: one call when the object is
      held, none otherwise. */
  function Release(action: Action, o: Option<Handle>): (calls: seq<Teardown>)
    ensures forall t :: t in calls <==> o.Some? && t == Teardown(action, o.value)
  {
    if o.Some? then [Teardown(action, o.value)] else []
  }
}

=== FILE: server_events.dfy ===
/** Decomposition of inbound socket messages. A message optionally carries
    `serverContent.modelTurn.parts`, each part optionally a `text` or an
    `inlineData` payload, and optionally `serverContent.turnComplete`. The
    microphone session and the page session read the parts differently;
    both variants are here. */
module ServerEvents {
  import opened Wrappers

  datatype InlineData = InlineData(data: string)

  datatype Part = Part(text: Option<string>, inlineData: Option<InlineData>)

  datatype ModelTurn = ModelTurn(parts: Option<seq<Part>>)

  datatype ServerContent = ServerContent(modelTurn: Option<ModelTurn>, turnComplete: Option<bool>)

  datatype ServerMessage = ServerMessage(serverContent: Option<ServerContent>)

  /** A socket message event: a `Blob`, or text that `JSON.parse` either
      rejects (`None`) or turns into a message. */
  datatype SocketFrame = BinaryFrame | TextFrame(parsed: Option<ServerMessage>)

  /** `data.serverContent?.modelTurn?.parts` of a parsed text frame; an
      empty array is present (arrays are truthy). */
  function PartsOf(f: SocketFrame): Option<seq<Part>> {
    match f
    case TextFrame(Some(ServerMessage(Some(ServerContent(Some(ModelTurn(Some(parts))), _))))) => Some(parts)
    case _ => None
  }

  /** `p.text` is truthy: present and non-empty. */
  predicate HasText(p: Part) {
    p.text.Some? && p.text.value != ""
  }

  /** `p.inlineData` is truthy: present. */
  predicate HasAudio(p: Part) {
    p.inlineData.Some?
  }

  /** `parts.find(p => p.text)`, as an index. */
  function FirstText(parts: seq<Part>): (r: Option<nat>)
    ensures r.Some? ==> r.value < |parts| && HasText(parts[r.value])
    ensures r.Some? ==> forall j :: 0 <= j < r.value ==> !HasText(parts[j])
    ensures r.None? <==> forall j :: 0 <= j < |parts| ==> !HasText(parts[j])
  {
    if |parts| == 0 then None
    else if HasText(parts[0]) then Some(0)
    else match FirstText(parts[1..])
      case None => None
      case Some(k) => Some(k + 1)
  }

  /** `parts.find(p => p.inlineData)`, as an index. */
  function FirstAudio(parts: seq<Part>): (r: Option<nat>)
    ensures r.Some? ==> r.value < |parts| && HasAudio(parts[r.value])
    ensures r.Some? ==> forall j :: 0 <= j < r.value ==> !HasAudio(parts[j])
    ensures r.None? <==> forall j :: 0 <= j < |parts| ==> !HasAudio(parts[j])
  {
    if |parts| == 0 then None
    else if HasAudio(parts[0]) then Some(0)
    else match FirstAudio(parts[1..])
      case None => None
      case Some(k) => Some(k + 1)
  }

  /** What the microphone session does with one message: log a model text,
      play a Base64 PCM payload. */
  datatype TalkEvent = LogModelText(text: string) | PlayPcm(base64: string)

  /** `talkWs.onmessage`: the first part with non-empty text is logged, then
      the first part with inline data is played; nothing else. */
  function TalkDispatch(f: SocketFrame): (events: seq<TalkEvent>)
    ensures |events| <= 2
    ensures PartsOf(f).None? ==> events == []
    ensures (|events| > 0 && events[0].LogModelText?) <==>
      PartsOf(f).Some? && exists j :: 0 <= j < |PartsOf(f).value| && HasText(PartsOf(f).value[j])
    ensures (|events| > 0 && events[|events| - 1].PlayPcm?) <==>
      PartsOf(f).Some? && exists j :: 0 <= j < |PartsOf(f).value| && HasAudio(PartsOf(f).value[j])
    ensures |events| == 2 ==> events[0].LogModelText? && events[1].PlayPcm?
  {
    match PartsOf(f)
    case None => []
    case Some(parts) =>
      var text := match FirstText(parts)
        case Some(i) => [LogModelText(parts[i].text.value)]
        case None => [];
      var audio := match FirstAudio(parts)
        case Some(i) => [PlayPcm(parts[i].inlineData.value.data)]
        case None => [];
      text + audio
  }

  /** The logged text is the text of the earliest part that has any, and
      the played payload that of the earliest part carrying inline data. */
  lemma TalkDispatchPicksFirst(f: SocketFrame, i: nat)
    requires PartsOf(f).Some? && i < |PartsOf(f).value|
    ensures var parts := PartsOf(f).value; var events := TalkDispatch(f);
      && (HasText(parts[i]) && (forall j :: 0 <= j < i ==> !HasText(parts[j]))
          ==> events[0] == LogModelText(parts[i].text.value))
      && (HasAudio(parts[i]) && (forall j :: 0 <= j < i ==> !HasAudio(parts[j]))
          ==> events[|events| - 1] == PlayPcm(parts[i].inlineData.value.data))
  {
    var parts := PartsOf(f).value;
    if HasText(parts[i]) && (forall j :: 0 <= j < i ==> !HasText(parts[j])) {
      assert FirstText(parts) == Some(i);
    }
    if HasAudio(parts[i]) && (forall j :: 0 <= j < i ==> !HasAudio(parts[j])) {
      assert FirstAudio(parts) == Some(i);
    }
  }

  /** `p.text` inside `.map(p => p.text).join("")`: a missing text joins as
      the empty string. */
  function TextOrEmpty(p: Part): string {
    match p.text
    case Some(t) => t
    case None => ""
  }

  /** `parts.map(p => p.text).join("")`. */
  function JoinedText(parts: seq<Part>): (r: string)
    ensures forall i :: 0 <= i < |parts| ==> |TextOrEmpty(parts[i])| <= |r|
    ensures |parts| > 0 ==> TextOrEmpty(parts[0]) <= r
  {
    if |parts| == 0 then "" else TextOrEmpty(parts[0]) + JoinedText(parts[1..])
  }

  lemma {:induction false} JoinedTextAppend(a: seq<Part>, b: seq<Part>)
    decreases |a|
    ensures JoinedText(a + b) == JoinedText(a) + JoinedText(b)
  {
    if |a| == 0 {
      assert a + b == b;
    } else {
      assert (a + b)[0] == a[0];
      assert (a + b)[1..] == a[1..] + b;
      JoinedTextAppend(a[1..], b);
    }
  }

  /** The joined text is empty exactly when no part has text. */
  lemma {:induction false} JoinedTextEmpty(parts: seq<Part>)
    decreases |parts|
    ensures JoinedText(parts) == "" <==> forall j :: 0 <= j < |parts| ==> !HasText(parts[j])
  {
    if |parts| > 0 {
      JoinedTextEmpty(parts[1..]);
      assert forall j :: 1 <= j < |parts| ==> parts[j] == parts[1..][j - 1];
    }
  }

  /** The update the page session forwards as `TRANSCRIPT_UPDATE`. */
  datatype TranscriptUpdate = TranscriptUpdate(text: string, isFinal: Option<bool>)

  /** `handleServerMessage`: the texts of all parts joined, forwarded only
      when non-empty, with `turnComplete` as `isFinal`. A `Blob`, a parse
      failure or a message without parts yields nothing. */
  function PageDispatch(f: SocketFrame): (r: Option<TranscriptUpdate>)
    ensures r.Some? <==> PartsOf(f).Some? && exists j :: 0 <= j < |PartsOf(f).value| && HasText(PartsOf(f).value[j])
    ensures r.Some? ==> r.value.text == JoinedText(PartsOf(f).value)
    ensures r.Some? ==> r.value.isFinal == f.parsed.value.serverContent.value.turnComplete
  {
    match PartsOf(f)
    case None => None
    case Some(parts) =>
      JoinedTextEmpty(parts);
      var text := JoinedText(parts);
      if text != "" then Some(TranscriptUpdate(text, f.parsed.value.serverContent.value.turnComplete))
      else None
  }

  /** The two variants agree where they overlap: when the microphone session
      would log a text, the page session forwards a text that begins with
      it. */
  lemma {:induction false} TalkTextPrefixesPageText(parts: seq<Part>)
    requires FirstText(parts).Some?
    decreases |parts|
    ensures parts[FirstText(parts).value].text.value <= JoinedText(parts)
  {
    var rest := JoinedText(parts[1..]);
    if HasText(parts[0]) {
      assert JoinedText(parts) == parts[0].text.value + rest;
    } else {
      var k := FirstText(parts[1..]).value;
      assert TextOrEmpty(parts[0]) == "";
      assert JoinedText(parts) == rest;
      assert parts[FirstText(parts).value] == parts[1..][k];
      TalkTextPrefixesPageText(parts[1..]);
    }
  }
}

=== FILE: talk_session.dfy ===
/** The microphone conversation of the popup: the talk log with its class
    mapping and de-duplication (`appendTalkLog`), the start and stop of a
    session (`startTalk`, `stopTalk`, `toggleTalk`), and the socket
    callbacks (`talkWs.onmessage`, `talkWs.onclose`; the worklet's frame
    handler is `Wire.SendFrame`). The platform objects are opaque handles; every platform call
    is an input. */
module TalkSession {
  import opened Wrappers
  import opened JsStrings
  import opened Platform
  import opened Wire
  import opened ServerEvents

  // ---------------------------------------------------------------------
  // The talk log

  /** The `className` of a log entry for a message `type`. */
  function ClassName(kind: string): (c: string)
    ensures kind == "model" <==> c == "message assistant"
    ensures kind == "user" <==> c == "message user"
    ensures kind == "error" <==> c == "message error"
    ensures c == "message system" <==> kind != "model" && kind != "user" && kind != "error"
  {
    if kind == "model" then "message assistant"
    else if kind == "user" then "message user"
    else if kind == "error" then "message error"
    else "message system"
  }

  /** The rest of a string after the end of the tag it starts inside. */
  function SkipTag(s: string): (r: string)
    ensures |r| <= |s| && r == s[|s| - |r|..]
  {
    if |s| == 0 then ""
    else if s[0] == '>' then s[1..]
    else SkipTag(s[1..])
  }

  /** The text content of a string assigned as markup: every `<...>` span
      is dropped. */
  function StripTags(s: string): (r: string)
    decreases |s|
    ensures |r| <= |s|
    ensures forall i :: 0 <= i < |r| ==> r[i] != '<'
  {
    if |s| == 0 then ""
    else if s[0] == '<' then StripTags(SkipTag(s[1..]))
    else [s[0]] + StripTags(s[1..])
  }

  /** Text without markup is its own text content. */
  lemma {:induction false} StripTagsOfPlain(s: string)
    requires forall i :: 0 <= i < |s| ==> s[i] != '<'
    decreases |s|
    ensures StripTags(s) == s
  {
    if |s| > 0 {
      StripTagsOfPlain(s[1..]);
    }
  }

  /** A log entry as the history element holds it. */
  datatype LogEntry = LogEntry(className: string, textContent: string)

  /** The text content of the entry `appendTalkLog` creates: a text with a
      link is markup, a model text is markup with its line breaks as
      `<br>`, any other text is plain. */
  function TextContent(text: string, kind: string): (r: string)
    ensures Contains(text, "<a href") || kind == "model" ==> forall i :: 0 <= i < |r| ==> r[i] != '<'
    ensures Contains(text, "<a href") ==> |r| <= |text|
    ensures !Contains(text, "<a href") && kind != "model" ==> r == text
  {
    if Contains(text, "<a href") then StripTags(text)
    else if kind == "model" then StripTags(ReplaceAll(text, "\n", "<br>"))
    else text
  }

  /** A text with no `<` and no line break shows as itself, whatever its
      kind. */
  lemma TextContentOfPlain(text: string, kind: string)
    requires forall i :: 0 <= i < |text| ==> text[i] != '<' && text[i] != '\n'
    ensures TextContent(text, kind) == text
  {
    ContainsFirstChar(text, "<a href");
    ContainsFirstChar(text, "\n");
    ReplaceAllUnchanged(text, "\n", "<br>");
    StripTagsOfPlain(text);
  }

  /** Only system and error messages are de-duplicated. */
  predicate Deduplicated(kind: string) {
    kind == "system" || kind == "error"
  }

  /** `appendTalkLog(text, type)`: a system or error message whose text is
      that of the last entry is dropped; anything else is appended with its
      class. */
  function AppendTalkLog(log: seq<LogEntry>, text: string, kind: string): (r: seq<LogEntry>)
    ensures log <= r && |r| <= |log| + 1
    ensures r == log <==> |log| > 0 && log[|log| - 1].textContent == text && Deduplicated(kind)
    ensures |r| == |log| + 1 ==> r[|log|] == LogEntry(ClassName(kind), TextContent(text, kind))
  {
    if |log| > 0 && log[|log| - 1].textContent == text && Deduplicated(kind) then log
    else log + [LogEntry(ClassName(kind), TextContent(text, kind))]
  }

  /** Logging the same plain system or error message twice logs it once. */
  lemma AppendTalkLogIdempotent(log: seq<LogEntry>, text: string, kind: string)
    requires Deduplicated(kind)
    requires forall i :: 0 <= i < |text| ==> text[i] != '<' && text[i] != '\n'
    ensures AppendTalkLog(AppendTalkLog(log, text, kind), text, kind) == AppendTalkLog(log, text, kind)
  {
    TextContentOfPlain(text, kind);
  }

  /** Model and user messages are always appended, even when repeated. */
  lemma AppendTalkLogKeepsRepeats(log: seq<LogEntry>, text: string, kind: string)
    requires !Deduplicated(kind)
    ensures |AppendTalkLog(log, text, kind)| == |log| + 1
  {
  }

  // ---------------------------------------------------------------------
  // Session state

  /** A call `appendTalkLog(text, kind)`. */
  datatype LogLine = LogLine(text: string, kind: string)

  /** The `appendTalkLog` calls the session makes. */
  datatype TalkNote =
    | Requesting          // a start begins
    | Listening           // a start succeeded
    | Ended               // an active session stops
    | StartFailed(e: JsError)
    | ModelSaid(text: string)

  /** The text and kind each note is logged with. */
  function Line(n: TalkNote): LogLine {
    match n
    case Requesting => LogLine(RequestingMessage, "system")
    case Listening => LogLine(ListeningMessage, "system")
    case Ended => LogLine(EndedMessage, "system")
    case StartFailed(e) => LogLine(FailureMessage(e), "error")
    case ModelSaid(t) => LogLine(t, "model")
  }

  /** The log after a series of notes. */
  function AppendNotes(log: seq<LogEntry>, notes: seq<TalkNote>): (r: seq<LogEntry>)
    decreases |notes|
    ensures log <= r && |r| <= |log| + |notes|
  {
    if |notes| == 0 then log
    else AppendNotes(AppendTalkLog(log, Line(notes[0]).text, Line(notes[0]).kind), notes[1..])
  }

  /** Two notes are two `appendTalkLog` calls in order. */
  lemma AppendTwoNotes(log: seq<LogEntry>, a: TalkNote, b: TalkNote)
    ensures AppendNotes(log, [a, b]) ==
      AppendTalkLog(AppendTalkLog(log, Line(a).text, Line(a).kind), Line(b).text, Line(b).kind)
  {
    assert [a, b][1..] == [b];
    assert [b][1..] == [];
  }

  /** The talk variables of the popup; the history element is the log,
      kept apart. */
  datatype TalkState = TalkState(
    isTalkActive: bool,
    ws: Option<Handle>,
    audioContext: Option<Handle>,
    stream: Option<Handle>,
    workletNode: Option<Handle>,
    audioQueue: seq<seq<real>>)

  /** No platform object held, nothing active, nothing queued. */
  predicate TalkIdle(st: TalkState) {
    && !st.isTalkActive && st.ws.None? && st.audioContext.None? && st.stream.None?
    && st.workletNode.None? && st.audioQueue == []
  }

  const RequestingMessage := "Requesting microphone access..."
  const ListeningMessage := "Gemini is listening..."
  const EndedMessage := "Session ended."
  const BlockedText := "Microphone blocked. "
  const LinkOpen := "<a href"
  const PermissionMessage := BlockedText + LinkOpen
    + "=\"#\" id=\"fixPermsBtn\" style=\"color: #ef4444; text-decoration: underline;\">Fix Permissions</a>"
  const TalkModel := "models/gemini-2.5-flash-native-audio-dialog"

  datatype TalkStopped = TalkStopped(state: TalkState, calls: seq<Teardown>, logged: seq<TalkNote>)

  /** `t` stops the tracks of the stream, disconnects the worklet, or
      closes the context or socket, that the state holds; no source node is
      kept, so none is disconnected. */
  predicate TalkReleases(st: TalkState, t: Teardown) {
    match t.action
    case StopTracks => st.stream == Some(t.h)
    case DisconnectWorklet => st.workletNode == Some(t.h)
    case CloseContext => st.audioContext == Some(t.h)
    case CloseSocket => st.ws == Some(t.h)
    case DisconnectSource => false
  }

  /** The release calls of `stopTalk`, in order: stop the microphone
      tracks, disconnect the worklet, close the context, close the socket. */
  function TalkTeardown(st: TalkState): (calls: seq<Teardown>)
    ensures forall t :: t in calls <==> TalkReleases(st, t)
  {
    Release(StopTracks, st.stream)
    + Release(DisconnectWorklet, st.workletNode)
    + Release(CloseContext, st.audioContext)
    + Release(CloseSocket, st.ws)
  }

  /** `stopTalk`: log the end of an active session, release what is held,
      and drop every handle and queued buffer. */
  function StopTalk(st: TalkState): (r: TalkStopped)
    ensures TalkIdle(r.state) && r.calls == TalkTeardown(st)
    ensures r.logged == if st.isTalkActive then [Ended] else []
  {
    TalkStopped(TalkState(false, None, None, None, None, []), TalkTeardown(st),
                if st.isTalkActive then [Ended] else [])
  }

  /** A second stop does nothing: no call, no log line, no change. */
  lemma StopTalkIdempotent(st: TalkState)
    ensures StopTalk(StopTalk(st).state) == TalkStopped(StopTalk(st).state, [], [])
  {
  }

  // ---------------------------------------------------------------------
  // startTalk

  /** A thrown value: its `name` and `message` as JavaScript reads them. */
  datatype JsError = JsError(name: JsValue, message: JsValue)

  /** The `error` event a socket rejects the connection with: it has
      neither a name nor a message. */
  const SocketEvent := JsError(Undefined, Undefined)

  /** The outcome of every platform call `startTalk` makes, in call order. */
  datatype TalkEnv = TalkEnv(
    microphone: Result<Handle, JsError>,
    newContext: Result<Handle, JsError>,
    moduleLoad: Option<JsError>,
    socket: Handle,
    socketOpens: bool,
    newSource: Result<Handle, JsError>,
    newNode: Result<Handle, JsError>)

  /** The microphone was refused. */
  predicate PermissionDenied(e: JsError) {
    e.name == Str("NotAllowedError") || e.name == Str("PermissionDismissedError")
  }

  /** The log text of a failed start: a refused microphone gets the link to
      the permission page, anything else its message. */
  function FailureMessage(e: JsError): (m: string)
    ensures PermissionDenied(e) ==> m == PermissionMessage
    ensures !PermissionDenied(e) ==> m == "Error: " + Render(e.message)
  {
    if PermissionDenied(e) then PermissionMessage else "Error: " + Render(e.message)
  }

  /** The setup message of the talk socket: the native-audio dialog model,
      audio replies in the Aoede voice. */
  function TalkSetup(): (m: Outbound)
    ensures m.Setup? && m.model == TalkModel
    ensures m.responseModalities == [Audio] && m.voiceName == Some("Aoede")
  {
    Setup(TalkModel, [Audio], Some("Aoede"))
  }

  /** One run of `startTalk`: the state after it, the key rendered into
      the URL (`Wire.SocketUrl`) of the socket it created, the messages sent, the teardown calls of its `catch`, and the
      log lines it wrote. */
  datatype TalkStarted = TalkStarted(
    state: TalkState, socketKey: Option<string>, sent: seq<Outbound>, calls: seq<Teardown>,
    logged: seq<TalkNote>)

  /** The `catch` of `startTalk`: stop, then log the failure as an error. */
  function Fail(st: TalkState, e: JsError, key: Option<string>, sent: seq<Outbound>): (r: TalkStarted)
    ensures TalkIdle(r.state) && r.socketKey == key && r.sent == sent && r.calls == TalkTeardown(st)
    ensures r.logged == StopTalk(st).logged + [StartFailed(e)]
  {
    var s := StopTalk(st);
    TalkStarted(s.state, key, sent, s.calls, s.logged + [StartFailed(e)])
  }

  /** A start fails at the first platform call that fails. */
  predicate StartFails(env: TalkEnv) {
    || env.microphone.Err? || env.newContext.Err? || env.moduleLoad.Some?
    || !env.socketOpens || env.newSource.Err? || env.newNode.Err?
  }

  /** What the first failing call after the socket opened threw. */
  function LateFailure(env: TalkEnv): JsError
    requires env.newSource.Err? || env.newNode.Err?
  {
    if env.newSource.Err? then env.newSource.error else env.newNode.error
  }

  /** What the first failing call after the audio context threw. */
  function ContextFailure(env: TalkEnv): JsError
    requires env.moduleLoad.Some? || !env.socketOpens || env.newSource.Err? || env.newNode.Err?
  {
    if env.moduleLoad.Some? then env.moduleLoad.value
    else if !env.socketOpens then SocketEvent
    else LateFailure(env)
  }

  /** What the first failing call threw. */
  function FirstFailure(env: TalkEnv): JsError
    requires StartFails(env)
  {
    if env.microphone.Err? then env.microphone.error
    else if env.newContext.Err? then env.newContext.error
    else ContextFailure(env)
  }

  /** `startTalk` once the socket is open: source, node, then active. */
  function Attach(st: TalkState, key: string, env: TalkEnv): (r: TalkStarted)
    ensures r.state.isTalkActive <==> env.newSource.Ok? && env.newNode.Ok?
    ensures r.state.isTalkActive ==>
      && r.state == st.(workletNode := Some(env.newNode.value), isTalkActive := true)
      && r.calls == [] && r.logged == [Listening]
    ensures !r.state.isTalkActive ==> TalkIdle(r.state)
    ensures !r.state.isTalkActive ==>
      r.logged == StopTalk(st).logged + [StartFailed(LateFailure(env))]
    ensures !r.state.isTalkActive ==> r.calls == TalkTeardown(st)
    ensures r.socketKey == Some(key) && r.sent == [TalkSetup()]
  {
    var sent := [TalkSetup()];
    match env.newSource
    case Err(e) => Fail(st, e, Some(key), sent)
    case Ok(_) =>
      match env.newNode
      case Err(e) => Fail(st, e, Some(key), sent)
      case Ok(node) =>
        TalkStarted(st.(workletNode := Some(node), isTalkActive := true), Some(key), sent, [],
                    [Listening])
  }

  /** `startTalk` once the audio context exists: load the worklet module,
      then open the socket with the rendered key. */
  function AfterContext(st: TalkState, apiKey: JsValue, env: TalkEnv): (r: TalkStarted)
    ensures r.state.isTalkActive <==> env.moduleLoad.None? && env.socketOpens && env.newSource.Ok? && env.newNode.Ok?
    ensures r.state.isTalkActive ==>
      && r.state == st.(ws := Some(env.socket), workletNode := Some(env.newNode.value), isTalkActive := true)
      && r.calls == [] && r.logged == [Listening]
    ensures !r.state.isTalkActive ==> TalkIdle(r.state)
    // a failure releases what the session held, and the socket once it was created
    ensures !r.state.isTalkActive ==>
      r.calls == TalkTeardown(if env.moduleLoad.Some? then st else st.(ws := Some(env.socket)))
  {
    if env.moduleLoad.Some? then Fail(st, env.moduleLoad.value, None, [])
    else
      var key := Render(apiKey);
      var st := st.(ws := Some(env.socket));
      if !env.socketOpens then Fail(st, SocketEvent, Some(key), [])
      else Attach(st, key, env)
  }

  /** `startTalk` with the key `authManager.apiKey` holds. */
  function StartTalk(st: TalkState, apiKey: JsValue, env: TalkEnv): (r: TalkStarted)
    ensures !r.state.isTalkActive ==> TalkIdle(r.state)
    ensures |r.logged| > 0 && r.logged[0] == Requesting
  {
    var rest :=
      match env.microphone
      case Err(e) => Fail(st, e, None, [])
      case Ok(stream) =>
        var st := st.(stream := Some(stream));
        match env.newContext
        case Err(e) => Fail(st, e, None, [])
        case Ok(ctx) => AfterContext(st.(audioContext := Some(ctx)), apiKey, env);
    rest.(logged := [Requesting] + rest.logged)
  }

  /** A start succeeds exactly when every platform call does; the session
      then holds what the calls returned, sent the setup, and logged the
      request and the listening notice. */
  lemma StartTalkSucceedsExactly(st: TalkState, apiKey: JsValue, env: TalkEnv)
    ensures StartTalk(st, apiKey, env).state.isTalkActive <==>
      && env.microphone.Ok? && env.newContext.Ok? && env.moduleLoad.None?
      && env.socketOpens && env.newSource.Ok? && env.newNode.Ok?
    ensures var r := StartTalk(st, apiKey, env);
      r.state.isTalkActive ==>
        && r.state == st.(stream := Some(env.microphone.value), audioContext := Some(env.newContext.value),
                          ws := Some(env.socket), workletNode := Some(env.newNode.value), isTalkActive := true)
        && r.logged == [Requesting, Listening]
        && r.sent == [TalkSetup()] && r.calls == []
  {
  }

  /** A failure after the audio context logs the end notice if a session
      was active, then the error of the first failing call. */
  lemma AfterContextFailureNotes(st: TalkState, apiKey: JsValue, env: TalkEnv)
    requires env.moduleLoad.Some? || !env.socketOpens || env.newSource.Err? || env.newNode.Err?
    ensures AfterContext(st, apiKey, env).logged == StopTalk(st).logged + [StartFailed(ContextFailure(env))]
  {
    if env.moduleLoad.None? && env.socketOpens {
      var st1 := st.(ws := Some(env.socket));
      assert StopTalk(st1).logged == StopTalk(st).logged;
      assert AfterContext(st, apiKey, env) == Attach(st1, Render(apiKey), env);
    }
  }

  /** A failed start logs the request, the end notice if a session was
      active, and the error of the first failing call. */
  lemma StartTalkFailureLines(st: TalkState, apiKey: JsValue, env: TalkEnv)
    requires StartFails(env)
    ensures StartTalk(st, apiKey, env).logged ==
      [Requesting] + (if st.isTalkActive then [Ended] else []) + [StartFailed(FirstFailure(env))]
  {
    if env.microphone.Ok? && env.newContext.Ok? {
      var st2 := st.(stream := Some(env.microphone.value), audioContext := Some(env.newContext.value));
      AfterContextFailureNotes(st2, apiKey, env);
      assert StopTalk(st2).logged == StopTalk(st).logged;
      assert StartTalk(st, apiKey, env).logged == [Requesting] + AfterContext(st2, apiKey, env).logged;
    }
  }

  /** A failed start releases everything it held. */
  lemma StartTalkFailureReleases(st: TalkState, apiKey: JsValue, env: TalkEnv)
    requires StartFails(env)
    ensures TalkIdle(StartTalk(st, apiKey, env).state)
  {
    StartTalkSucceedsExactly(st, apiKey, env);
  }

  /** A socket that closes before it opens is reported as an event without
      a name or message, which reads "Error: undefined". */
  lemma SocketFailureMessage(env: TalkEnv)
    requires env.microphone.Ok? && env.newContext.Ok? && env.moduleLoad.None? && !env.socketOpens
    ensures FailureMessage(FirstFailure(env)) == "Error: undefined"
  {
  }

  /** The socket is created with the rendered key once the module has
      loaded, and the setup is the only message sent, once it opens. */
  lemma StartTalkSends(st: TalkState, apiKey: JsValue, env: TalkEnv)
    ensures var r := StartTalk(st, apiKey, env);
      && (r.socketKey.Some? <==> env.microphone.Ok? && env.newContext.Ok? && env.moduleLoad.None?)
      && (r.socketKey.Some? ==> r.socketKey.value == Render(apiKey))
      && (r.sent != [] <==> r.socketKey.Some? && env.socketOpens)
      && (r.sent != [] ==> r.sent == [TalkSetup()])
  {
    if env.microphone.Ok? && env.newContext.Ok? && env.moduleLoad.None? {
      var st2 := st.(stream := Some(env.microphone.value), audioContext := Some(env.newContext.value));
      var key := Render(apiKey);
      var st3 := st2.(ws := Some(env.socket));
      if env.socketOpens {
        assert AfterContext(st2, apiKey, env) == Attach(st3, key, env);
      }
    }
  }

  /** Every failure text starts with a capital other than that of the
      request line. */
  lemma FailureMessageStart(e: JsError)
    ensures |FailureMessage(e)| > 0 && FailureMessage(e)[0] in {'M', 'E'}
  {
    if PermissionDenied(e) {
      assert PermissionMessage[0] == BlockedText[0];
    }
  }

  /** A refused microphone shows the permission link, and only a refusal
      does; every other failure reads "Error: " and its message. */
  lemma PermissionLinkOnlyForRefusal(e: JsError)
    ensures PermissionDenied(e) ==> Contains(FailureMessage(e), "<a href")
    ensures !PermissionDenied(e) ==> FailureMessage(e)[..7] == "Error: "
  {
    if PermissionDenied(e) {
      OccursInSplice(BlockedText, LinkOpen, PermissionMessage[|BlockedText| + |LinkOpen|..]);
    }
  }

  /** A plain message followed by one that starts differently: the second
      is never dropped, so it ends the log. */
  lemma SecondOfTwoLogged(log: seq<LogEntry>, a: string, ka: string, b: string, kb: string)
    requires forall i :: 0 <= i < |a| ==> a[i] != '<' && a[i] != '\n'
    requires |a| > 0 && |b| > 0 && a[0] != b[0]
    ensures var out := AppendTalkLog(AppendTalkLog(log, a, ka), b, kb);
      out[|out| - 1] == LogEntry(ClassName(kb), TextContent(b, kb))
  {
    var mid := AppendTalkLog(log, a, ka);
    TextContentOfPlain(a, ka);
    assert mid[|mid| - 1].textContent == a;
  }

  /** The request line followed by a failure ends the log with the error
      entry. */
  lemma FailureAfterRequestLogged(log: seq<LogEntry>, e: JsError)
    ensures var out := AppendNotes(log, [Requesting, StartFailed(e)]);
      out[|out| - 1] == LogEntry("message error", TextContent(FailureMessage(e), "error"))
  {
    FailureMessageStart(e);
    SecondOfTwoLogged(log, RequestingMessage, "system", FailureMessage(e), "error");
    AppendTwoNotes(log, Requesting, StartFailed(e));
  }

  /** A failed start of an inactive session always ends the log with its
      error entry: the request line just before has a different text, so
      de-duplication cannot drop it. */
  lemma FailedStartLogsError(st: TalkState, apiKey: JsValue, env: TalkEnv, log: seq<LogEntry>)
    requires !st.isTalkActive && StartFails(env)
    ensures var out := AppendNotes(log, StartTalk(st, apiKey, env).logged);
      out[|out| - 1] == LogEntry("message error", TextContent(FailureMessage(FirstFailure(env)), "error"))
  {
    StartTalkFailureLines(st, apiKey, env);
    assert StartTalk(st, apiKey, env).logged == [Requesting, StartFailed(FirstFailure(env))];
    FailureAfterRequestLogged(log, FirstFailure(env));
  }

  // ---------------------------------------------------------------------
  // Socket and worklet callbacks

  /** What one server message does to the popup: the log lines written, and
      the samples handed to the audio context, if any. */
  datatype TalkReaction = TalkReaction(logged: seq<TalkNote>, played: Option<seq<real>>)

  /** `talkWs.onmessage`: log the first non-empty text as a model message,
      then decode and play the first inline audio. A payload that does not
      decode, a missing audio context, or a payload that decodes to no
      samples (`createBuffer` refuses a zero-length buffer) throws inside
      `playPcmAudio` and plays nothing. */
  function OnTalkMessage(st: TalkState, f: SocketFrame): (r: TalkReaction)
    ensures PartsOf(f).None? ==> r == TalkReaction([], None)
    ensures PartsOf(f).Some? && FirstText(PartsOf(f).value).Some? ==>
      var parts := PartsOf(f).value;
      r.logged == [ModelSaid(parts[FirstText(parts).value].text.value)]
    ensures PartsOf(f).Some? && FirstText(PartsOf(f).value).None? ==> r.logged == []
    ensures r.played.Some? <==>
      && st.audioContext.Some? && PartsOf(f).Some? && FirstAudio(PartsOf(f).value).Some?
      && DecodePcmAudio(PartsOf(f).value[FirstAudio(PartsOf(f).value).value].inlineData.value.data).Ok?
      && |DecodePcmAudio(PartsOf(f).value[FirstAudio(PartsOf(f).value).value].inlineData.value.data).value| > 0
    ensures r.played.Some? ==>
      Ok(r.played.value) == DecodePcmAudio(PartsOf(f).value[FirstAudio(PartsOf(f).value).value].inlineData.value.data)
  {
    var events := TalkDispatch(f);
    var logged := if |events| > 0 && events[0].LogModelText? then [ModelSaid(events[0].text)] else [];
    var played :=
      if |events| > 0 && events[|events| - 1].PlayPcm? && st.audioContext.Some? then
        match DecodePcmAudio(events[|events| - 1].base64)
        case Ok(samples) => if |samples| > 0 then Some(samples) else None
        case Err(_) => None
      else None;
    TalkReaction(logged, played)
  }

  /** Every model text a message carries reaches the log, repeated or not. */
  lemma ModelTextAlwaysLogged(st: TalkState, f: SocketFrame, log: seq<LogEntry>)
    requires PartsOf(f).Some? && FirstText(PartsOf(f).value).Some?
    ensures |AppendNotes(log, OnTalkMessage(st, f).logged)| == |log| + 1
  {
    var note := OnTalkMessage(st, f).logged[0];
    AppendTalkLogKeepsRepeats(log, note.text, "model");
    assert AppendNotes(log, OnTalkMessage(st, f).logged)
      == AppendNotes(AppendTalkLog(log, note.text, "model"), []);
  }

  /** `talkWs.onclose`: only an active session is stopped. */
  function OnTalkClose(st: TalkState): (r: TalkStopped)
    ensures st.isTalkActive ==> TalkIdle(r.state) && r.logged == [Ended]
    ensures !st.isTalkActive ==> r == TalkStopped(st, [], [])
  {
    if st.isTalkActive then StopTalk(st) else TalkStopped(st, [], [])
  }

  /** `toggleTalk`: stop an active session, otherwise start one. */
  function Toggle(st: TalkState, apiKey: JsValue, env: TalkEnv): (r: TalkStarted)
    ensures st.isTalkActive ==> TalkIdle(r.state) && r.socketKey.None? && r.calls == TalkTeardown(st)
    ensures !st.isTalkActive ==> |r.logged| > 0 && r.logged[0] == Requesting
  {
    if st.isTalkActive then
      var s := StopTalk(st);
      TalkStarted(s.state, None, [], s.calls, s.logged)
    else StartTalk(st, apiKey, env)
  }

  /** Toggling a started session stops it: everything the start opened is
      released and the only line logged is the end notice. */
  lemma ToggleTwiceReleases(st: TalkState, apiKey: JsValue, env: TalkEnv)
    requires !st.isTalkActive && !StartFails(env)
    ensures var started := Toggle(st, apiKey, env).state;
      var stopped := Toggle(started, apiKey, env);
      && started.isTalkActive
      && TalkIdle(stopped.state)
      && Teardown(CloseSocket, env.socket) in stopped.calls
      && Teardown(StopTracks, env.microphone.value) in stopped.calls
      && Teardown(CloseContext, env.newContext.value) in stopped.calls
      && Teardown(DisconnectWorklet, env.newNode.value) in stopped.calls
      && stopped.logged == [Ended]
  {
    StartTalkSucceedsExactly(st, apiKey, env);
  }
}

=== FILE: transcript.dfy ===
/** The transcript helpers of the page script and the popup: caption-time
    formatting (`formatTime`), caption text clean-up and line assembly
    (`parseTranscriptXml` after the markup has been parsed), the caption
    track preference, and the file-name title of a downloaded transcript. */
module Transcript {
  import opened Wrappers
  import opened JsStrings
  import opened JsMath
  import opened Decimal

  // ---------------------------------------------------------------------
  // formatTime

  /** `pad`: `n.toString().padStart(2, '0')`. */
  function Pad(n: int): string {
    PadStart2(IntToString(n))
  }

  /** The hour, minute and second numbers `formatTime` computes. */
  function Hours(seconds: real): int {
    Floor(seconds / 3600.0)
  }

  function Minutes(seconds: real): int {
    Floor(Rem(seconds, 3600.0) / 60.0)
  }

  function Secs(seconds: real): int {
    Floor(Rem(seconds, 60.0))
  }

  /** The fields of the clock text: the hour only when it is positive,
      then the two-digit minute and second. */
  function ClockFields(h: int, m: int, s: int): seq<string> {
    if h > 0 then [IntToString(h), Pad(m), Pad(s)] else [Pad(m), Pad(s)]
  }

  /** Fields separated by `:`. */
  function JoinFields(fs: seq<string>): (r: string)
    decreases |fs|
    ensures |fs| >= 2 ==> |r| >= |fs[|fs| - 2]| + 1 + |fs[|fs| - 1]|
    ensures |fs| >= 3 ==> |r| >= |fs[0]| + 1 + |fs[|fs| - 2]| + 1 + |fs[|fs| - 1]|
  {
    if |fs| == 0 then ""
    else if |fs| == 1 then fs[0]
    else fs[0] + ":" + JoinFields(fs[1..])
  }

  /** The clock text of an hour, minute and second count: `h:mm:ss` when
      the hour is positive, else `mm:ss`. */
  function Clock(h: int, m: int, s: int): (r: string)
    ensures |r| >= 5
    ensures h > 0 ==> |r| >= 7
  {
    JoinFields(ClockFields(h, m, s))
  }

  /** `formatTime(seconds)`. */
  function FormatTime(seconds: real): (r: string)
    ensures |r| >= 5
    ensures Hours(seconds) > 0 ==> |r| >= 7
  {
    Clock(Hours(seconds), Minutes(seconds), Secs(seconds))
  }

  /** For a non-negative time the three numbers are the hour, minute and
      second of its whole part, minutes and seconds below 60. */
  lemma ClockParts(seconds: real)
    requires seconds >= 0.0
    ensures var f := Floor(seconds);
      && Hours(seconds) == f / 3600
      && Minutes(seconds) == (f % 3600) / 60
      && Secs(seconds) == f % 60
      && 0 <= Minutes(seconds) < 60 && 0 <= Secs(seconds) < 60
      && Hours(seconds) * 3600 + Minutes(seconds) * 60 + Secs(seconds) == f
  {
    var f := Floor(seconds);
    FloorDiv(seconds, 3600);
    FloorDiv(seconds, 60);
    var h := f / 3600;
    assert Trunc(seconds / 3600.0) == h;
    var r := seconds - 3600.0 * h as real;
    assert Rem(seconds, 3600.0) == r;
    assert r >= 0.0;
    assert Floor(r) == f - 3600 * h;
    FloorDiv(r, 60);
    assert Floor(seconds / 60.0) == f / 60;
    assert Trunc(seconds / 60.0) == f / 60;
    assert Floor(Rem(seconds, 60.0)) == f - 60 * (f / 60);
  }

  /** Splits a string at every `:`. */
  function Fields(s: string): (r: seq<string>)
    ensures |r| >= 1
  {
    if |s| == 0 then [""]
    else if s[0] == ':' then [""] + Fields(s[1..])
    else var rest := Fields(s[1..]); [[s[0]] + rest[0]] + rest[1..]
  }

  predicate NoColon(f: string) {
    forall i :: 0 <= i < |f| ==> f[i] != ':'
  }

  lemma {:induction false} FieldsOfPlain(a: string)
    requires NoColon(a)
    decreases |a|
    ensures Fields(a) == [a]
  {
    if |a| > 0 {
      FieldsOfPlain(a[1..]);
      assert [a[0]] + a[1..] == a;
    }
  }

  lemma {:induction false} FieldsOfJoin(a: string, b: string)
    requires NoColon(a)
    decreases |a|
    ensures Fields(a + ":" + b) == [a] + Fields(b)
  {
    if |a| == 0 {
      assert a + ":" + b == [':'] + b;
      assert (a + ":" + b)[1..] == b;
    } else {
      assert (a + ":" + b)[1..] == a[1..] + ":" + b;
      FieldsOfJoin(a[1..], b);
      assert [a[0]] + a[1..] == a;
    }
  }

  /** Splitting undoes joining, as long as no field holds a `:`. */
  lemma {:induction false} FieldsOfJoinFields(fs: seq<string>)
    requires |fs| >= 1
    requires forall k :: 0 <= k < |fs| ==> NoColon(fs[k])
    decreases |fs|
    ensures Fields(JoinFields(fs)) == fs
  {
    if |fs| == 1 {
      FieldsOfPlain(fs[0]);
    } else {
      FieldsOfJoinFields(fs[1..]);
      FieldsOfJoin(fs[0], JoinFields(fs[1..]));
      assert [fs[0]] + fs[1..] == fs;
    }
  }

  /** Reads `m:ss` or `h:mm:ss` fields back into whole seconds. */
  function ParseFields(f: seq<string>): Option<int> {
    if |f| == 2 && DigitsValue(f[0]).Some? && DigitsValue(f[1]).Some? then
      Some(DigitsValue(f[0]).value * 60 + DigitsValue(f[1]).value)
    else if |f| == 3 && DigitsValue(f[0]).Some? && DigitsValue(f[1]).Some? && DigitsValue(f[2]).Some? then
      Some(DigitsValue(f[0]).value * 3600 + DigitsValue(f[1]).value * 60 + DigitsValue(f[2]).value)
    else None
  }

  /** Reads a clock text back into whole seconds. */
  function ParseClock(s: string): Option<int> {
    ParseFields(Fields(s))
  }

  lemma DigitsHaveNoColon(d: string)
    requires DigitsValue(d).Some?
    ensures NoColon(d)
  {
  }

  lemma PadDigits(n: nat)
    requires n < 100
    ensures |Pad(n)| == 2 && DigitsValue(Pad(n)) == Some(n)
  {
    DigitsOfPadded(n);
  }

  lemma PadPlain(n: nat)
    requires n < 100
    ensures NoColon(Pad(n))
  {
    PadDigits(n);
    DigitsHaveNoColon(Pad(n));
  }

  lemma PlainTwo(a: string, b: string)
    requires NoColon(a) && NoColon(b)
    ensures forall k :: 0 <= k < |[a, b]| ==> NoColon([a, b][k])
  {
  }

  lemma PlainThree(a: string, b: string, c: string)
    requires NoColon(a) && NoColon(b) && NoColon(c)
    ensures forall k :: 0 <= k < |[a, b, c]| ==> NoColon([a, b, c][k])
  {
  }

  lemma ParseOfTwo(fs: seq<string>, m: nat, s: nat)
    requires |fs| == 2 && DigitsValue(fs[0]) == Some(m) && DigitsValue(fs[1]) == Some(s)
    ensures ParseFields(fs) == Some(m * 60 + s)
  {
  }

  lemma ParseOfThree(fs: seq<string>, h: nat, m: nat, s: nat)
    requires |fs| == 3
    requires DigitsValue(fs[0]) == Some(h) && DigitsValue(fs[1]) == Some(m) && DigitsValue(fs[2]) == Some(s)
    ensures ParseFields(fs) == Some(h * 3600 + m * 60 + s)
  {
  }

  /** The clock fields read back as the total seconds. */
  lemma ParseClockFields(h: nat, m: nat, s: nat)
    requires m < 60 && s < 60
    ensures ParseFields(ClockFields(h, m, s)) == Some(h * 3600 + m * 60 + s)
  {
    PadDigits(m);
    PadDigits(s);
    if h > 0 {
      DigitsOfNatToString(h);
      ParseOfThree([IntToString(h), Pad(m), Pad(s)], h, m, s);
    } else {
      ParseOfTwo([Pad(m), Pad(s)], m, s);
    }
  }

  /** Joining the clock fields and splitting again gives them back. */
  lemma ClockFieldsSplit(h: nat, m: nat, s: nat)
    requires m < 60 && s < 60
    ensures Fields(Clock(h, m, s)) == ClockFields(h, m, s)
  {
    PadPlain(m);
    PadPlain(s);
    if h > 0 {
      PlainThree(IntToString(h), Pad(m), Pad(s));
    } else {
      PlainTwo(Pad(m), Pad(s));
    }
    FieldsOfJoinFields(ClockFields(h, m, s));
  }

  /** A clock with minutes and seconds below 60 splits back into its
      fields and reads back as its total seconds. */
  lemma ClockRoundTrip(h: nat, m: nat, s: nat)
    requires m < 60 && s < 60
    ensures Fields(Clock(h, m, s)) == ClockFields(h, m, s)
    ensures ParseClock(Clock(h, m, s)) == Some(h * 3600 + m * 60 + s)
  {
    ClockFieldsSplit(h, m, s);
    ParseClockFields(h, m, s);
  }

  /** The clock text has three fields exactly when the hour is positive,
      and its last two fields are two digits each. */
  lemma ClockShape(h: nat, m: nat, s: nat)
    requires m < 60 && s < 60
    ensures |Fields(Clock(h, m, s))| == (if h > 0 then 3 else 2)
    ensures forall k :: |Fields(Clock(h, m, s))| - 2 <= k < |Fields(Clock(h, m, s))| ==>
      |Fields(Clock(h, m, s))[k]| == 2
  {
    ClockFieldsSplit(h, m, s);
    PadDigits(m);
    PadDigits(s);
  }

  /** The three numbers of a non-negative time: a whole count of hours,
      minutes and seconds below 60 that add up to its whole seconds, the
      hour positive exactly from one hour on. */
  lemma ClockTotal(seconds: real)
    requires seconds >= 0.0
    ensures Hours(seconds) >= 0 && 0 <= Minutes(seconds) < 60 && 0 <= Secs(seconds) < 60
    ensures Hours(seconds) * 3600 + Minutes(seconds) * 60 + Secs(seconds) == Floor(seconds)
    ensures Hours(seconds) > 0 <==> seconds >= 3600.0
  {
    ClockParts(seconds);
  }

  /** A formatted non-negative time reads back as its whole seconds. */
  lemma FormatTimeRoundTrip(seconds: real)
    requires seconds >= 0.0
    ensures ParseClock(FormatTime(seconds)) == Some(Floor(seconds))
  {
    ClockTotal(seconds);
    ClockReadsBack(Hours(seconds), Minutes(seconds), Secs(seconds), Floor(seconds));
  }

  lemma ClockReadsBack(h: nat, m: nat, s: nat, total: int)
    requires m < 60 && s < 60 && h * 3600 + m * 60 + s == total
    ensures ParseClock(Clock(h, m, s)) == Some(total)
  {
    ClockRoundTrip(h, m, s);
    var read := ParseClock(Clock(h, m, s));
    assert read == Some(total);
  }

  /** A formatted non-negative time has three fields exactly from one hour
      on, and its minute and second fields are two digits each. */
  lemma FormatTimeShape(seconds: real)
    requires seconds >= 0.0
    ensures |Fields(FormatTime(seconds))| == (if seconds >= 3600.0 then 3 else 2)
    ensures forall k :: |Fields(FormatTime(seconds))| - 2 <= k < |Fields(FormatTime(seconds))| ==>
      |Fields(FormatTime(seconds))[k]| == 2
  {
    ClockTotal(seconds);
    ClockShape(Hours(seconds), Minutes(seconds), Secs(seconds));
  }

  // ---------------------------------------------------------------------
  // Caption text

  /** The number of white-space characters the string starts with. */
  function LeadingSpaces(s: string): (k: nat)
    ensures k <= |s|
    ensures forall i :: 0 <= i < k ==> IsJsSpace(s[i])
    ensures k < |s| ==> !IsJsSpace(s[k])
  {
    if |s| > 0 && IsJsSpace(s[0]) then 1 + LeadingSpaces(s[1..]) else 0
  }

  /** The number of white-space characters the string ends with. */
  function TrailingSpaces(s: string): (k: nat)
    ensures k <= |s|
    ensures forall i :: |s| - k <= i < |s| ==> IsJsSpace(s[i])
    ensures k < |s| ==> !IsJsSpace(s[|s| - k - 1])
  {
    if |s| > 0 && IsJsSpace(s[|s| - 1]) then 1 + TrailingSpaces(s[..|s| - 1]) else 0
  }

  /** Drops leading white space. */
  function TrimStart(s: string): (r: string)
    ensures |r| <= |s| && (|r| > 0 ==> !IsJsSpace(r[0]))
  {
    s[LeadingSpaces(s)..]
  }

  /** Drops trailing white space. */
  function TrimEnd(s: string): (r: string)
    ensures |r| <= |s| && (|r| > 0 ==> !IsJsSpace(r[|r| - 1]))
  {
    s[..|s| - TrailingSpaces(s)]
  }

  /** `String.prototype.trim`. */
  function Trim(s: string): string {
    TrimEnd(TrimStart(s))
  }

  /** `replace(/\s+/g, ' ')`: every run of white space becomes one space. */
  function Collapse(s: string): (r: string)
    decreases |s|
    ensures |r| <= |s|
  {
    if |s| == 0 then ""
    else if IsJsSpace(s[0]) then " " + Collapse(TrimStart(s))
    else [s[0]] + Collapse(s[1..])
  }

  /** The characters that are not white space, in order. */
  function Visible(s: string): string {
    if |s| == 0 then ""
    else if IsJsSpace(s[0]) then Visible(s[1..])
    else [s[0]] + Visible(s[1..])
  }

  /** A string without two white-space characters in a row whose only white
      space is the plain space. */
  predicate Collapsed(r: string) {
    && (forall i :: 0 <= i < |r| && IsJsSpace(r[i]) ==> r[i] == ' ')
    && (forall i :: 0 <= i < |r| - 1 ==> !(IsJsSpace(r[i]) && IsJsSpace(r[i + 1])))
  }

  lemma {:induction false} VisibleOfSpaces(s: string)
    requires forall i :: 0 <= i < |s| ==> IsJsSpace(s[i])
    decreases |s|
    ensures Visible(s) == ""
  {
    if |s| > 0 {
      VisibleOfSpaces(s[1..]);
    }
  }

  lemma {:induction false} VisibleAppend(a: string, b: string)
    decreases |a|
    ensures Visible(a + b) == Visible(a) + Visible(b)
  {
    if |a| == 0 {
      assert a + b == b;
    } else {
      assert (a + b)[0] == a[0];
      assert (a + b)[1..] == a[1..] + b;
      VisibleAppend(a[1..], b);
    }
  }

  lemma VisibleOfTrimStart(s: string)
    ensures Visible(TrimStart(s)) == Visible(s)
  {
    var k := LeadingSpaces(s);
    assert s == s[..k] + s[k..];
    VisibleOfSpaces(s[..k]);
    VisibleAppend(s[..k], s[k..]);
  }

  lemma VisibleOfTrimEnd(s: string)
    ensures Visible(TrimEnd(s)) == Visible(s)
  {
    var k := |s| - TrailingSpaces(s);
    assert s == s[..k] + s[k..];
    VisibleOfSpaces(s[k..]);
    VisibleAppend(s[..k], s[k..]);
  }

  lemma VisibleOfTrim(s: string)
    ensures Visible(Trim(s)) == Visible(s)
  {
    VisibleOfTrimStart(s);
    VisibleOfTrimEnd(TrimStart(s));
  }

  /** Collapsing keeps the visible characters. */
  lemma {:induction false} CollapseVisible(s: string)
    decreases |s|
    ensures Visible(Collapse(s)) == Visible(s)
  {
    if |s| > 0 {
      if IsJsSpace(s[0]) {
        var t := TrimStart(s);
        CollapseVisible(t);
        VisibleOfTrimStart(s);
        VisibleAppend(" ", Collapse(t));
      } else {
        CollapseVisible(s[1..]);
        VisibleAppend([s[0]], Collapse(s[1..]));
      }
    }
  }

  /** Collapsing keeps the kind of the first and the last character, and
      only the empty string collapses to the empty string. */
  lemma {:induction false} CollapseEnds(s: string)
    decreases |s|
    ensures |Collapse(s)| == 0 <==> |s| == 0
    ensures |s| > 0 && !IsJsSpace(s[0]) ==> Collapse(s)[0] == s[0]
    ensures |s| > 0 && IsJsSpace(s[0]) ==> Collapse(s)[0] == ' '
    ensures |s| > 0 && !IsJsSpace(s[|s| - 1]) ==> !IsJsSpace(Collapse(s)[|Collapse(s)| - 1])
  {
    if |s| > 0 {
      if IsJsSpace(s[0]) {
        var t := TrimStart(s);
        CollapseEnds(t);
        if !IsJsSpace(s[|s| - 1]) {
          assert t[|t| - 1] == s[|s| - 1];
        }
      } else {
        CollapseEnds(s[1..]);
        if |s| > 1 {
          assert s[1..][|s| - 2] == s[|s| - 1];
        }
      }
    }
  }

  /** Collapsing leaves no run of white space and no white space but the
      plain space. */
  lemma {:induction false} CollapseShape(s: string)
    decreases |s|
    ensures Collapsed(Collapse(s))
  {
    if |s| > 0 {
      var r := Collapse(s);
      if IsJsSpace(s[0]) {
        var t := TrimStart(s);
        CollapseShape(t);
        CollapseEnds(t);
        var c := Collapse(t);
        assert r == " " + c;
        assert forall i :: 1 <= i < |r| ==> r[i] == c[i - 1];
      } else {
        CollapseShape(s[1..]);
        var c := Collapse(s[1..]);
        assert r == [s[0]] + c;
        assert forall i :: 1 <= i < |r| ==> r[i] == c[i - 1];
      }
    }
  }

  /** `content.trim().replace(/\s+/g, ' ')`. */
  function CleanCaption(content: string): (r: string)
    ensures |r| <= |content|
  {
    Collapse(Trim(content))
  }

  /** A string trims to nothing exactly when it is all white space. */
  lemma TrimEmpty(s: string)
    ensures Trim(s) == "" <==> forall i :: 0 <= i < |s| ==> IsJsSpace(s[i])
  {
    var a := TrimStart(s);
    assert |a| > 0 ==> !IsJsSpace(a[0]) && a[0] == s[|s| - |a|];
  }

  /** Trimming leaves no white space at either end. */
  lemma TrimEnds(s: string)
    ensures |Trim(s)| > 0 ==> !IsJsSpace(Trim(s)[0]) && !IsJsSpace(Trim(s)[|Trim(s)| - 1])
  {
    var a := TrimStart(s);
    var t := Trim(s);
    if |t| > 0 {
      assert t[0] == a[0];
    }
  }

  /** The cleaned caption keeps every visible character in order. */
  lemma CleanCaptionVisible(content: string)
    ensures Visible(CleanCaption(content)) == Visible(content)
  {
    VisibleOfTrim(content);
    CollapseVisible(Trim(content));
  }

  /** The cleaned caption has no white space at either end, no run of
      white space and no white space but the plain space. */
  lemma CleanCaptionShape(content: string)
    ensures Collapsed(CleanCaption(content))
    ensures var r := CleanCaption(content);
      |r| > 0 ==> !IsJsSpace(r[0]) && !IsJsSpace(r[|r| - 1])
  {
    var t := Trim(content);
    CollapseShape(t);
    CollapseEnds(t);
    TrimEnds(content);
  }

  /** The cleaned caption is empty exactly when the content is blank. */
  lemma CleanCaptionEmpty(content: string)
    ensures CleanCaption(content) == "" <==> forall i :: 0 <= i < |content| ==> IsJsSpace(content[i])
  {
    CollapseEnds(Trim(content));
    TrimEmpty(content);
  }

  /** The entity clean-up applied to the text content. */
  function DecodeQuotes(content: string): (r: string)
    ensures !Contains(content, "&#39;") && !Contains(content, "&quot;") ==> r == content
    ensures !Contains(r, "&#39;") && !Contains(r, "&quot;")
  {
    var apostrophes := ReplaceAll(content, "&#39;", "'");
    ReplaceAllAvoids(content, "&#39;", "'", "&#39;");
    ReplaceAllAvoids(apostrophes, "&quot;", "\"", "&quot;");
    ReplaceAllAvoids(apostrophes, "&quot;", "\"", "&#39;");
    ReplaceAllUnchanged(content, "&#39;", "'");
    ReplaceAllUnchanged(apostrophes, "&quot;", "\"");
    ReplaceAll(apostrophes, "&quot;", "\"")
  }

  /** A `<text start=...>` node once the markup has been parsed. */
  datatype CaptionNode = CaptionNode(start: real, content: string)

  /** The line one node contributes, if its cleaned text is not empty. */
  function CaptionLine(n: CaptionNode): (r: Option<string>)
    ensures r.Some? <==> CleanCaption(DecodeQuotes(n.content)) != ""
  {
    var clean := CleanCaption(DecodeQuotes(n.content));
    if clean != "" then Some("[" + FormatTime(n.start) + "] " + clean + "\n") else None
  }

  /** The pieces of a `[time] text` line, by position. */
  lemma LineSplit(t: string, c: string)
    ensures var l := "[" + t + "] " + c + "\n";
      && |l| == |t| + |c| + 4
      && l[0] == '[' && l[1..|t| + 1] == t && l[|t| + 1..|t| + 3] == "] "
      && l[|t| + 3..|l| - 1] == c && l[|l| - 1] == '\n'
  {
    var l := "[" + t + "] " + c + "\n";
    assert l == ("[" + t) + ("] " + c + "\n");
    assert l[1..|t| + 1] == ("[" + t)[1..];
    assert l[|t| + 1..] == "] " + c + "\n";
  }

  /** The layout of a transcript line `l` for a start time `start` with
      clock text `t` and caption text `c`: after `[` comes `t`, which for a
      non-negative start reads back as its whole seconds, then `] `, then
      `c`, which holds no line break, then the line break that ends it. */
  predicate LineLayout(l: string, t: string, c: string, start: real) {
    && |l| == |t| + |c| + 4
    && l[0] == '[' && l[1..|t| + 1] == t && l[|t| + 1..|t| + 3] == "] "
    && l[|t| + 3..|l| - 1] == c && l[|l| - 1] == '\n'
    && (start >= 0.0 ==> ParseClock(l[1..|t| + 1]) == Some(Floor(start)))
    && forall i :: 0 <= i < |c| ==> c[i] != '\n'
  }

  /** A `[time] text` line whose time text reads back and whose text is
      collapsed white space has that layout. */
  lemma LineReadsBack(l: string, t: string, c: string, start: real)
    requires l == "[" + t + "] " + c + "\n"
    requires start >= 0.0 ==> ParseClock(t) == Some(Floor(start))
    requires Collapsed(c)
    ensures LineLayout(l, t, c, start)
  {
    LineSplit(t, c);
    forall i | 0 <= i < |c|
      ensures c[i] != '\n'
    {
      if IsJsSpace(c[i]) {
        assert c[i] == ' ';
      }
    }
  }

  /** A transcript line reads back: it has the `LineLayout` of the clock
      text of the node's start and its cleaned caption. */
  lemma CaptionLineParts(n: CaptionNode)
    requires CaptionLine(n).Some?
    ensures LineLayout(CaptionLine(n).value, FormatTime(n.start), CleanCaption(DecodeQuotes(n.content)), n.start)
  {
    var t := FormatTime(n.start);
    var c := CleanCaption(DecodeQuotes(n.content));
    CleanCaptionShape(DecodeQuotes(n.content));
    if n.start >= 0.0 {
      FormatTimeRoundTrip(n.start);
    }
    assert CaptionLine(n).value == "[" + t + "] " + c + "\n";
    LineReadsBack(CaptionLine(n).value, t, c, n.start);
  }

  /** The transcript text: the lines of all nodes, in node order. */
  function TranscriptText(nodes: seq<CaptionNode>): (r: string)
    ensures |r| > 0 ==> r[|r| - 1] == '\n'
  {
    if |nodes| == 0 then ""
    else
      (match CaptionLine(nodes[0]) case Some(l) => l case None => "")
      + TranscriptText(nodes[1..])
  }

  /** Nodes contribute independently and in order. */
  lemma {:induction false} TranscriptTextAppend(a: seq<CaptionNode>, b: seq<CaptionNode>)
    decreases |a|
    ensures TranscriptText(a + b) == TranscriptText(a) + TranscriptText(b)
  {
    if |a| == 0 {
      assert a + b == b;
    } else {
      assert (a + b)[0] == a[0];
      assert (a + b)[1..] == a[1..] + b;
      TranscriptTextAppend(a[1..], b);
    }
  }

  /** The transcript is empty exactly when every node is blank. */
  lemma {:induction false} TranscriptTextEmpty(nodes: seq<CaptionNode>)
    decreases |nodes|
    ensures TranscriptText(nodes) == "" <==> forall i :: 0 <= i < |nodes| ==> CaptionLine(nodes[i]).None?
  {
    if |nodes| > 0 {
      TranscriptTextEmpty(nodes[1..]);
      assert forall i :: 1 <= i < |nodes| ==> nodes[i] == nodes[1..][i - 1];
    }
  }

  // ---------------------------------------------------------------------
  // Caption tracks and titles

  datatype CaptionTrack = CaptionTrack(languageCode: string, baseUrl: string)

  const NoCaptionsMessage := "No captions/transcripts found for this video."

  /** Index of the first track in the language. */
  function FindLanguage(tracks: seq<CaptionTrack>, code: string): (r: Option<nat>)
    ensures r.Some? ==> r.value < |tracks| && tracks[r.value].languageCode == code
    ensures r.Some? ==> forall j :: 0 <= j < r.value ==> tracks[j].languageCode != code
    ensures r.None? <==> forall j :: 0 <= j < |tracks| ==> tracks[j].languageCode != code
  {
    if |tracks| == 0 then None
    else if tracks[0].languageCode == code then Some(0)
    else match FindLanguage(tracks[1..], code)
      case None => None
      case Some(k) => Some(k + 1)
  }

  /** The track the page script downloads: the first Vietnamese track,
      else the first English one, else the first track; no tracks at all
      is an error. */
  function SelectTrack(tracks: Option<seq<CaptionTrack>>): (r: Result<CaptionTrack, string>)
    ensures r.Err? <==> tracks.None? || |tracks.value| == 0
    ensures r.Ok? ==> r.value in tracks.value
    ensures r.Ok? && (exists j :: 0 <= j < |tracks.value| && tracks.value[j].languageCode == "vi")
      ==> r.value.languageCode == "vi"
    ensures r.Ok? && r.value.languageCode != "vi" && r.value.languageCode != "en" ==> r.value == tracks.value[0]
  {
    match tracks
    case None => Err(NoCaptionsMessage)
    case Some(ts) =>
      if |ts| == 0 then Err(NoCaptionsMessage)
      else match FindLanguage(ts, "vi")
        case Some(i) => Ok(ts[i])
        case None => match FindLanguage(ts, "en")
          case Some(i) => Ok(ts[i])
          case None => Ok(ts[0])
  }

  /** The preference is exact: the chosen track precedes every other track
      of its language, and an English choice means no Vietnamese track. */
  lemma SelectTrackIsFirst(ts: seq<CaptionTrack>, j: nat)
    requires j < |ts|
    ensures SelectTrack(Some(ts)).Ok?
    ensures ts[j].languageCode == "en" ==> SelectTrack(Some(ts)).value.languageCode in {"vi", "en"}
    ensures ts[j].languageCode == "vi" && (forall k :: 0 <= k < j ==> ts[k].languageCode != "vi")
      ==> SelectTrack(Some(ts)).value == ts[j]
    ensures ts[j].languageCode == "en" && (forall k :: 0 <= k < |ts| ==> ts[k].languageCode != "vi")
      && (forall k :: 0 <= k < j ==> ts[k].languageCode != "en")
      ==> SelectTrack(Some(ts)).value == ts[j]
  {
    if ts[j].languageCode == "vi" && (forall k :: 0 <= k < j ==> ts[k].languageCode != "vi") {
      assert FindLanguage(ts, "vi") == Some(j);
    }
    if ts[j].languageCode == "en" && (forall k :: 0 <= k < |ts| ==> ts[k].languageCode != "vi")
      && (forall k :: 0 <= k < j ==> ts[k].languageCode != "en") {
      assert FindLanguage(ts, "en") == Some(j);
    }
  }

  /** The video title sent with a transcript: `document.title` without its
      first " - YouTube". */
  function PageTitle(documentTitle: string): (r: string)
    ensures !Contains(documentTitle, " - YouTube") ==> r == documentTitle
    ensures Contains(documentTitle, " - YouTube") ==> |r| == |documentTitle| - 10
    ensures Contains(documentTitle, " - YouTube") ==>
      var i := IndexOf(documentTitle, " - YouTube").value;
      r == documentTitle[..i] + documentTitle[i + 10..]
  {
    ReplaceFirst(documentTitle, " - YouTube", "")
  }

  predicate IsAsciiAlnum(c: char) {
    ('a' <= c <= 'z') || ('A' <= c <= 'Z') || ('0' <= c <= '9')
  }

  function AsciiLower(c: char): char {
    if 'A' <= c <= 'Z' then (c as int + 32) as char else c
  }

  /** `replace(/[^a-z0-9]/gi, '_')` then `toLowerCase()` of one character. */
  function TitleChar(c: char): (r: char)
    ensures ('a' <= r <= 'z') || ('0' <= r <= '9') || r == '_'
  {
    if IsAsciiAlnum(c) then AsciiLower(c) else '_'
  }

  /** The file-name title of a downloaded transcript: a missing or empty
      title becomes "video"; otherwise every character is kept lower-cased
      if it is an ASCII letter or digit and replaced by `_` if not. */
  function DownloadTitle(title: Option<string>): (r: string)
    ensures title.None? || title.value == "" ==> r == "video"
    ensures title.Some? && title.value != "" ==> |r| == |title.value|
    ensures title.Some? && title.value != "" ==>
      forall i :: 0 <= i < |r| ==> r[i] == TitleChar(title.value[i])
  {
    if title.None? || title.value == "" then "video"
    else seq(|title.value|, i requires 0 <= i < |title.value| => TitleChar(title.value[i]))
  }

  /** The title uses only `[a-z0-9_]`, so sanitising it again changes
      nothing. */
  lemma DownloadTitleIdempotent(title: Option<string>)
    ensures forall i :: 0 <= i < |DownloadTitle(title)| ==>
      var c := DownloadTitle(title)[i]; ('a' <= c <= 'z') || ('0' <= c <= '9') || c == '_'
    ensures DownloadTitle(Some(DownloadTitle(title))) == DownloadTitle(title)
  {
  }
}

=== FILE: wire.dfy ===
/** The messages exchanged over the live socket: the outbound `setup` and
    `realtime_input` records (as data, not JSON text), the encoding of one
    accumulator frame into an audio chunk, and the decode half of
    `playPcmAudio`. */
module Wire {
  import opened Wrappers
  import opened PcmCodec
  import opened Base64
  import opened Platform

  datatype Modality = Text | Audio

  datatype MediaChunk = MediaChunk(mimeType: string, data: string)

  /** An outbound socket message. */
  datatype Outbound =
    | Setup(model: string, responseModalities: seq<Modality>, voiceName: Option<string>)
    | RealtimeInput(mediaChunks: seq<MediaChunk>)

  const PcmMimeType := "audio/pcm"

  /** The fixed part of the endpoint, up to and including `?key=`. */
  const SocketBase :=
    "wss://generativelanguage.googleapis.com/ws/google.ai.generativelanguage.v1alpha.GenerativeService.BidiGenerateContent?key="

  /** The endpoint both sessions open, with the key as query parameter,
      inserted without escaping. */
  function SocketUrl(renderedKey: string): (url: string)
    ensures |url| == |SocketBase| + |renderedKey|
    ensures url[..|SocketBase|] == SocketBase && url[|SocketBase|..] == renderedKey
  {
    SocketBase + renderedKey
  }

  /** Different keys open different endpoints: the URL determines the key. */
  lemma SocketUrlInjective(a: string, b: string)
    requires SocketUrl(a) == SocketUrl(b)
    ensures a == b
  {
    assert a == SocketUrl(a)[|SocketBase|..];
  }

  /** The bytes of `floatTo16BitPCM(frame).buffer`. */
  function FrameBytes(frame: seq<real>): (b: seq<Byte>)
    ensures |b| == 2 * |frame|
  {
    ToBytes(FloatTo16BitPCM(frame))
  }

  /** `sendAudioChunk` / `sendTalkAudioChunk`: one `realtime_input` message
      with one `audio/pcm` chunk holding the Base64 text of the frame. */
  function AudioChunkMessage(frame: seq<real>): (m: Outbound)
    ensures m.RealtimeInput? && |m.mediaChunks| == 1
    ensures m.mediaChunks[0].mimeType == PcmMimeType
    ensures |m.mediaChunks[0].data| == 4 * ((2 * |frame| + 2) / 3)
  {
    RealtimeInput([MediaChunk(PcmMimeType, ArrayBufferToBase64(FrameBytes(frame)))])
  }

  /** The worklet's frame handler, the same in both sessions: a frame is
      sent, as its audio chunk, only while the session holds a socket that
      is open. */
  function SendFrame(ws: Option<Handle>, socketOpen: bool, frame: seq<real>): (r: Option<Outbound>)
    ensures r.Some? <==> ws.Some? && socketOpen
    ensures r.Some? ==> r.value == AudioChunkMessage(frame)
  {
    if ws.Some? && socketOpen then Some(AudioChunkMessage(frame)) else None
  }

  /** Why `playPcmAudio` throws before playing anything. */
  datatype PlaybackError =
    | BadBase64      // `atob` rejects the text
    | OddByteLength  // `new Int16Array(buffer)` rejects an odd byte length

  /** The decode half of `playPcmAudio`: Base64 text to bytes, bytes to
      little-endian 16-bit samples, each divided by 32768. */
  function DecodePcmAudio(data: string): (r: Result<seq<real>, PlaybackError>)
    ensures r.Err? <==> Atob(data).Err? || |Atob(data).value| % 2 == 1
    ensures r.Ok? ==> 2 * |r.value| == |Atob(data).value|
    ensures r.Ok? ==> forall i :: 0 <= i < |r.value| ==> -1.0 <= r.value[i] < 1.0
    // sample i is the signed little-endian pair at bytes 2i and 2i + 1, over 32768
    ensures r.Ok? ==> var b := CharCodes(Atob(data).value);
      forall i :: 0 <= i < |r.value| ==> r.value[i] * 32768.0 == ReadInt16(b[2 * i], b[2 * i + 1]) as real
  {
    match Atob(data)
    case Err(_) => Err(BadBase64)
    case Ok(binary) =>
      var bytes := CharCodes(binary);
      if |bytes| % 2 != 0 then Err(OddByteLength)
      else
        var ints := FromBytes(bytes);
        forall i | 0 <= i < |ints|
          ensures ints[i] == ReadInt16(bytes[2 * i], bytes[2 * i + 1])
        {
          FromBytesAt(bytes, i);
        }
        Ok(seq(|ints|, i requires 0 <= i < |ints| => DecodeSample(ints[i])))
  }

  /** End to end: the playback decoder applied to the chunk a frame is sent
      as yields, per sample, the decoding of that sample's 16-bit code, so
      every sample comes back within two quantisation steps of its clamped
      value, with the same sign or zero. */
  lemma ChunkRoundTrip(frame: seq<real>)
    ensures DecodePcmAudio(AudioChunkMessage(frame).mediaChunks[0].data).Ok?
    ensures var out := DecodePcmAudio(AudioChunkMessage(frame).mediaChunks[0].data).value;
      && |out| == |frame|
      && forall i :: 0 <= i < |frame| ==> out[i] == DecodeSample(EncodeSample(frame[i]))
  {
    var ints := FloatTo16BitPCM(frame);
    var bytes := ToBytes(ints);
    AtobOfArrayBufferToBase64(bytes);
    FromToBytes(ints);
  }

  /** The per-sample error bound of `ChunkRoundTrip`. */
  lemma ChunkSampleError(frame: seq<real>, i: nat)
    requires i < |frame|
    ensures DecodePcmAudio(AudioChunkMessage(frame).mediaChunks[0].data).Ok?
    ensures var out := DecodePcmAudio(AudioChunkMessage(frame).mediaChunks[0].data).value;
      var s := Clamp(frame[i]);
      && i < |out|
      && (s >= 0.0 ==> 0.0 <= out[i] <= s && s - out[i] < 2.0 / 32768.0)
      && (s < 0.0 ==> s <= out[i] <= 0.0 && out[i] - s < 1.0 / 32768.0)
  {
    ChunkRoundTrip(frame);
    DecodeEncode(frame[i]);
  }
}

=== FILE: wrappers.dfy ===
/** Failure-compatible result types shared by every module of the model. */
module Wrappers {

  /** A value that may be absent (JavaScript `null`/`undefined` where the
      distinction does not matter). */
  datatype Option<+T> = None | Some(value: T) {
    predicate IsFailure() {
      None?
    }

    function PropagateFailure<U>(): Option<U>
      requires None?
    {
      None
    }

    function Extract(): T
      requires Some?
    {
      value
    }
  }

  /** The outcome of an operation that may throw or report an error. */
  datatype Result<+T, +E> = Ok(value: T) | Err(error: E) {
    predicate IsFailure() {
      Err?
    }

    function PropagateFailure<U>(): Result<U, E>
      requires Err?
    {
      Err(error)
    }

    function Extract(): T
      requires Ok?
    {
      value
    }
  }
}
